=== FILE: README.md ===
# OptiTrade trading core, modelled in Dafny

OptiTrade is a crypto trading bot with a web backend. A reinforcement-learning
policy proposes BUY / SELL / HOLD. The risk manager admits or rejects each
proposal against configured limits. The trading executor then fills it on
paper or sends it to an exchange. The backend keeps a position ledger and a
per-model performance tracker. A backtest engine replays a policy over
historical data inside a simulated exchange and summarises the run.

This project models that core and proves properties of the model:

- `risk_manager.dfy`, module `RiskManagement`:
  - the risk limits and their defaults;
  - the daily loss/trade window with its lazy reset when the day advances;
  - the ordered admission checks;
  - fixed-fractional position sizing;
  - stop-loss and take-profit prices and their triggers;
  - the per-symbol position-risk map.

  `RiskManager` is a class whose methods update the window and the map in place.
- `trading_executor.dfy`, module `TradingExecution`:
  - the decision procedure for one proposal: HOLD short-circuit, side choice, default sizing, risk admission, then paper or live dispatch;
  - the paper/live mode switch;
  - the stop-loss / take-profit scan over open positions.

  `TradingExecutor` is a class over a `RiskManager`.
- `backtest_metrics.dfy`, `backtest_replay.dfy` and `backtest_columns.dfy`, modules `BacktestMetrics`, `BacktestReplay` and `BacktestColumns`, cover the backtest engine:
  - the summary metrics, with the per-trade tally loop and its equity-curve fallback;
  - the bookkeeping of the replay loop;
  - the standardisation of a dataset's column names, with its mapping loops.
- `performance_tracker.dfy`, module `PerformanceTracking`: the per-model performance tracker. It is a class holding a map of per-model counters and the insertion order of its keys.
- `position_ledger.dfy`, module `PositionLedger`:
  - the backend's position table and trade recording: weighted-average entry on BUY, reduce-or-delete on SELL, and realized and unrealized P&L;
  - the dashboard win rate;
  - the portfolio valuation;
  - the partial update of the risk limits;
  - the percent-to-fraction conversion.
- `a2c_env.dfy` and `experiment_env.dfy`, modules `A2CEnvironment` and `ExperimentEnvironment`: the two trading environments. Each is a class whose `Step` advances the row index and updates equity, position, fees, peak and drawdown. Each `Step` is proved against a pure `Advance` function.
- `model_service.dfy`, module `ModelService`: the demonstration decision service, a threshold rule on the sum of the features.
- `wrappers.dfy`, `numbers.dfy`, `text.dfy` and `rows.dfy` are shared helpers:
  - `Option`;
  - real-number helpers;
  - ASCII case mapping;
  - pandas-style positional row access. A missing row is an outcome, as pandas' IndexError is.

Money, prices and percentages are unbounded reals without rounding. Dates are
day numbers passed in by the caller. Timestamps are reals passed in by the
caller. Python exceptions that escape an operation are result values:

- a missing row;
- a missing price, or a missing quantity, reaching the risk check's first multiplication;
- a held position whose `quantity` key is present but `None`;
- a position entry in the stop-loss / take-profit scan whose `avg_price`, `current_price` or `quantity` holds `None`: it passes the guard and aborts the scan in the pnl arithmetic;
- a missing pnl in the performance tracker;
- the `TypeError` of adding a float pnl to the `Decimal` realized P&L (see Findings).

Three facts about the admission check and the daily limit, as the code has them:

- The admission check has no "trading halted" flag. It does not look at the exposure already held for the symbol. It resets the daily window itself when the day has advanced.
- The daily limit is the absolute `max_daily_loss`, not a fraction of a day-start balance.
- The risk-per-trade check multiplies both sides by the same percentage. For a positive percentage it therefore rejects exactly when the notional exceeds the balance (`RiskManagement.RiskCheckIsNotionalOverBalance`).

## Model

| member | source | states |
|---|---|---|
| RiskManagement.DefaultLimits | backend/risk_manager.py:26-36 | the default limits: max position 1000, daily loss 500, risk 2%, stop 5%, take 10%, leverage 1, min balance 1000, 5 open positions |
| RiskManagement.RiskManager.constructor | backend/risk_manager.py:55-66 | given limits or the defaults when none are given; an empty daily window dated today; no positions |
| RiskManagement.ResetIfNewDay | backend/risk_manager.py:74-81 | a later day zeroes loss and trade count and records the day; the same or an earlier day changes nothing |
| RiskManagement.ResetIdempotent | backend/risk_manager.py:74-81 | resetting twice on the same day is resetting once; the reset date never moves back |
| RiskManagement.RiskManager.ResetDailyStats | backend/risk_manager.py:74-81 | the window after the call is the lazy reset of the old window |
| RiskManagement.MinBalanceFirst | backend/risk_manager.py:106-110 | a balance below the minimum is rejected for that reason, before any other check |
| RiskManagement.RejectionOrder | backend/risk_manager.py:106-127 | a notional rejection implies the balance check passed; an open-count rejection implies the two earlier ones passed; a risk rejection implies the three earlier passed; admission never reports a daily-loss reason |
| RiskManagement.AllowedExactly | backend/risk_manager.py:106-127 | with a positive risk percentage a trade is admitted iff balance ≥ minimum, notional ≤ cap, open positions < maximum and notional ≤ balance |
| RiskManagement.RiskCheckIsNotionalOverBalance | backend/risk_manager.py:122-125 | with a positive risk percentage the risk amount exceeds the balance's share iff the notional exceeds the balance |
| RiskManagement.ZeroRiskNeverRejectsOnRisk | backend/risk_manager.py:122-125 | with a zero risk percentage the risk check never fires |
| RiskManagement.RiskManager.CheckTradeAllowed | backend/risk_manager.py:83-127 | resets the window if the day advanced, then returns the ordered admission decision for the notional and the number of existing positions; nothing else changes |
| RiskManagement.TradeCheck | backend/risk_manager.py:106-127 | admission implies balance ≥ minimum, notional ≤ cap and fewer open positions than the maximum; it never rejects for the daily loss; it rejects for the balance iff the balance is below the minimum |
| RiskManagement.EffectiveRiskPercent | backend/risk_manager.py:145-146 | a missing or zero risk percentage falls back to the configured risk per trade, any other value is used as given |
| RiskManagement.PositionSize | backend/risk_manager.py:129-159 | for a positive price, a non-negative balance, cap and percentage the size is not negative |
| RiskManagement.PositionSizeBounds | backend/risk_manager.py:129-159 | for a positive price the sized notional is at most the cap and at most the risk budget, and equals one of the two |
| RiskManagement.PositionSizeFallback | backend/risk_manager.py:145-159 | sizing without a percentage, with 0, and with the configured percentage give the same size |
| RiskManagement.DailyLossCheck | backend/risk_manager.py:161-178 | rejects iff the pnl is a loss that takes the day's loss over the limit, reporting the new loss and the limit |
| RiskManagement.RiskManager.CheckDailyLoss | backend/risk_manager.py:161-178 | resets the window if needed and reports the daily-loss decision without booking the pnl |
| RiskManagement.BookTrade | backend/risk_manager.py:180-188 | every trade counts once; a loss adds its magnitude to the day's loss, a gain or zero adds nothing; the loss never decreases |
| RiskManagement.BookAllLossGrows | backend/risk_manager.py:180-188 | booking any sequence of trades keeps the reset date, counts each trade and never lowers the loss |
| RiskManagement.RiskManager.RecordTrade | backend/risk_manager.py:180-188 | the window after the call is the trade booked on the lazily reset window |
| RiskManagement.StopPersistsWithinDay | backend/risk_manager.py:295-298 | once the loss has reached the limit, further trades on the same day keep trading stopped |
| RiskManagement.StopLossPrice | backend/risk_manager.py:190-206 | for a non-negative entry and percentage a buy's stop is at or below the entry and a sell's at or above; a 0% stop is the entry |
| RiskManagement.TakeProfitPrice | backend/risk_manager.py:208-224 | for a non-negative entry and percentage a buy's take is at or above the entry and a sell's at or below; a 0% take is the entry |
| RiskManagement.ExitPricesMirror | backend/risk_manager.py:190-224 | buy and sell stop prices, and buy and sell take prices, lie symmetrically around the entry; for a long position stop ≤ entry ≤ take |
| RiskManagement.CheckStopLoss | backend/risk_manager.py:226-244 | fires iff a non-zero stop price is set and the current price is at or below it |
| RiskManagement.CheckTakeProfit | backend/risk_manager.py:246-264 | fires iff a non-zero take price is set and the current price is at or above it |
| RiskManagement.RecordedPositionPnl | backend/risk_manager.py:266-282 | the stored record's unrealized pnl is (current − entry)·quantity, positive for a rise and negative for a fall of a long position |
| RiskManagement.RecordedPositionStop | backend/risk_manager.py:266-282 | for a recorded long position the stop fires exactly at or below entry·(1 − sl/100) |
| RiskManagement.RecordedPositionTake | backend/risk_manager.py:266-282 | for a recorded long position the take fires exactly at or above entry·(1 + tp/100) |
| RiskManagement.MakePositionRisk | backend/risk_manager.py:266-280 | the record carries its symbol and both exit prices; the pnl percentage times the entry is (current − entry)·100; the pnl times 100 is the percentage times entry·quantity |
| RiskManagement.RiskManager.UpdatePosition | backend/risk_manager.py:266-282 | the symbol's risk record is replaced by the one built from the prices and quantity; other symbols keep theirs |
| RiskManagement.DailyStatsOf | backend/risk_manager.py:284-293 | reports loss, trades and limit; the remaining capacity is never negative and is 0 once the limit is reached; the percentage used is 0 for a non-positive limit |
| RiskManagement.RiskManager.GetDailyStats | backend/risk_manager.py:284-293 | resets the window if needed, then reports its statistics |
| RiskManagement.ShouldStop | backend/risk_manager.py:295-298 | trading stops iff the reported remaining loss capacity is 0 |
| RiskManagement.RiskManager.ShouldStopTrading | backend/risk_manager.py:295-298 | resets the window if needed; true iff the day's loss has reached the limit |
| TradingExecution.MockPrice | backend/trading_executor.py:99-100 | 50000 for a symbol containing BTC, 3000 for any other |
| TradingExecution.SideOf | backend/trading_executor.py:103 | "buy" iff the action upper-cases to BUY, "sell" otherwise |
| TradingExecution.QuotedPrice | backend/trading_executor.py:93-100 | a given prediction is used as is; without one and without a client the mock price; none exactly when only a client without a price is left |
| TradingExecution.Fee | backend/trading_executor.py:195-219 | the fee is a thousandth of amount·price, and for non-negative inputs between 0 and amount·price |
| TradingExecution.PaperTrade | backend/trading_executor.py:208-231 | an executed paper fill at the requested amount and price, side upper-cased, fee amount·price·0.001 |
| TradingExecution.LiveTrade | backend/trading_executor.py:148-206 | an error without a client or with an unauthenticated one, an error when the exchange answers with an error, carrying its `message` entry (a `None` there as is, "Order failed" when the key is missing); otherwise executed at the order's `price` entry when the key is present (a `None` there is reported as is), at the requested price when the key is missing or there is no reply, with the 0.1% fee on the requested price |
| TradingExecution.Prepare | backend/trading_executor.py:84-122 | the stage before the risk check never executes anything, and a proposal that reaches the check carries the side chosen from the action |
| TradingExecution.CheckAndDispatch | backend/trading_executor.py:124-146 | an executed result passed the balance check and every admission check for the checked amount and price; a rejection by the checks is reported and not dispatched; past the balance check a `None` quantity raises |
| TradingExecution.Execute | backend/trading_executor.py:61-146 | HOLD in any case is skipped; an executed trade had a non-HOLD action, a balance at the minimum or above, and the side chosen from the action |
| TradingExecution.HoldIsSkipped | backend/trading_executor.py:84-90 | HOLD in any letter case is skipped before the risk check or any order |
| TradingExecution.HoldSpellings | backend/trading_executor.py:84 | "hold", "Hold" and "HOLD" all upper-case to HOLD |
| TradingExecution.ExecutedSide | backend/trading_executor.py:103 | an executed trade is a BUY iff the action upper-cases to BUY, a SELL otherwise |
| TradingExecution.SellWithoutPosition | backend/trading_executor.py:113-122 | a SELL without amount and without a position for the symbol ends in an error before the risk check |
| TradingExecution.DefaultSizing | backend/trading_executor.py:105-122 | without an amount a BUY is sized by the risk manager and a SELL takes the held quantity |
| TradingExecution.NullQuantityRaises | backend/trading_executor.py:113-132 | a SELL without amount of a held symbol whose `quantity` is `None` raises at the risk check; a missing `quantity` key sells 0 |
| TradingExecution.ExecutedOnlyIfAdmitted | backend/trading_executor.py:124-146 | an executed trade was admitted with the amount and price that were checked; a rejected one is never dispatched |
| TradingExecution.PaperFill | backend/trading_executor.py:142-146 | outside live mode an executed trade is a paper fill at the requested price with fee amount·price·0.001 |
| TradingExecution.LiveNeedsAuthenticatedClient | backend/trading_executor.py:156-166 | in live mode without an authenticated client nothing is executed |
| TradingExecution.TradingExecutor.constructor | backend/trading_executor.py:23-57 | the mode is lower-cased; live mode keeps the connected client, a failed connection falls back to paper without a client |
| TradingExecution.SwitchModeOutcomes | backend/trading_executor.py:237-254 | switching to paper clears the client; a failed paper-to-live switch stays in paper; a successful one holds the new client; an unknown mode changes nothing |
| TradingExecution.TradingExecutor.SwitchMode | backend/trading_executor.py:237-254 | mode and client after the call are the switched state |
| TradingExecution.TradingExecutor.ExecuteTrade | backend/trading_executor.py:61-146 | the result is the decision procedure's; the daily window is reset exactly when the risk check is reached and nothing else in the risk manager changes |
| TradingExecution.PassesGuard | backend/trading_executor.py:261-267 | an entry past the guard has a non-empty symbol and no missing price; a `None` price is not equal to 0, so an entry with a symbol and `None` prices passes |
| TradingExecution.Eligible | backend/trading_executor.py:261-270 | an entry is scanned iff it passes the guard and does not raise: its average and current prices are non-zero numbers and its quantity is not `None` |
| TradingExecution.Quantity | backend/trading_executor.py:264 | the quantity read with `get("quantity", 0)`: 0 for a missing key |
| TradingExecution.CloseActionFor | backend/trading_executor.py:260-295 | an action only for an eligible entry, selling its whole quantity at the current price; stop loss is checked first and take profit only when the stop does not fire |
| TradingExecution.CloseActionsSound | backend/trading_executor.py:256-297 | the scan emits no more actions than entries, and each action is the one some entry calls for |
| TradingExecution.FiringIndices | backend/trading_executor.py:260-297 | the positions of the entries that call for a SELL, strictly increasing, and every such entry is listed |
| TradingExecution.CloseActionsOnePerEntry | backend/trading_executor.py:260-297 | exactly one action per firing entry, in list order: the k-th action is the one of the k-th firing entry |
| TradingExecution.CloseActionsComplete | backend/trading_executor.py:272-297 | every entry whose stop loss or take profit fires gets its SELL in the output |
| TradingExecution.CloseActions | backend/trading_executor.py:256-297 | no more actions than entries, each for a non-empty symbol (one per firing entry: CloseActionsOnePerEntry) |
| TradingExecution.TrackRisks | backend/trading_executor.py:260-270 | existing records are kept or overwritten, never dropped; every written record is stored under its own non-empty symbol (what is stored: TrackRisksValues) |
| TradingExecution.TrackRisksValues | backend/trading_executor.py:260-270 | the record stored for a symbol is that of the last eligible entry with the symbol, or the previous record when no eligible entry has it |
| TradingExecution.Processed | backend/risk_manager.py:266-268 | the scan gets through exactly the entries before the first one that raises in the pnl arithmetic |
| TradingExecution.Scan | backend/trading_executor.py:256-297 | a TypeError iff some entry raises; otherwise the actions of the scan |
| TradingExecution.NullFieldRaises | backend/trading_executor.py:261-270 | an entry past the guard with a `None` average price, current price or quantity aborts the scan; a missing quantity is read as 0 and the entry is scanned |
| TradingExecution.TrackRisksKeys | backend/trading_executor.py:260-270 | the scan records a risk entry for exactly the eligible entries' symbols, beside the existing ones |
| TradingExecution.TradingExecutor.CheckAndClosePositions | backend/trading_executor.py:256-297 | returns the scan's result (its actions in list order, or the TypeError of an entry holding `None`) and writes the risk records of the entries before the first raising one |
| BacktestMetrics.RunningPeak | backend/backtest_engine.py:414 | the running peak is at least every point and is one of them |
| BacktestMetrics.MinDrawdown | backend/backtest_engine.py:413-416 | defined iff every point's drawdown is, and then at most every point's drawdown; an empty curve reports 0 |
| BacktestMetrics.MinDrawdownAttained | backend/backtest_engine.py:413-416 | the minimum is the drawdown of some point, so it is the least of them |
| BacktestMetrics.DrawdownBounds | backend/backtest_engine.py:414-416 | with positive equities every drawdown is defined, and the minimum lies in (−100, 0] |
| BacktestMetrics.DrawdownExample | backend/backtest_engine.py:414-416 | the curve 10000, 11000, 9000, 12000 has its worst drawdown at 9000 against 11000 |
| BacktestMetrics.CombinedDrawdownIsConservative | backend/backtest_engine.py:418-424 | the environment's drawdown (×100) can only tighten the curve's drawdown; without it the curve's value is reported |
| BacktestMetrics.TallyStep | backend/backtest_engine.py:437-447 | wins, profit and loss never decrease; profit minus loss moves by the equity move; a non-record trade changes nothing |
| BacktestMetrics.Tally | backend/backtest_engine.py:432-448 | a list without record trades leaves the tally at its start |
| BacktestMetrics.TallyFacts | backend/backtest_engine.py:436-448 | profit minus loss telescopes to the last recorded equity minus the initial balance; both are non-negative; wins ≤ record count; profit iff a win |
| BacktestMetrics.DictCount | backend/backtest_engine.py:437-438 | the number of record trades is at most the number of trades |
| BacktestMetrics.Diffs | backend/backtest_engine.py:453 | numpy's diff: one element fewer, each the difference of neighbours |
| BacktestMetrics.CountPositive | backend/backtest_engine.py:454-458 | the count of rises is at most the number of differences |
| BacktestMetrics.FallbackTelescopes | backend/backtest_engine.py:451-460 | the positive and non-positive parts of the differences add to the curve's total change, with their signs |
| BacktestMetrics.Outcome | backend/backtest_engine.py:450-460 | the pass's figures are kept unless it found no win and no profit over a curve of two or more points; the fallback's wins are at most the curve's moves, its profit and loss non-negative and their difference the curve's total change |
| BacktestMetrics.ProfitFactor | backend/backtest_engine.py:463 | with a loss, factor·loss = profit; without one, the profit if positive, else 0 |
| BacktestMetrics.PercentOf | backend/backtest_engine.py:402 | the percentage times the whole is the part times 100 |
| BacktestMetrics.ReturnPercent | backend/backtest_engine.py:402 | defined iff the initial balance is not 0, and then the percentage times the initial balance is the return times 100 |
| BacktestMetrics.WinRateOf | backend/backtest_engine.py:462-465 | never negative, and 0 without trades |
| BacktestMetrics.ReportedProfitFactor | backend/backtest_engine.py:463-475 | never negative, and 0 without trades |
| BacktestMetrics.DefaultMetrics | backend/backtest_engine.py:479-491 | final balance is the initial one, every other figure 0 |
| BacktestMetrics.MetricsOf | backend/backtest_engine.py:389-477 | final balance = initial + return; for a non-empty curve the final balance is its last point, the trade count the list's length and the percentage the return relative to the initial balance (`ReturnPercent`); an empty curve reports no trades and the initial balance; win rate and profit factor never negative |
| BacktestMetrics.ProfitFactorCases | backend/backtest_engine.py:463 | profit over loss when there is a loss, the profit itself otherwise, never negative |
| BacktestMetrics.EmptyEquitiesGiveDefaults | backend/backtest_engine.py:397-398 | no equities give the default metrics: final balance = initial, everything else 0 |
| BacktestMetrics.TotalReturnIsLastMinusInitial | backend/backtest_engine.py:400-402 | the return is the last equity minus the initial balance, and its percentage is relative to a non-zero initial balance |
| BacktestMetrics.NoTradesNoRates | backend/backtest_engine.py:464-466 | without trades win rate and profit factor are 0 |
| BacktestMetrics.OutcomeNonNegative | backend/backtest_engine.py:427-461 | profit and loss after the fallback are never negative |
| BacktestMetrics.ProfitFactorReported | backend/backtest_engine.py:463-475 | the raw profit factor is never negative, so the reporting guard returns it unchanged |
| BacktestMetrics.WinRateFromTradesIsPercentage | backend/backtest_engine.py:436-462 | when the trade pass found a win, the win rate lies in (0, 100] |
| BacktestMetrics.FallbackWinRateCanExceed100 | backend/backtest_engine.py:451-462 | the fallback counts rises of the curve, so one non-record trade over 1, 2, 3 gives 200% |
| BacktestMetrics.TallyTrades | backend/backtest_engine.py:432-448 | the loop's accumulators are the tally of the trade list |
| BacktestMetrics.CalculateMetrics | backend/backtest_engine.py:389-477 | the computed metrics are MetricsOf over the equities, trades and environment drawdown |
| BacktestMetrics.TradeRates | backend/backtest_engine.py:426-466 | the loop's win rate and reported profit factor are WinRateOf and ReportedProfitFactor |
| BacktestReplay.StepsFrom | backend/backtest_engine.py:331-355 | the steps taken from a point never run past the limit |
| BacktestReplay.StepsStopAtFirstFinish | backend/backtest_engine.py:331-355 | no step before the last reported done or truncated; a run shorter than the limit ended on such a step |
| BacktestReplay.StepsTaken | backend/backtest_engine.py:320-355 | at most len(df) − window − 1 steps (none when that is not positive); no step before the last reported done or truncated; a run shorter than the limit ends on such a step |
| BacktestReplay.EquityTrail | backend/backtest_engine.py:344 | one equity per step, in step order |
| BacktestReplay.LastHundred | backend/backtest_engine.py:377 | the last min(100, n) points of the list |
| BacktestReplay.ReplaySteps | backend/backtest_engine.py:318-355 | the loop takes the specified number of steps, collects the initial equity and one equity per step, and keeps the longest trade list reported |
| BacktestReplay.Finish | backend/backtest_engine.py:357-379 | the environment's final trade list replaces the collected one when longer; the trade count is that list's length; at most 100 equities are shown |
| BacktestReplay.RunReplay | backend/backtest_engine.py:318-379 | at most len(df) − window − 1 steps; one more equity than steps; the last 100 shown; the trade list is at least as long as every list the environment reported |
| BacktestColumns.Names | backend/backtest_engine.py:142 | the column names in frame order |
| BacktestColumns.LowerIndex | backend/backtest_engine.py:142 | every column's lower-case name is a key, mapped to a column with that lower-case name |
| BacktestColumns.LowerIndexLastWins | backend/backtest_engine.py:142 | among columns with the same lower-case name the last one is the one indexed |
| BacktestColumns.FirstPresent | backend/backtest_engine.py:155-157 | none iff no pattern names a column; otherwise a pattern of the list that names one |
| BacktestColumns.AssignGroup | backend/backtest_engine.py:155-161 | with no present pattern, or in exclusive mode with the standard name taken, the mapping is unchanged; otherwise the first present pattern's column is mapped to the standard name |
| BacktestColumns.MappingOf | backend/backtest_engine.py:154-161 | every mapped key is a column named in the lower-case index |
| BacktestColumns.MappingSound | backend/backtest_engine.py:154-161 | every mapped column is a column of the frame, mapped to the standard name of a group whose first present pattern chose it |
| BacktestColumns.ExclusiveMappingInjective | backend/backtest_engine.py:158-159 | in the OHLCV (exclusive) mode no two columns get the same standard name |
| BacktestColumns.MappingValuesAreStandards | backend/backtest_engine.py:154-161 | every target is one of the groups' standard names |
| BacktestColumns.MappedByFirstPattern | backend/backtest_engine.py:154-217 | with disjoint patterns each group with a present pattern maps the column of its first present pattern |
| BacktestColumns.OhlcvTableWellFormed | backend/backtest_engine.py:146-152 | the OHLCV pattern lists are pairwise disjoint and the standard names distinct |
| BacktestColumns.TechTableWellFormed | backend/backtest_engine.py:199-208 | the indicator pattern lists are pairwise disjoint and the standard names distinct |
| BacktestColumns.DisjointByFingerprints | backend/backtest_engine.py:146-152 | groups whose patterns fall into disjoint fingerprint sets share no pattern |
| BacktestColumns.OhlcvMappingChoosesFirstPattern | backend/backtest_engine.py:142-165 | for any frame: mapped keys are its columns, no standard name goes to two columns, each name goes to the column of its first present pattern |
| BacktestColumns.TechMappingChoosesFirstPattern | backend/backtest_engine.py:198-220 | for any frame: mapped keys are its columns, each indicator name goes to the column of its first present pattern |
| BacktestColumns.MapGroup | backend/backtest_engine.py:155-161 | one group's pattern loop stops at the first present pattern and adds exactly the specified assignment |
| BacktestColumns.MapColumns | backend/backtest_engine.py:154-161 | the mapping loop over all groups builds the specified mapping |
| BacktestColumns.Rename | backend/backtest_engine.py:164-165 | a column in the mapping takes its new name; others keep theirs; order and length unchanged |
| BacktestColumns.RenameKeepsName | backend/backtest_engine.py:164-165 | a name not mapped away survives the rename |
| BacktestColumns.MappedKeysArePatterns | backend/backtest_engine.py:154-161 | every mapped column's lower-case name is one of the patterns |
| BacktestColumns.OhlcvNamesAreNotTechPatterns | backend/backtest_engine.py:199-208 | none of close/open/high/low/volume is an indicator pattern |
| BacktestColumns.TechRenameSparesOhlcv | backend/backtest_engine.py:199-220 | the indicator renames never touch a column named Close, Open, High, Low or Volume |
| BacktestColumns.Named | backend/backtest_engine.py:185 | the first column of the given name |
| BacktestColumns.PriceLikeColumns | backend/backtest_engine.py:171-173 | exactly the columns whose name suggests a price, in frame order |
| BacktestColumns.NumericColumns | backend/backtest_engine.py:183 | exactly the numeric columns, in frame order |
| BacktestColumns.EnsureClose | backend/backtest_engine.py:169-188 | fails iff there is no Close, no price-like and no numeric column; otherwise the frame has Close and is the old frame with at most one column added |
| BacktestColumns.FillFromClose | backend/backtest_engine.py:193-194 | a missing column becomes a copy of Close; a present one is left alone; no name is lost |
| BacktestColumns.FillPrices | backend/backtest_engine.py:192-194 | Open, High and Low exist afterwards, no name is lost, and the old frame is a prefix of the new one |
| BacktestColumns.FillMissingPrices | backend/backtest_engine.py:192-194 | the fill loop gives the specified frame |
| BacktestColumns.FillVolume | backend/backtest_engine.py:195-196 | Volume exists afterwards, no name is lost, and at most one column is appended |
| BacktestColumns.LowerOfStandardNames | backend/backtest_engine.py:146-152 | the standard names lower-case to the patterns close, open, high, low, volume |
| BacktestColumns.FilledHasOhlcv | backend/backtest_engine.py:192-196 | after the fills a frame with Close has all five OHLCV names |
| BacktestColumns.StandardizedHasOhlcv | backend/backtest_engine.py:142-220 | standardisation fails iff no Close can be found, and otherwise yields Close, Open, High, Low and Volume |
| BacktestColumns.StandardizeOf | backend/backtest_engine.py:142-220 | fails only on a frame without any numeric column; otherwise the frame's columns keep their places, dtypes and origins, followed by at most five added ones |
| BacktestColumns.CloseAndFill | backend/backtest_engine.py:169-220 | fails iff no Close can be found; otherwise the renamed columns keep their places, dtypes and origins, followed by at most five added ones |
| BacktestColumns.StandardizeColumns | backend/backtest_engine.py:142-220 | the column standardisation gives the specified outcome |
| PerformanceTracking.ProfitableCount | backend/model_performance_tracker.py:129-131 | the profitable count is at most the number of trades |
| PerformanceTracking.WinRateIsPercentage | backend/model_performance_tracker.py:133-134 | the win rate of a consistent entry is a percentage and profitable ≤ total |
| PerformanceTracking.NewMetricsWellFormed | backend/model_performance_tracker.py:16-33 | a new entry is zeroed, has no trades or curve and is consistent |
| PerformanceTracking.CorrectPrediction | backend/model_performance_tracker.py:73-78 | correct only for truthy prices; for a positive prediction correct iff the prices differ by less than 1% of it; a negative prediction is always correct, since the difference is divided by the signed prediction |
| PerformanceTracking.PredictionStep | backend/model_performance_tracker.py:70-80 | one more prediction, one more correct one iff both prices are truthy and within 1%, stamped; nothing else changes |
| PerformanceTracking.PredictionPreservesWellFormed | backend/model_performance_tracker.py:70-80 | recording a prediction keeps an entry consistent |
| PerformanceTracking.TradeStep | backend/model_performance_tracker.py:112-146 | one more trade appended; raises iff some recorded pnl is missing, keeping factor and stamp; otherwise stamped with the trade's time |
| PerformanceTracking.ProfitableCountAppend | backend/model_performance_tracker.py:126-131 | a trade adds one profitable trade iff its pnl is positive, and adds its pnl to the return iff truthy |
| PerformanceTracking.TradePreservesWellFormed | backend/model_performance_tracker.py:112-138 | recording a trade keeps counters, return, win rate and average consistent with the trade list |
| PerformanceTracking.MissingPnlRaises | backend/model_performance_tracker.py:112-146 | a trade without pnl raises, after the trade was counted |
| PerformanceTracking.MissingPnlIsSticky | backend/model_performance_tracker.py:141 | after a trade without pnl every later trade raises too |
| PerformanceTracking.ProfitFactorOnlyWithLoss | backend/model_performance_tracker.py:141-144 | the profit factor is profit over loss when there is a loss, and the previous value otherwise |
| PerformanceTracking.CurveStep | backend/model_performance_tracker.py:157-161 | the point is appended and only the most recent 1000 kept |
| PerformanceTracking.CurvePreservesWellFormed | backend/model_performance_tracker.py:157-161 | the curve update keeps an entry consistent |
| PerformanceTracking.AccuracyIsPercentage | backend/model_performance_tracker.py:173 | accuracy is a percentage, 0 without predictions |
| PerformanceTracking.Summarize | backend/model_performance_tracker.py:170-181 | the stored counters and figures are reported as they are; the accuracy times the predictions is the correct ones times 100, 0 without predictions, and in [0, 100] when correct ≤ total |
| PerformanceTracking.FirstBest | backend/model_performance_tracker.py:193-195 | Python's max: the first entry with the greatest score |
| PerformanceTracking.Without | backend/model_performance_tracker.py:205-210 | the key order without the deleted key |
| PerformanceTracking.WithoutKeepsDistinct | backend/model_performance_tracker.py:205-210 | deleting a key keeps the order free of duplicates |
| PerformanceTracking.WithoutAbsent | backend/model_performance_tracker.py:208 | deleting an absent key changes nothing |
| PerformanceTracking.KeysCount | backend/model_performance_tracker.py:202 | the key order is as long as the dictionary |
| PerformanceTracking.DistinctCardinality | backend/model_performance_tracker.py:202 | a duplicate-free order has as many elements as distinct keys |
| PerformanceTracking.ReplaceKeepsConsistent | backend/model_performance_tracker.py:69-80 | storing a consistent entry keeps the tracker consistent |
| PerformanceTracking.RegisterKeepsConsistent | backend/model_performance_tracker.py:64-67 | registering a lower-case key keeps the tracker consistent |
| PerformanceTracking.DeleteKeepsConsistent | backend/model_performance_tracker.py:205-210 | deleting a key keeps the tracker consistent |
| PerformanceTracking.ModelPerformanceTracker.constructor | backend/model_performance_tracker.py:39-41 | no models |
| PerformanceTracking.ModelPerformanceTracker.Register | backend/model_performance_tracker.py:64-67 | an unknown key gets a zeroed entry at the end of the order; a known one is untouched |
| PerformanceTracking.ModelPerformanceTracker.Replace | backend/model_performance_tracker.py:70-80 | stores the updated entry under its key |
| PerformanceTracking.ModelPerformanceTracker.RecordPrediction | backend/model_performance_tracker.py:44-80 | the lower-cased model's entry, created if new, takes one prediction step |
| PerformanceTracking.ModelPerformanceTracker.RecordTrade | backend/model_performance_tracker.py:82-148 | the lower-cased model's entry, created if new, takes one trade step, and the failure on a missing pnl is reported |
| PerformanceTracking.ModelPerformanceTracker.UpdateEquityCurve | backend/model_performance_tracker.py:150-161 | the lower-cased model's curve, created if new, takes one capped append |
| PerformanceTracking.ModelPerformanceTracker.GetModelMetrics | backend/model_performance_tracker.py:163-165 | the entry of the lower-cased name, if any |
| PerformanceTracking.ModelPerformanceTracker.GetAllMetrics | backend/model_performance_tracker.py:167-183 | one summary per model, in the dictionary's order |
| PerformanceTracking.ModelPerformanceTracker.CompareModels | backend/model_performance_tracker.py:185-203 | a message iff there are no models; otherwise each best is the key of the first model with the greatest score in dictionary order (`FirstBest`), and the count is the number of models |
| PerformanceTracking.ModelPerformanceTracker.ResetModel | backend/model_performance_tracker.py:205-210 | the lower-cased key is removed from the dictionary and from the order |
| PerformanceTracking.ModelPerformanceTracker.ResetAll | backend/model_performance_tracker.py:212-215 | no models remain |
| PositionLedger.FindPosition | backend/main.py:589 | the first row holding the symbol, or none when no row holds it |
| PositionLedger.FindAt | backend/main.py:589 | the first matching row is found wherever it is |
| PositionLedger.FindNone | backend/main.py:589 | no matching row gives none |
| PositionLedger.HoldingAfterUpdate | backend/main.py:591-598 | overwriting a symbol's row changes only that symbol's holding |
| PositionLedger.HoldingAfterAppend | backend/main.py:599-607 | a new row changes only its symbol's holding |
| PositionLedger.HoldingAfterDelete | backend/main.py:610-611 | deleting a row removes only its symbol's holding |
| PositionLedger.AddToPosition | backend/main.py:591-598 | quantities add up; the entry becomes the weighted average, or the fill price when the total is not positive |
| PositionLedger.AverageBetween | backend/main.py:593-595 | with non-negative quantities the new average lies between the old average and the fill price |
| PositionLedger.ApplyTrade | backend/main.py:589-615 | at most one row appears or disappears; every row is an old one or the traded symbol's; an action that is neither BUY nor a SELL of a held symbol leaves the table alone |
| PositionLedger.HoldingAfter | backend/main.py:591-615 | a BUY leaves a holding at the fill price (a new one for size at price); a SELL keeps a holding iff one was held with more than the size, reduced by it; anything else changes nothing |
| PositionLedger.ApplyTradeHoldings | backend/main.py:591-615 | a trade changes its own symbol's holding as specified (BUY adds or creates, SELL reduces or deletes, anything else nothing) and no other symbol's |
| PositionLedger.ApplyTradeKeepsUnique | backend/main.py:591-615 | a trade never creates a second row for a symbol |
| PositionLedger.RealizedAsWritten | backend/main.py:579-580 | as written: a truthy pnl raises (no value), a falsy one leaves the realized P&L as it was |
| PositionLedger.RealizedAfter | backend/main.py:579-580 | as intended: the realized pnl grows by the trade's pnl when present, and is unchanged otherwise |
| PositionLedger.AsWrittenLosesEveryPnl | backend/main.py:579-580 | the code as written raises exactly where the intended update would move the realized P&L, and agrees with it elsewhere |
| PositionLedger.AsWrittenRejectsProfit | backend/main.py:579-580 | a trade with pnl 5.0 raises as written, and moves the realized P&L from 0 to 5 as intended |
| PositionLedger.RealizedOverIsSum | backend/main.py:579-580 | recording trades one by one with the intended update moves the realized P&L by the sum of their present pnls |
| PositionLedger.UnrealizedAtCost | backend/main.py:617-622 | positions valued at their entry price carry no unrealized pnl |
| PositionLedger.Unrealized | backend/main.py:617-622 | long positions all at or above their entry give a non-negative total, all at or below give a non-positive one |
| PositionLedger.BotState.constructor | backend/main.py:127-134 | paper mode, balance 10000, no pnl, no positions or trades |
| PositionLedger.BotState.RecordTrade | backend/main.py:556-644 | as written: a truthy pnl aborts the request before the commit and nothing changes; otherwise the trade is stored, the realized pnl kept, the last action set, the positions changed by the trade and the unrealized pnl recomputed |
| PositionLedger.BotState.RecordTradeCorrected | backend/main.py:557-622 | as intended: the trade is stored, realized pnl and last action updated, positions changed by the trade, unrealized pnl recomputed over all positions |
| PositionLedger.WinnerCount | backend/main.py:689 | the winners are at most all trades |
| PositionLedger.Winning | backend/main.py:689 | a trade wins iff its pnl is present and positive |
| PositionLedger.DashboardWinRate | backend/main.py:688-690 | winners over trades in percent: in [0, 100], 0 without trades or winners, 100 when all win |
| PositionLedger.BotState.WinRate | backend/main.py:688-690 | the dashboard win rate of the stored trades |
| PositionLedger.AssetOf | backend/main.py:765-782 | value = quantity·current, unrealized = (current − average)·quantity, change 0 when the average is not positive |
| PositionLedger.ChangePercentSign | backend/main.py:768 | with a positive average the change is positive iff the price rose, and it is the move relative to the average in percent |
| PositionLedger.TotalValue | backend/main.py:766-770 | with non-negative quantities and prices the positions' value is not negative |
| PositionLedger.Portfolio | backend/main.py:761-794 | one asset per position; unrealized total; free cash = max(0, balance − value); total = max(balance, value) |
| PositionLedger.PercentToFraction | backend/main.py:1114-1118 | None gives 0, a value above 1 is divided by 100, any other is kept |
| PositionLedger.PercentToFractionRange | backend/main.py:1114-1118 | a percentage in [0, 100] becomes a fraction in [0, 1] that converts to itself |
| PositionLedger.UpdateLimits | backend/main.py:379-388 | exactly the provided limit fields change; leverage, minimum balance and position count never do |
| PositionLedger.UpdateLimitsIdempotent | backend/main.py:379-388 | applying an update twice is applying it once; an empty update changes nothing |
| PositionLedger.ModeAfter | backend/main.py:391-394 | a non-empty requested mode, lower-cased; otherwise the old mode |
| PositionLedger.BotState.UpdateConfig | backend/main.py:379-394 | the risk limits and the mode after a configuration update |
| A2CEnvironment.ResetSatisfiesInvariant | RL_algorithms/algorithms_training/environment/A2C_trading_env.py:58-72 | the reset state (index at the window, flat, size 0.1, all balances initial, no trades, no drawdown) satisfies the invariant |
| A2CEnvironment.A2CTradingEnv.constructor | RL_algorithms/algorithms_training/environment/A2C_trading_env.py:10-46 | the environment over the closes, in its reset state |
| A2CEnvironment.A2CTradingEnv.Reset | RL_algorithms/algorithms_training/environment/A2C_trading_env.py:58-72 | the reset state and the first observation window |
| A2CEnvironment.CommissionNonNegative | RL_algorithms/algorithms_training/environment/A2C_trading_env.py:106-108 | the commission is non-negative for non-negative equity and fee, and 0 when the exposure is unchanged |
| A2CEnvironment.Drawdown | RL_algorithms/algorithms_training/environment/A2C_trading_env.py:131-132 | the drawdown is the fall from the peak as a fraction of it, non-negative below the peak, at most 1 for non-negative equity |
| A2CEnvironment.Reward | RL_algorithms/algorithms_training/environment/A2C_trading_env.py:139-142 | without commission the reward is the exposure's gain in percent; a non-negative commission only lowers it |
| A2CEnvironment.Finished | RL_algorithms/algorithms_training/environment/A2C_trading_env.py:144-151 | the episode ends on a 30% loss, at the last step or beyond a 50% drawdown, and only then |
| A2CEnvironment.Moved | RL_algorithms/algorithms_training/environment/A2C_trading_env.py:92-137 | the index advances and one return is appended; peak and maximum drawdown become running maxima; a rebalance takes the targets, the fill price as entry and appends one trade stamped with the step and the new equity; otherwise position, size, entry and trades stay and the equity is the moved one |
| A2CEnvironment.Advance | RL_algorithms/algorithms_training/environment/A2C_trading_env.py:91-126 | a missing price row changes nothing; otherwise the index advances; the info row is missing iff the next index has no row; a completed step is done iff the episode is finished, with the info of the new state |
| A2CEnvironment.A2CTradingEnv.UpdateStats | RL_algorithms/algorithms_training/environment/A2C_trading_env.py:128-137 | the peak and maximum drawdown become running maxima, and one return is appended |
| A2CEnvironment.A2CTradingEnv.Move | RL_algorithms/algorithms_training/environment/A2C_trading_env.py:97-122 | the price move, the rebalance and the statistics of one step, with the commission charged |
| A2CEnvironment.AdvanceKeepsInvariant | RL_algorithms/algorithms_training/environment/A2C_trading_env.py:91-137 | a step keeps position and size in their ranges, the peak above equity and initial balance, one return per step, and never lowers the maximum drawdown |
| A2CEnvironment.AdvanceBookkeeping | RL_algorithms/algorithms_training/environment/A2C_trading_env.py:91-126 | a step advances the index by one; it appends one trade and takes the clipped targets iff it rebalances; a missing price row changes nothing |
| A2CEnvironment.NoIndexErrorBeforeEnd | RL_algorithms/algorithms_training/environment/A2C_trading_env.py:91-151 | before the last row no step reads outside the table, and the step onto the last row reports done |
| A2CEnvironment.InfoOf | RL_algorithms/algorithms_training/environment/A2C_trading_env.py:153-166 | trade count, step, equity, and the return in percent of the initial balance |
| A2CEnvironment.ObservationRows | RL_algorithms/algorithms_training/environment/A2C_trading_env.py:74-78 | at most window rows ending before the current row |
| A2CEnvironment.A2CTradingEnv.Step | RL_algorithms/algorithms_training/environment/A2C_trading_env.py:91-126 | state and outcome after the step are those of the step specification, with the next observation window |
| ExperimentEnvironment.TradingEnv.constructor | experiments/envs/trading_env.py:7-18 | the environment over the closes at index window, flat, equity 1 |
| ExperimentEnvironment.TradingEnv.Reset | experiments/envs/trading_env.py:20-25 | index at the window, flat, equity 1, and the first observation window |
| ExperimentEnvironment.TradeCostNonNegative | experiments/envs/trading_env.py:39-40 | the cost is non-negative for a non-negative fee and 0 when the position stays |
| ExperimentEnvironment.TradeCost | experiments/envs/trading_env.py:39-40 | non-negative for a non-negative fee, 0 when the position stays |
| ExperimentEnvironment.Growth | experiments/envs/trading_env.py:41-42 | a flat position only pays the cost; a non-negative cost only lowers the growth; without cost a move in the position's direction never shrinks the equity |
| ExperimentEnvironment.Advance | experiments/envs/trading_env.py:31-46 | a missing previous row changes nothing; a missing new row has only advanced the index; a completed step advances the index, holds a position in [−1, 1] and is done iff the new index reaches the last row |
| ExperimentEnvironment.AdvanceBookkeeping | experiments/envs/trading_env.py:31-46 | a step advances the index by one, takes the clipped action as position, and is done iff the new index reaches the last row |
| ExperimentEnvironment.AdvanceCompounds | experiments/envs/trading_env.py:33-42 | the equity is multiplied by 1 + old position·return − cost, the return taken between the close before the step and the close at the new index, two bars apart (see Findings) |
| ExperimentEnvironment.AsWrittenDoublesTheMove | experiments/envs/trading_env.py:33-42 | over closes 1, 2, 4, 4, two long steps as written grow the equity eightfold while the price quadruples; the intended steps give four (see Findings) |
| ExperimentEnvironment.AdvanceIntended | experiments/envs/trading_env.py:31-46 | the corrected step, with the return ending at the row the step brings into the observation: the same bookkeeping, missing-row outcomes and done flag as the step as written |
| ExperimentEnvironment.LongGrowth | experiments/envs/trading_env.py:36-42 | a full long position with no trade grows the equity by the ratio of the two closes |
| ExperimentEnvironment.IntendedLongStep | experiments/envs/trading_env.py:31-46 | one corrected step holding a full long position multiplies the equity by the newly observed close over the last observed one |
| ExperimentEnvironment.HoldLongIndex | experiments/envs/trading_env.py:31-46 | corrected steps holding long advance the index by one each and keep the position at 1 |
| ExperimentEnvironment.IntendedHoldTelescopes | experiments/envs/trading_env.py:31-46 | with the corrected step, holding long for n steps multiplies the equity by exactly the price move between the last closes observed before and after |
| ExperimentEnvironment.NoIndexErrorBeforeEnd | experiments/envs/trading_env.py:31-46 | before the last row no step raises, and the step onto the last row reports done |
| ExperimentEnvironment.ObservationRows | experiments/envs/trading_env.py:27-29 | the window rows ending just before the current row |
| ExperimentEnvironment.TradingEnv.Step | experiments/envs/trading_env.py:31-46 | state and outcome after the step are those of the step specification |
| ModelService.Predict | model_service/main.py:12-26 | BUY iff the sum > 0.3, SELL iff < −0.3, HOLD otherwise; the score is the sum |
| ModelService.Sum | model_service/main.py:18 | the sum of non-negative features is non-negative, of non-positive ones non-positive, and of one feature that feature |
| ModelService.EmptyOrBalancedHolds | model_service/main.py:18-26 | an empty observation, or one whose features cancel, holds with score 0 |
| ModelService.MoreFeaturesMoreBullish | model_service/main.py:18-21 | a non-negative extra feature keeps a BUY a BUY |
| ModelService.SumAppend | model_service/main.py:18 | the score of a concatenation is the sum of the scores |
| Numbers.Clip | RL_algorithms/algorithms_training/environment/A2C_trading_env.py:92-93 | numpy clip: the nearest point of the interval |
| Numbers.FractionBounds | backend/main.py:690 | a quotient by a positive divisor of a dividend in [0, divisor] is in [0, 1] |
| Wrappers.Entry.Get | backend/trading_executor.py:117 | `dict.get(key, default)`: the default for a missing key, `None` for a stored `None`, the value otherwise |
| Rows.RowIndex | experiments/envs/trading_env.py:33-34 | iloc: a row iff −n ≤ i < n, counting from the end for a negative index |
| Rows.SliceRows | RL_algorithms/algorithms_training/environment/A2C_trading_env.py:76-78 | iloc slice bounds clamped to the table |
| Text.Lower | backend/model_performance_tracker.py:64 | str.lower on ASCII, character by character |
| Text.Upper | backend/trading_executor.py:103 | str.upper on ASCII, character by character |
| Text.LowerIdempotent | backend/model_performance_tracker.py:64 | lower-casing twice is lower-casing once |

## Left out

- Rounding of reported figures (`round(…, 2)`), the Sharpe ratio, volatility (`np.std`, `np.sqrt`) and the logarithmic reward of the experiment environment: floating-point numerics; the model states unrounded values over reals.
- Observation feature values and their scaling: only the observation window's row bounds are modelled.
- Data and model loading in the backtest engine, the hour/day features it derives from a datetime index (backend/backtest_engine.py:222-233), the policy's predictions and the seeded environment: the replay loop takes the environment's per-step reports as a parameter; the backtest environment class is not part of this model.
- Columns with duplicate names in a frame: the model's frame is a list of named columns, and pandas' behaviour on duplicated labels is not modelled.
- The exchange client: modelled as an abstract record (present/absent, authenticated or not, a quoted price) and the reply to a market order passed in; the network, ccxt and balances are left out.
- The wall clock: the risk manager's date, the paper order id's timestamp and the tracker's timestamps are parameters.
- Persistence, HTTP, authentication, the websocket loop, `BotConfig` storage, display names of symbols, notifications and the other dashboard figures beside the win rate (backend/main.py:691-700): plumbing around the ledger.
- Demo and mock data generation with `random`, RL training and the data fetchers.
- `async` execution: the executor's logic is modelled as sequential methods.
- `TradingExecutor.get_mode`: a plain field read (`mode`).
- Module singletons (`get_risk_manager`, `get_performance_tracker`): explicit objects are constructed instead.
- A2CEnvironment.CommissionNonNegative: holds only for non-negative equity, because with a negative equity the source's commission is negative.
- BacktestReplay.RunReplay: states that the returned trade list is one the environment reported and at least as long as every reported list, not which report it is.
- Text.Lower: only ASCII letters are mapped; Python's `str.lower` also maps other Unicode letters, which this model leaves unchanged.
- Text.Upper: only ASCII letters are mapped; Python's `str.upper` also maps other Unicode letters, some to several characters (`"ß".upper() == "SS"`), which this model leaves unchanged.
- BacktestMetrics.Tally: a trade record whose `equity` key holds `None` (or any non-number) makes `trade_equity - prev_equity` raise `TypeError` (backend/backtest_engine.py:440-441); `TradeRecord` only distinguishes a missing key from a number, so that input is not expressed.
- Fixed-width floating point: all amounts are exact reals, so overflow, NaN and infinities are not modelled; a division that would produce a non-finite float in the metrics is `None`.

## Findings

| source | as written | input that shows it | evidently intended | confidence | as-written member | corrected member |
|---|---|---|---|---|---|---|
| backend/main.py:579-580 | `state.realized_pnl += float(entry.get("pnl", 0))` adds a float to the `Numeric` column, loaded as a `Decimal`; Python raises `TypeError`, and with only `try/finally` around it the request fails before the commit | a trade entry with `"pnl": 5.0` | the realized P&L grows by the trade's pnl and the trade is stored | not executed | PositionLedger.RealizedAsWritten, PositionLedger.BotState.RecordTrade (PositionLedger.AsWrittenLosesEveryPnl, PositionLedger.AsWrittenRejectsProfit) | PositionLedger.RealizedAfter, PositionLedger.BotState.RecordTradeCorrected (PositionLedger.RealizedOverIsSum) |
| experiments/envs/trading_env.py:33-37 | `prev_price` is the close of row `step_idx - 1`, the last row observed, but `price` is read after `step_idx += 1`, at the row after the one the step brings into the observation; each step earns the move over two bars, and consecutive steps count the bar between them twice | closes 1, 2, 4, 4, index 1, a full long position held for two steps with no fee: the equity ends at 8 while the price moved from 1 to 4 | each step earns the one-bar return from the last observed close to the close the step brings into view, so that holding long compounds to the price move | not executed | ExperimentEnvironment.Advance (ExperimentEnvironment.AdvanceCompounds, ExperimentEnvironment.AsWrittenDoublesTheMove) | ExperimentEnvironment.AdvanceIntended (ExperimentEnvironment.IntendedHoldTelescopes) |

=== FILE: a2c_env.dfy ===
/**
 * The simulated exchange used to train the A2C agent: one step moves the
 * equity with the held position, rebalances to the requested position and
 * size when either moves by more than 0.1 (paying a commission), updates the
 * peak equity, the maximum drawdown and the list of per-step returns, and
 * advances the row index.
 *
 * Only the close prices of the data frame take part; feature values, their
 * scaling and the volatility statistic are not modelled. An IndexError of
 * the row lookup is a step outcome.
 */
module A2CEnvironment {
  import opened Wrappers
  import opened Numbers
  import opened Rows

  /** A rebalance recorded by the environment. */
  datatype EnvTrade = EnvTrade(step: int, price: real, position: real, size: real, commission: real, equity: real)

  /** The information returned with each step (without the volatility). */
  datatype Info = Info(equity: real, totalReturnPct: real, position: real, positionSize: real, maxDrawdown: real,
                       totalTrades: nat, currentPrice: real, step: int)

  /** The mutable part of the environment. */
  datatype EnvState = EnvState(stepIdx: int, position: real, positionSize: real, cash: real, equity: real,
                               entryPrice: real, trades: seq<EnvTrade>, maxDrawdown: real, peakEquity: real,
                               stepReturns: seq<real>)

  /**
   * What a step returns: the reward, whether the episode is over and the
   * info; or an IndexError, raised before any change when a price row is
   * missing, or after the changes when the info row is missing.
   */
  datatype StepOutcome = Stepped(reward: real, done: bool, info: Info) | PriceRowMissing | InfoRowMissing

  datatype Advanced = Advanced(state: EnvState, outcome: StepOutcome)

  /** Every close price is positive, so price changes are defined. */
  predicate PositivePrices(closes: seq<real>) {
    forall i :: 0 <= i < |closes| ==> closes[i] > 0.0
  }

  /** The state right after a reset. */
  function ResetState(windowSize: int, initialBalance: real): EnvState {
    EnvState(windowSize, 0.0, 0.1, initialBalance, initialBalance, 0.0, [], 0.0, initialBalance, [])
  }

  /**
   * What every reachable state satisfies: the position and its size lie in
   * their action ranges, the peak is at least the equity and the initial
   * balance, the drawdown is not negative, and one return was recorded per
   * step since the reset.
   */
  predicate Invariant(s: EnvState, windowSize: int, initialBalance: real) {
    && -1.0 <= s.position <= 1.0
    && 0.1 <= s.positionSize <= 1.0
    && s.peakEquity >= s.equity
    && s.peakEquity >= initialBalance > 0.0
    && s.maxDrawdown >= 0.0
    && |s.stepReturns| == s.stepIdx - windowSize
  }

  lemma ResetSatisfiesInvariant(windowSize: int, initialBalance: real)
    requires initialBalance > 0.0
    ensures Invariant(ResetState(windowSize, initialBalance), windowSize, initialBalance)
    ensures ResetState(windowSize, initialBalance).trades == [] && ResetState(windowSize, initialBalance).stepIdx == windowSize
  {
  }

  /** A rebalance happens when the position or its size moves by more than 0.1. */
  predicate Rebalances(position: real, size: real, targetPosition: real, targetSize: real) {
    Abs(targetPosition - position) > 0.1 || Abs(targetSize - size) > 0.1
  }

  /** The fee on the traded exposure, valued at the current equity. */
  function Commission(position: real, size: real, targetPosition: real, targetSize: real, equity: real, fee: real): real {
    Abs(targetPosition * targetSize - position * size) * equity * fee
  }

  /**
   * The commission is not negative while the equity is not negative, and it
   * is zero when the exposure does not change.
   */
  lemma CommissionNonNegative(position: real, size: real, targetPosition: real, targetSize: real, equity: real, fee: real)
    requires equity >= 0.0 && fee >= 0.0
    ensures Commission(position, size, targetPosition, targetSize, equity, fee) >= 0.0
    ensures targetPosition * targetSize == position * size ==> Commission(position, size, targetPosition, targetSize, equity, fee) == 0.0
  {
    var traded := Abs(targetPosition * targetSize - position * size);
    assert traded * equity >= 0.0;
    assert traded * equity * fee >= 0.0;
  }

  /** The drawdown from the peak, as a fraction of the peak. */
  function Drawdown(peak: real, equity: real): (d: real)
    requires peak > 0.0
    ensures peak >= equity ==> d >= 0.0
    ensures equity >= 0.0 ==> d <= 1.0
    ensures d * peak == peak - equity
  {
    FractionBounds(peak - equity, peak);
    (peak - equity) / peak
  }

  /** The return of one step, 0 when the previous equity was not positive. */
  function StepReturn(before: real, after: real): real {
    if before > 0.0 then (after - before) / before else 0.0
  }

  /** The reward: the price change earned by the (new) exposure, minus the commission relative to the initial balance, in percent. */
  function Reward(position: real, size: real, priceChange: real, commission: real, initialBalance: real): (rw: real)
    requires initialBalance != 0.0
    ensures commission == 0.0 ==> rw == position * size * priceChange * 100.0
    ensures commission >= 0.0 && initialBalance > 0.0 ==> rw <= position * size * priceChange * 100.0
  {
    CommissionLowersReward(commission, initialBalance);
    (position * size * priceChange + -commission / initialBalance) * 100.0
  }

  lemma CommissionLowersReward(commission: real, initialBalance: real)
    requires initialBalance != 0.0
    ensures commission >= 0.0 && initialBalance > 0.0 ==> -commission / initialBalance <= 0.0
  {
  }

  /** The episode ends on a 30% loss, at the last row, or beyond a 50% drawdown, and only then. */
  function Finished(s: EnvState, initialBalance: real, maxStep: int): (f: bool)
    ensures s.equity <= initialBalance * 0.7 ==> f
    ensures s.stepIdx >= maxStep ==> f
    ensures s.maxDrawdown > 0.5 ==> f
    ensures f ==> s.equity <= initialBalance * 0.7 || s.stepIdx >= maxStep || s.maxDrawdown > 0.5
  {
    s.equity <= initialBalance * 0.7 || s.stepIdx >= maxStep || s.maxDrawdown > 0.5
  }

  function InfoOf(s: EnvState, currentPrice: real, initialBalance: real): (info: Info)
    requires initialBalance > 0.0
    ensures info.totalTrades == |s.trades| && info.step == s.stepIdx && info.equity == s.equity
    ensures info.totalReturnPct * initialBalance == (s.equity - initialBalance) * 100.0
  {
    FractionBounds(s.equity - initialBalance, initialBalance);
    Info(s.equity, (s.equity - initialBalance) / initialBalance * 100.0, s.position, s.positionSize, s.maxDrawdown,
         |s.trades|, currentPrice, s.stepIdx)
  }

  /** The rows of the observation window: at most `windowSize` rows ending just before the current row. */
  function ObservationRows(rows: nat, stepIdx: int, windowSize: int): (r: (nat, nat))
    ensures r.0 <= rows && r.1 <= rows
    ensures stepIdx >= 0 ==> r.1 <= stepIdx
    ensures stepIdx >= 0 && windowSize >= 0 && r.0 < r.1 ==> r.0 >= stepIdx - windowSize && r.1 - r.0 <= windowSize
  {
    SliceRows(rows, if stepIdx - windowSize > 0 then stepIdx - windowSize else 0, stepIdx)
  }

  /** The equity after the price move, earned by the position held before the step. */
  function MovedEquity(s: EnvState, change: real): real {
    s.equity + PositionPnl(s.position, s.positionSize, change, s.equity)
  }

  /** The gain of the held exposure over a price change, valued at the equity. */
  function PositionPnl(position: real, size: real, change: real, equity: real): real {
    position * size * change * equity
  }

  /** The commission of a step: charged only when it rebalances. */
  function StepCommission(s: EnvState, change: real, targetPosition: real, targetSize: real, fee: real): real {
    if Rebalances(s.position, s.positionSize, targetPosition, targetSize)
    then Commission(s.position, s.positionSize, targetPosition, targetSize, MovedEquity(s, change), fee)
    else 0.0
  }

  /** The state after the price move, the rebalance and the statistics, with the index advanced. */
  function Moved(s: EnvState, current: real, change: real, targetPosition: real, targetSize: real, fee: real): (n: EnvState)
    requires s.peakEquity > 0.0
    ensures n.stepIdx == s.stepIdx + 1 && n.cash == s.cash
    ensures |n.stepReturns| == |s.stepReturns| + 1 && n.stepReturns[..|s.stepReturns|] == s.stepReturns
    ensures n.peakEquity == Max(s.peakEquity, n.equity)
    ensures n.maxDrawdown == Max(s.maxDrawdown, Drawdown(n.peakEquity, n.equity))
    ensures Rebalances(s.position, s.positionSize, targetPosition, targetSize) ==>
              && n.position == targetPosition && n.positionSize == targetSize && n.entryPrice == current
              && |n.trades| == |s.trades| + 1 && n.trades[..|s.trades|] == s.trades
              && n.trades[|s.trades|].step == s.stepIdx && n.trades[|s.trades|].equity == n.equity
    ensures !Rebalances(s.position, s.positionSize, targetPosition, targetSize) ==>
              && n.position == s.position && n.positionSize == s.positionSize && n.entryPrice == s.entryPrice
              && n.trades == s.trades && n.equity == MovedEquity(s, change)
  {
    var rebalance := Rebalances(s.position, s.positionSize, targetPosition, targetSize);
    var commission := StepCommission(s, change, targetPosition, targetSize, fee);
    var equity := MovedEquity(s, change) - commission;
    var position := if rebalance then targetPosition else s.position;
    var size := if rebalance then targetSize else s.positionSize;
    var peak := if equity > s.peakEquity then equity else s.peakEquity;
    assert (s.stepReturns + [StepReturn(s.equity, equity)])[..|s.stepReturns|] == s.stepReturns;
    assert (s.trades + [EnvTrade(s.stepIdx, current, position, size, commission, equity)])[..|s.trades|] == s.trades;
    EnvState(
      s.stepIdx + 1, position, size, s.cash, equity,
      if rebalance then current else s.entryPrice,
      if rebalance then s.trades + [EnvTrade(s.stepIdx, current, position, size, commission, equity)] else s.trades,
      Max(s.maxDrawdown, Drawdown(peak, equity)),
      peak,
      s.stepReturns + [StepReturn(s.equity, equity)])
  }

  /** One step, from the action to the new state and the outcome. */
  function Advance(s: EnvState, closes: seq<real>, fee: real, initialBalance: real, action0: real, action1: real): (r: Advanced)
    requires PositivePrices(closes) && initialBalance > 0.0 && s.peakEquity > 0.0
    ensures r.outcome.PriceRowMissing? ==> r.state == s
    ensures !r.outcome.PriceRowMissing? ==> r.state.stepIdx == s.stepIdx + 1
    ensures r.outcome.InfoRowMissing? <==> !r.outcome.PriceRowMissing? && RowIndex(|closes|, s.stepIdx + 1).None?
    ensures r.outcome.Stepped? ==>
              && (r.outcome.done <==> Finished(r.state, initialBalance, |closes| - 1))
              && r.outcome.info.step == r.state.stepIdx && r.outcome.info.equity == r.state.equity
              && r.outcome.info.totalTrades == |r.state.trades|
  {
    var targetPosition := Clip(action0, -1.0, 1.0);
    var targetSize := Clip(action1, 0.1, 1.0);
    var prevRow := RowIndex(|closes|, s.stepIdx - 1);
    var currentRow := RowIndex(|closes|, s.stepIdx);
    if prevRow.None? || currentRow.None? then Advanced(s, PriceRowMissing)
    else
      var prev := closes[prevRow.value];
      var current := closes[currentRow.value];
      var change := (current - prev) / prev;
      var next := Moved(s, current, change, targetPosition, targetSize, fee);
      var infoRow := RowIndex(|closes|, next.stepIdx);
      if infoRow.None? then Advanced(next, InfoRowMissing)
      else
        Advanced(next, Stepped(Reward(next.position, next.positionSize, change,
                                      StepCommission(s, change, targetPosition, targetSize, fee), initialBalance),
                               Finished(next, initialBalance, |closes| - 1),
                               InfoOf(next, closes[infoRow.value], initialBalance)))
  }

  /** A step keeps the invariant, and the maximum drawdown never decreases. */
  lemma AdvanceKeepsInvariant(s: EnvState, closes: seq<real>, fee: real, initialBalance: real, windowSize: int,
                              action0: real, action1: real)
    requires PositivePrices(closes) && Invariant(s, windowSize, initialBalance)
    ensures Invariant(Advance(s, closes, fee, initialBalance, action0, action1).state, windowSize, initialBalance)
    ensures Advance(s, closes, fee, initialBalance, action0, action1).state.maxDrawdown >= s.maxDrawdown
  {
  }

  /**
   * A step that finds its price rows advances the index by one and records
   * one return; it appends exactly one trade, and takes the clipped targets
   * as position and size, when it rebalances, and leaves position, size and
   * trades alone otherwise. A step that misses a price row changes nothing.
   */
  lemma AdvanceBookkeeping(s: EnvState, closes: seq<real>, fee: real, initialBalance: real, action0: real, action1: real)
    requires PositivePrices(closes) && initialBalance > 0.0 && s.peakEquity > 0.0
    ensures var r := Advance(s, closes, fee, initialBalance, action0, action1);
      var rebalance := Rebalances(s.position, s.positionSize, Clip(action0, -1.0, 1.0), Clip(action1, 0.1, 1.0));
      && (r.outcome.PriceRowMissing? <==> RowIndex(|closes|, s.stepIdx - 1).None? || RowIndex(|closes|, s.stepIdx).None?)
      && (r.outcome.PriceRowMissing? ==> r.state == s)
      && (!r.outcome.PriceRowMissing? ==>
            && r.state.stepIdx == s.stepIdx + 1
            && |r.state.stepReturns| == |s.stepReturns| + 1
            && r.state.peakEquity == Max(s.peakEquity, r.state.equity)
            && (rebalance ==> r.state.position == Clip(action0, -1.0, 1.0) && r.state.positionSize == Clip(action1, 0.1, 1.0)
                              && |r.state.trades| == |s.trades| + 1 && r.state.trades[..|s.trades|] == s.trades)
            && (!rebalance ==> r.state.position == s.position && r.state.positionSize == s.positionSize
                               && r.state.trades == s.trades))
  {
    var r := Advance(s, closes, fee, initialBalance, action0, action1);
    if !r.outcome.PriceRowMissing? && Rebalances(s.position, s.positionSize, Clip(action0, -1.0, 1.0), Clip(action1, 0.1, 1.0)) {
      assert r.state.trades[..|s.trades|] == s.trades;
    }
  }

  /**
   * Stepping from the first row of the window on (with a window of at least
   * one row) never reads outside the table while the index is before the
   * last row, and the step at the last-but-one row reports the episode done.
   */
  lemma NoIndexErrorBeforeEnd(s: EnvState, closes: seq<real>, fee: real, initialBalance: real, windowSize: int,
                              action0: real, action1: real)
    requires PositivePrices(closes) && initialBalance > 0.0 && s.peakEquity > 0.0
    requires 1 <= windowSize <= s.stepIdx < |closes| - 1
    ensures Advance(s, closes, fee, initialBalance, action0, action1).outcome.Stepped?
    ensures s.stepIdx + 1 == |closes| - 1 ==> Advance(s, closes, fee, initialBalance, action0, action1).outcome.done
  {
  }

  // ---------------------------------------------------------------------------
  // The environment object

  class A2CTradingEnv {
    const closes: seq<real>
    const windowSize: int
    const fee: real
    const initialBalance: real
    const maxStep: int
    var stepIdx: int
    var position: real
    var positionSize: real
    var cash: real
    var equity: real
    var entryPrice: real
    var trades: seq<EnvTrade>
    var maxDrawdown: real
    var peakEquity: real
    var stepReturns: seq<real>

    function State(): EnvState
      reads this
    {
      EnvState(stepIdx, position, positionSize, cash, equity, entryPrice, trades, maxDrawdown, peakEquity, stepReturns)
    }

    ghost predicate Valid()
      reads this
    {
      && PositivePrices(closes)
      && maxStep == |closes| - 1
      && Invariant(State(), windowSize, initialBalance)
    }

    /** Builds the environment over the close prices and resets it. */
    constructor (closes: seq<real>, windowSize: int, fee: real, initialBalance: real)
      requires PositivePrices(closes) && initialBalance > 0.0
      ensures Valid()
      ensures this.closes == closes && this.windowSize == windowSize && this.fee == fee
      ensures this.initialBalance == initialBalance && maxStep == |closes| - 1
      ensures State() == ResetState(windowSize, initialBalance)
    {
      this.closes := closes;
      this.windowSize := windowSize;
      this.fee := fee;
      this.initialBalance := initialBalance;
      maxStep := |closes| - 1;
      stepIdx := windowSize;
      position := 0.0;
      positionSize := 0.1;
      cash := initialBalance;
      equity := initialBalance;
      entryPrice := 0.0;
      trades := [];
      maxDrawdown := 0.0;
      peakEquity := initialBalance;
      stepReturns := [];
    }

    /** Starts a new episode; returns the rows of the first observation. */
    method Reset() returns (observation: (nat, nat))
      requires Valid()
      modifies this
      ensures Valid()
      ensures State() == ResetState(windowSize, initialBalance)
      ensures observation == ObservationRows(|closes|, windowSize, windowSize)
    {
      stepIdx := windowSize;
      position := 0.0;
      positionSize := 0.1;
      cash := initialBalance;
      equity := initialBalance;
      entryPrice := 0.0;
      trades := [];
      maxDrawdown := 0.0;
      peakEquity := initialBalance;
      stepReturns := [];
      observation := ObservationRows(|closes|, stepIdx, windowSize);
    }

    /** Peak, drawdown and the step's return, after the equity has moved. */
    method UpdateStats(oldEquity: real)
      requires peakEquity > 0.0
      modifies this`peakEquity, this`maxDrawdown, this`stepReturns
      ensures peakEquity == Max(old(peakEquity), equity)
      ensures maxDrawdown == Max(old(maxDrawdown), Drawdown(peakEquity, equity))
      ensures stepReturns == old(stepReturns) + [StepReturn(oldEquity, equity)]
    {
      if equity > peakEquity {
        peakEquity := equity;
      }
      var currentDrawdown := Drawdown(peakEquity, equity);
      maxDrawdown := Max(maxDrawdown, currentDrawdown);
      var currentReturn := if oldEquity > 0.0 then (equity - oldEquity) / oldEquity else 0.0;
      stepReturns := stepReturns + [currentReturn];
    }

    /** The price move, the rebalance and the statistics of one step; returns the commission charged. */
    method Move(currentPrice: real, change: real, targetPosition: real, targetSize: real) returns (commission: real)
      requires peakEquity > 0.0
      modifies this
      ensures State() == Moved(old(State()), currentPrice, change, targetPosition, targetSize, fee)
      ensures commission == StepCommission(old(State()), change, targetPosition, targetSize, fee)
    {
      var positionPnl := PositionPnl(position, positionSize, change, equity);
      var oldEquity := equity;
      equity := equity + positionPnl;
      commission := 0.0;
      if Rebalances(position, positionSize, targetPosition, targetSize) {
        commission := Commission(position, positionSize, targetPosition, targetSize, equity, fee);
        equity := equity - commission;
        position := targetPosition;
        positionSize := targetSize;
        entryPrice := currentPrice;
        trades := trades + [EnvTrade(stepIdx, currentPrice, position, positionSize, commission, equity)];
      }
      UpdateStats(oldEquity);
      stepIdx := stepIdx + 1;
    }

    /** One step of the simulation, as `Advance` describes it; returns the rows of the next observation too. */
    method Step(action0: real, action1: real) returns (outcome: StepOutcome, observation: (nat, nat))
      requires Valid()
      modifies this
      ensures Valid()
      ensures State() == Advance(old(State()), closes, fee, initialBalance, action0, action1).state
      ensures outcome == Advance(old(State()), closes, fee, initialBalance, action0, action1).outcome
      ensures observation == ObservationRows(|closes|, stepIdx, windowSize)
    {
      AdvanceKeepsInvariant(State(), closes, fee, initialBalance, windowSize, action0, action1);
      var targetPosition := Clip(action0, -1.0, 1.0);
      var targetSize := Clip(action1, 0.1, 1.0);
      var prevRow := RowIndex(|closes|, stepIdx - 1);
      var currentRow := RowIndex(|closes|, stepIdx);
      if prevRow.None? || currentRow.None? {
        outcome := PriceRowMissing;
        observation := ObservationRows(|closes|, stepIdx, windowSize);
        return;
      }
      var prevPrice := closes[prevRow.value];
      var currentPrice := closes[currentRow.value];
      var change := (currentPrice - prevPrice) / prevPrice;
      var commission := Move(currentPrice, change, targetPosition, targetSize);
      var reward := Reward(position, positionSize, change, commission, initialBalance);
      var done := equity <= initialBalance * 0.7 || stepIdx >= maxStep || maxDrawdown > 0.5;
      observation := ObservationRows(|closes|, stepIdx, windowSize);
      var infoRow := RowIndex(|closes|, stepIdx);
      if infoRow.None? {
        outcome := InfoRowMissing;
      } else {
        outcome := Stepped(reward, done, InfoOf(State(), closes[infoRow.value], initialBalance));
      }
    }
  }
}

=== FILE: backtest_columns.dfy ===
/**
 * Column standardisation of a loaded backtest dataset: the OHLCV and
 * technical-indicator name mapping (first matching lower-case pattern per
 * standard name, in list order), the renames, the reconstruction of a
 * missing Close column from a price-like or numeric column, and the filling
 * of missing Open/High/Low (copies of Close) and Volume (constant 1.0).
 *
 * A frame is modelled by its columns only: a name, whether its dtype is
 * numeric, and where its values come from.
 */
module BacktestColumns {
  import opened Wrappers
  import Text

  /** Where a column's values come from: a column of the file, or a constant. */
  datatype Origin = FromFile(fileColumn: string) | Constant(value: real)

  datatype Column = Column(name: string, numeric: bool, origin: Origin)

  /** One standard name and the lower-case patterns tried for it, in order. */
  datatype Group = Group(standard: string, patterns: seq<string>)

  const OhlcvGroups: seq<Group> := [
    Group("Close", ["btc_close", "close", "price", "last"]),
    Group("Open", ["btc_open", "open"]),
    Group("High", ["btc_high", "high"]),
    Group("Low", ["btc_low", "low"]),
    Group("Volume", ["btc_volume", "volume", "vol"])
  ]

  const TechGroups: seq<Group> := [
    Group("MACD_12_26_9", ["macd_safe", "macd_12_26_9", "macd", "macd_12"]),
    Group("MACDh_12_26_9", ["macdh_safe", "macdh_12_26_9", "macdh", "macd_histogram"]),
    Group("MACDs_12_26_9", ["macds_safe", "macds_12_26_9", "macds", "macd_signal"]),
    Group("RSI_14", ["rsi_safe", "rsi_14", "rsi", "rsi14"]),
    Group("ATRr_14", ["atr_safe_norm", "atrr_14", "atr_14", "atrr", "atr"]),
    Group("VWAP_14", ["vwap_14", "vwap", "vwap14"]),
    Group("Hour_of_Day", ["hour_sin", "hour_cos", "hour_of_day", "hour", "hour_ofday"]),
    Group("Day_of_Week", ["day_sin", "day_cos", "day_of_week", "weekday"])
  ]

  function Names(cols: seq<Column>): (ns: seq<string>)
    ensures |ns| == |cols| && forall i :: 0 <= i < |cols| ==> ns[i] == cols[i].name
  {
    seq(|cols|, i requires 0 <= i < |cols| => cols[i].name)
  }

  /** Every key is the lower-case form of the column it points to. */
  predicate IndexConsistent(index: map<string, string>) {
    forall k :: k in index ==> Text.Lower(index[k]) == k
  }

  /** The lower-case name index of the columns; a later column wins over an earlier one with the same lower-case name. */
  function LowerIndex(names: seq<string>): (index: map<string, string>)
    ensures IndexConsistent(index)
    ensures forall k :: k in index ==> index[k] in names
    ensures forall i :: 0 <= i < |names| ==> Text.Lower(names[i]) in index
    decreases |names|
  {
    if names == [] then map[]
    else
      var last := names[|names| - 1];
      LowerIndex(names[..|names| - 1])[Text.Lower(last) := last]
  }

  /** Among columns with the same lower-case name the last one wins, as in a dict comprehension. */
  lemma {:induction false} LowerIndexLastWins(names: seq<string>, i: nat)
    requires i < |names|
    requires forall j :: i < j < |names| ==> Text.Lower(names[j]) != Text.Lower(names[i])
    ensures LowerIndex(names)[Text.Lower(names[i])] == names[i]
    decreases |names|
  {
    if i < |names| - 1 {
      var init := names[..|names| - 1];
      assert init[i] == names[i];
      forall j | i < j < |init|
        ensures Text.Lower(init[j]) != Text.Lower(init[i])
      {
        assert init[j] == names[j];
      }
      LowerIndexLastWins(init, i);
    }
  }

  /** The first pattern, in list order, that names a column. */
  function FirstPresent(patterns: seq<string>, index: map<string, string>): (r: Option<string>)
    ensures r.None? <==> forall i :: 0 <= i < |patterns| ==> patterns[i] !in index
    ensures r.Some? ==> exists j :: 0 <= j < |patterns| && patterns[j] == r.value && r.value in index
                                    && forall i :: 0 <= i < j ==> patterns[i] !in index
    decreases |patterns|
  {
    if patterns == [] then None
    else if patterns[0] in index then Some(patterns[0])
    else
      var r := FirstPresent(patterns[1..], index);
      assert forall i :: 1 <= i < |patterns| ==> patterns[1..][i - 1] == patterns[i];
      r
  }

  /**
   * One group: its first present pattern's column is mapped to the standard
   * name; in exclusive mode only when no column is mapped to that name yet.
   */
  function AssignGroup(mapping: map<string, string>, g: Group, index: map<string, string>, exclusive: bool): (r: map<string, string>)
    ensures FirstPresent(g.patterns, index).None? || (exclusive && g.standard in mapping.Values) ==> r == mapping
    ensures FirstPresent(g.patterns, index).Some? && !(exclusive && g.standard in mapping.Values) ==>
              FirstPresent(g.patterns, index).value in index
              && r == mapping[index[FirstPresent(g.patterns, index).value] := g.standard]
  {
    match FirstPresent(g.patterns, index)
    case None => mapping
    case Some(p) =>
      if exclusive && g.standard in mapping.Values then mapping
      else mapping[index[p] := g.standard]
  }

  /** The mapping built group by group; every key is a column named in the index. */
  function MappingOf(groups: seq<Group>, index: map<string, string>, exclusive: bool): (r: map<string, string>)
    ensures r.Keys <= index.Values
    decreases |groups|
  {
    if groups == [] then map[]
    else AssignGroup(MappingOf(groups[..|groups| - 1], index, exclusive), groups[|groups| - 1], index, exclusive)
  }

  /** Every mapped column exists, and is mapped to the standard name of a group that chose it. */
  lemma {:induction false} MappingSound(groups: seq<Group>, index: map<string, string>, exclusive: bool)
    ensures forall k :: k in MappingOf(groups, index, exclusive) ==>
              exists i :: 0 <= i < |groups| && FirstPresent(groups[i].patterns, index).Some?
                          && index[FirstPresent(groups[i].patterns, index).value] == k
                          && MappingOf(groups, index, exclusive)[k] == groups[i].standard
    decreases |groups|
  {
    if groups != [] {
      var init := groups[..|groups| - 1];
      MappingSound(init, index, exclusive);
      var m := MappingOf(groups, index, exclusive);
      forall k | k in m
        ensures exists i :: 0 <= i < |groups| && FirstPresent(groups[i].patterns, index).Some?
                            && index[FirstPresent(groups[i].patterns, index).value] == k
                            && m[k] == groups[i].standard
      {
        var before := MappingOf(init, index, exclusive);
        var last := |groups| - 1;
        var fp := FirstPresent(groups[last].patterns, index);
        if fp.Some? && index[fp.value] == k && m[k] == groups[last].standard {
        } else {
          assert k in before && m[k] == before[k];
          var i :| 0 <= i < |init| && FirstPresent(init[i].patterns, index).Some?
                   && index[FirstPresent(init[i].patterns, index).value] == k && before[k] == init[i].standard;
          assert groups[i] == init[i];
        }
      }
    }
  }

  /** No two keys share a value. */
  predicate Injective(m: map<string, string>) {
    forall a, b :: a in m && b in m && a != b ==> m[a] != m[b]
  }

  /** In exclusive mode no two columns are mapped to the same standard name. */
  lemma {:induction false} ExclusiveMappingInjective(groups: seq<Group>, index: map<string, string>)
    ensures Injective(MappingOf(groups, index, true))
    decreases |groups|
  {
    if groups != [] {
      var init := groups[..|groups| - 1];
      ExclusiveMappingInjective(init, index);
      var before := MappingOf(init, index, true);
      var g := groups[|groups| - 1];
      var m := MappingOf(groups, index, true);
      var fp := FirstPresent(g.patterns, index);
      if fp.Some? && g.standard !in before.Values {
        var k := index[fp.value];
        assert m == before[k := g.standard];
        forall a, b | a in m && b in m && a != b ensures m[a] != m[b] {
          if a == k {
            assert b in before;
            assert m[b] == before[b];
            assert before[b] in before.Values;
          } else if b == k {
            assert a in before;
            assert m[a] == before[a];
            assert before[a] in before.Values;
          } else {
            assert a in before && b in before;
            assert m[a] == before[a] && m[b] == before[b];
            assert before[a] != before[b];
          }
        }
      } else {
        assert m == before;
      }
    }
  }

  /** No two groups share a pattern. */
  predicate PatternsDisjoint(groups: seq<Group>) {
    forall a, b, p :: 0 <= a < |groups| && 0 <= b < |groups| && a != b && p in groups[a].patterns ==> p !in groups[b].patterns
  }

  /** No two groups share a standard name. */
  predicate StandardsDistinct(groups: seq<Group>) {
    forall a, b :: 0 <= a < b < |groups| ==> groups[a].standard != groups[b].standard
  }

  lemma {:induction false} MappingValuesAreStandards(groups: seq<Group>, index: map<string, string>, exclusive: bool)
    ensures forall v :: v in MappingOf(groups, index, exclusive).Values ==> exists i :: 0 <= i < |groups| && groups[i].standard == v
    decreases |groups|
  {
    if groups != [] {
      var init := groups[..|groups| - 1];
      MappingValuesAreStandards(init, index, exclusive);
      var before := MappingOf(init, index, exclusive);
      forall v | v in MappingOf(groups, index, exclusive).Values
        ensures exists i :: 0 <= i < |groups| && groups[i].standard == v
      {
        if v != groups[|groups| - 1].standard {
          assert v in before.Values by {
            var k :| k in MappingOf(groups, index, exclusive) && MappingOf(groups, index, exclusive)[k] == v;
          }
          var i :| 0 <= i < |init| && init[i].standard == v;
          assert groups[i] == init[i];
        }
      }
    }
  }

  /**
   * With a consistent index, disjoint patterns and distinct standard names,
   * every group with a present pattern maps the column of its FIRST present
   * pattern to its standard name, whatever the mode.
   */
  lemma {:induction false} MappedByFirstPattern(groups: seq<Group>, index: map<string, string>, exclusive: bool, i: nat)
    requires IndexConsistent(index) && PatternsDisjoint(groups) && StandardsDistinct(groups)
    requires i < |groups| && FirstPresent(groups[i].patterns, index).Some?
    ensures var k := index[FirstPresent(groups[i].patterns, index).value];
      k in MappingOf(groups, index, exclusive) && MappingOf(groups, index, exclusive)[k] == groups[i].standard
    decreases |groups|
  {
    var last := |groups| - 1;
    var init := groups[..last];
    var before := MappingOf(init, index, exclusive);
    var p := FirstPresent(groups[i].patterns, index).value;
    var k := index[p];
    assert PatternsDisjoint(init) && StandardsDistinct(init) by {
      forall a | 0 <= a < |init| ensures init[a] == groups[a] { }
    }
    if i == last {
      if exclusive && groups[i].standard in before.Values {
        MappingValuesAreStandards(init, index, exclusive);
        assert false;
      }
    } else {
      assert init[i] == groups[i];
      MappedByFirstPattern(init, index, exclusive, i);
      var fp := FirstPresent(groups[last].patterns, index);
      if fp.Some? {
        var q := fp.value;
        assert q in groups[last].patterns;
        assert p in groups[i].patterns;
        assert q != p;
        assert Text.Lower(index[q]) == q && Text.Lower(index[p]) == p;
        assert index[q] != k;
      }
    }
  }

  /** A cheap fingerprint of a name: its length, first, last and fifth characters. */
  function Fingerprint(p: string): (int, char, char, char) {
    if p == [] then (0, ' ', ' ', ' ')
    else (|p|, p[0], p[|p| - 1], if |p| > 4 then p[4] else ' ')
  }

  /** Groups whose patterns' fingerprints fall into pairwise disjoint sets share no pattern. */
  lemma DisjointByFingerprints(groups: seq<Group>, prints: seq<set<(int, char, char, char)>>)
    requires |prints| == |groups|
    requires forall a, p :: 0 <= a < |groups| && p in groups[a].patterns ==> Fingerprint(p) in prints[a]
    requires forall a, b :: 0 <= a < b < |groups| ==> prints[a] * prints[b] == {}
    ensures PatternsDisjoint(groups)
  {
    forall a, b, p | 0 <= a < |groups| && 0 <= b < |groups| && a != b && p in groups[a].patterns
      ensures p !in groups[b].patterns
    {
      assert Fingerprint(p) in prints[a];
      if a < b {
        assert Fingerprint(p) !in prints[a] * prints[b];
      } else {
        assert Fingerprint(p) !in prints[b] * prints[a];
      }
    }
  }

  /** The OHLCV table has disjoint pattern lists (told apart by their fingerprints) and distinct standard names. */
  lemma OhlcvTableWellFormed()
    ensures PatternsDisjoint(OhlcvGroups) && StandardsDistinct(OhlcvGroups)
  {
    var prints: seq<set<(int, char, char, char)>> := [
      {(9, 'b', 'e', 'c'), (5, 'c', 'e', 'e'), (5, 'p', 'e', 'e'), (4, 'l', 't', ' ')},
      {(8, 'b', 'n', 'o'), (4, 'o', 'n', ' ')},
      {(8, 'b', 'h', 'h'), (4, 'h', 'h', ' ')},
      {(7, 'b', 'w', 'l'), (3, 'l', 'w', ' ')},
      {(10, 'b', 'e', 'v'), (6, 'v', 'e', 'm'), (3, 'v', 'l', ' ')}
    ];
    forall a, p | 0 <= a < |OhlcvGroups| && p in OhlcvGroups[a].patterns
      ensures Fingerprint(p) in prints[a]
    {
      var i :| 0 <= i < |OhlcvGroups[a].patterns| && OhlcvGroups[a].patterns[i] == p;
    }
    DisjointByFingerprints(OhlcvGroups, prints);
  }

  /** The fingerprints of each indicator group's patterns. */
  const TechPrints: seq<set<(int, char, char, char)>> := [
    {(9, 'm', 'e', '_'), (12, 'm', '9', '_'), (4, 'm', 'd', ' '), (7, 'm', '2', '_')},
    {(10, 'm', 'e', 'h'), (13, 'm', '9', 'h'), (5, 'm', 'h', 'h'), (14, 'm', 'm', '_')},
    {(10, 'm', 'e', 's'), (13, 'm', '9', 's'), (5, 'm', 's', 's'), (11, 'm', 'l', '_')},
    {(8, 'r', 'e', 's'), (6, 'r', '4', '1'), (3, 'r', 'i', ' '), (5, 'r', '4', '4')},
    {(13, 'a', 'm', 's'), (7, 'a', '4', '_'), (6, 'a', '4', '1'), (4, 'a', 'r', ' '), (3, 'a', 'r', ' ')},
    {(7, 'v', '4', '_'), (4, 'v', 'p', ' '), (6, 'v', '4', '1')},
    {(8, 'h', 'n', '_'), (8, 'h', 's', '_'), (11, 'h', 'y', '_'), (4, 'h', 'r', ' '), (10, 'h', 'y', '_')},
    {(7, 'd', 'n', 's'), (7, 'd', 's', 'c'), (11, 'd', 'k', 'o'), (7, 'w', 'y', 'd')}
  ]

  /** Every pattern of a group has its fingerprint in the given set. */
  predicate PrintsCover(g: Group, prints: set<(int, char, char, char)>) {
    forall i :: 0 <= i < |g.patterns| ==> Fingerprint(g.patterns[i]) in prints
  }

  lemma TechPrintsCoverLow()
    ensures forall a :: 0 <= a < 4 ==> PrintsCover(TechGroups[a], TechPrints[a])
  {
    assert PrintsCover(TechGroups[0], TechPrints[0]);
    assert PrintsCover(TechGroups[1], TechPrints[1]);
    assert PrintsCover(TechGroups[2], TechPrints[2]);
    assert PrintsCover(TechGroups[3], TechPrints[3]);
  }

  lemma TechPrintsCoverHigh()
    ensures forall a :: 4 <= a < 8 ==> PrintsCover(TechGroups[a], TechPrints[a])
  {
    assert PrintsCover(TechGroups[4], TechPrints[4]);
    assert PrintsCover(TechGroups[5], TechPrints[5]);
    assert PrintsCover(TechGroups[6], TechPrints[6]);
    assert PrintsCover(TechGroups[7], TechPrints[7]);
  }

  lemma TechPrintsDisjoint()
    ensures forall a, b :: 0 <= a < b < |TechPrints| ==> TechPrints[a] * TechPrints[b] == {}
  {
  }

  lemma TechStandardsDistinct()
    ensures StandardsDistinct(TechGroups)
  {
  }

  /** The indicator table has disjoint pattern lists (told apart by their fingerprints) and distinct standard names. */
  lemma TechTableWellFormed()
    ensures PatternsDisjoint(TechGroups) && StandardsDistinct(TechGroups)
  {
    TechPrintsCoverLow();
    TechPrintsCoverHigh();
    TechPrintsDisjoint();
    TechStandardsDistinct();
    forall a, p | 0 <= a < |TechGroups| && p in TechGroups[a].patterns
      ensures Fingerprint(p) in TechPrints[a]
    {
      assert PrintsCover(TechGroups[a], TechPrints[a]);
      var i :| 0 <= i < |TechGroups[a].patterns| && TechGroups[a].patterns[i] == p;
    }
    DisjointByFingerprints(TechGroups, TechPrints);
  }

  /**
   * The indicator mapping of a frame: every mapped key is one of its columns
   * and each indicator name goes to the column named by its group's first
   * present pattern.
   */
  lemma TechMappingChoosesFirstPattern(names: seq<string>, i: nat)
    requires i < |TechGroups|
    ensures var index := LowerIndex(names);
      var m := MappingOf(TechGroups, index, false);
      && (forall k :: k in m ==> k in names)
      && (FirstPresent(TechGroups[i].patterns, index).Some? ==>
            var k := index[FirstPresent(TechGroups[i].patterns, index).value];
            k in m && m[k] == TechGroups[i].standard)
  {
    var index := LowerIndex(names);
    MappingSound(TechGroups, index, false);
    TechTableWellFormed();
    if FirstPresent(TechGroups[i].patterns, index).Some? {
      MappedByFirstPattern(TechGroups, index, false, i);
    }
  }

  /**
   * The OHLCV mapping of a frame: every mapped key is one of its columns, no
   * standard name is given to two columns, and each standard name goes to the
   * column named by its first present pattern.
   */
  lemma OhlcvMappingChoosesFirstPattern(names: seq<string>, i: nat)
    requires i < |OhlcvGroups|
    ensures var index := LowerIndex(names);
      var m := MappingOf(OhlcvGroups, index, true);
      && Injective(m)
      && (forall k :: k in m ==> k in names)
      && (FirstPresent(OhlcvGroups[i].patterns, index).Some? ==>
            var k := index[FirstPresent(OhlcvGroups[i].patterns, index).value];
            k in m && m[k] == OhlcvGroups[i].standard)
  {
    var index := LowerIndex(names);
    ExclusiveMappingInjective(OhlcvGroups, index);
    MappingSound(OhlcvGroups, index, true);
    OhlcvTableWellFormed();
    if FirstPresent(OhlcvGroups[i].patterns, index).Some? {
      MappedByFirstPattern(OhlcvGroups, index, true, i);
    }
  }

  /** pandas rename: a column listed in the mapping takes its new name; every other column keeps its own. */
  function Rename(cols: seq<Column>, mapping: map<string, string>): (r: seq<Column>)
    ensures |r| == |cols|
    ensures forall i :: 0 <= i < |cols| ==>
              r[i] == cols[i].(name := if cols[i].name in mapping then mapping[cols[i].name] else cols[i].name)
  {
    seq(|cols|, i requires 0 <= i < |cols| =>
      cols[i].(name := if cols[i].name in mapping then mapping[cols[i].name] else cols[i].name))
  }

  predicate HasName(cols: seq<Column>, name: string) {
    exists i :: 0 <= i < |cols| && cols[i].name == name
  }

  /** The first column with the given name. */
  function Named(cols: seq<Column>, name: string): (c: Column)
    requires HasName(cols, name)
    ensures c in cols && c.name == name
    decreases |cols|
  {
    if cols[0].name == name then cols[0] else Named(cols[1..], name)
  }

  predicate PriceLike(c: Column) {
    var n := Text.Lower(c.name);
    Text.Contains(n, "close") || Text.Contains(n, "price") || Text.Contains(n, "return")
  }

  /** The columns satisfying `PriceLike`, in frame order. */
  function PriceLikeColumns(cols: seq<Column>): (r: seq<Column>)
    ensures forall c :: c in r <==> c in cols && PriceLike(c)
    decreases |cols|
  {
    if cols == [] then []
    else (if PriceLike(cols[0]) then [cols[0]] else []) + PriceLikeColumns(cols[1..])
  }

  function NumericColumns(cols: seq<Column>): (r: seq<Column>)
    ensures forall c :: c in r <==> c in cols && c.numeric
    decreases |cols|
  {
    if cols == [] then []
    else (if cols[0].numeric then [cols[0]] else []) + NumericColumns(cols[1..])
  }

  /** `df[name] = df[source]`: a new column with the source's values and dtype. */
  function CopyColumn(cols: seq<Column>, name: string, source: Column): seq<Column> {
    cols + [Column(name, source.numeric, source.origin)]
  }

  /** A Close column: kept if present, else copied from the first price-like column, else from the first numeric one. */
  function EnsureClose(cols: seq<Column>): (r: Option<seq<Column>>)
    ensures r.None? <==> !HasName(cols, "Close") && PriceLikeColumns(cols) == [] && NumericColumns(cols) == []
    ensures r.Some? ==> HasName(r.value, "Close") && cols <= r.value && |r.value| <= |cols| + 1
  {
    if HasName(cols, "Close") then Some(cols)
    else
      var priceLike := PriceLikeColumns(cols);
      if priceLike != [] then
        assert CopyColumn(cols, "Close", priceLike[0])[|cols|].name == "Close";
        Some(CopyColumn(cols, "Close", priceLike[0]))
      else
        var numeric := NumericColumns(cols);
        if numeric != [] then
          assert CopyColumn(cols, "Close", numeric[0])[|cols|].name == "Close";
          Some(CopyColumn(cols, "Close", numeric[0]))
        else None
  }

  /** A missing column of the given name becomes a copy of Close. */
  function FillFromClose(cols: seq<Column>, name: string): (r: seq<Column>)
    requires HasName(cols, "Close")
    ensures HasName(r, name) && HasName(r, "Close")
    ensures forall n :: HasName(cols, n) ==> HasName(r, n)
    ensures !HasName(cols, name) ==> r == cols + [Named(cols, "Close").(name := name)]
    ensures HasName(cols, name) ==> r == cols
  {
    if HasName(cols, name) then cols
    else
      var r := CopyColumn(cols, name, Named(cols, "Close"));
      assert r[|cols|].name == name;
      assert forall i :: 0 <= i < |cols| ==> r[i] == cols[i];
      r
  }

  /** Open, High and Low, in that order, are filled from Close where missing. */
  function FillPrices(cols: seq<Column>, names: seq<string>): (r: seq<Column>)
    requires HasName(cols, "Close")
    ensures HasName(r, "Close") && forall i :: 0 <= i < |names| ==> HasName(r, names[i])
    ensures forall n :: HasName(cols, n) ==> HasName(r, n)
    ensures cols <= r && |r| <= |cols| + |names|
    decreases |names|
  {
    if names == [] then cols
    else
      var before := FillPrices(cols, names[..|names| - 1]);
      assert forall i :: 0 <= i < |names| - 1 ==> names[..|names| - 1][i] == names[i];
      FillFromClose(before, names[|names| - 1])
  }

  /** A missing Volume becomes the constant 1.0. */
  function FillVolume(cols: seq<Column>): (r: seq<Column>)
    ensures HasName(r, "Volume")
    ensures forall n :: HasName(cols, n) ==> HasName(r, n)
    ensures cols <= r && |r| <= |cols| + 1
  {
    if HasName(cols, "Volume") then cols
    else
      var r := cols + [Column("Volume", true, Constant(1.0))];
      assert r[|cols|].name == "Volume";
      assert forall i :: 0 <= i < |cols| ==> r[i] == cols[i];
      r
  }

  /** The outcome of standardisation: the final columns, or the error raised when no Close can be found. */
  datatype Standardized = Standardized(columns: seq<Column>) | CloseRequired

  /**
   * The whole column standardisation of a loaded frame. It fails only on a
   * frame without a single numeric column; otherwise the frame's own columns
   * come first, in their order, with their dtypes and values (only renamed),
   * followed by at most five added ones.
   */
  function StandardizeOf(cols: seq<Column>): (r: Standardized)
    ensures r.CloseRequired? ==> forall i :: 0 <= i < |cols| ==> !cols[i].numeric
    ensures r.Standardized? ==>
              && |cols| <= |r.columns| <= |cols| + 5
              && forall i :: 0 <= i < |cols| ==>
                   r.columns[i].numeric == cols[i].numeric && r.columns[i].origin == cols[i].origin
  {
    var index := LowerIndex(Names(cols));
    var renamed := Rename(cols, MappingOf(OhlcvGroups, index, true));
    var outcome := CloseAndFill(renamed, MappingOf(TechGroups, index, false));
    if outcome.CloseRequired? then NoNumericBeforeRename(cols, MappingOf(OhlcvGroups, index, true)); outcome
    else LeadingColumnsKept(cols, renamed, outcome.columns); outcome
  }

  /** The steps after the OHLCV renames: the Close reconstruction, the fills and the indicator renames. */
  function CloseAndFill(renamed: seq<Column>, tech: map<string, string>): (r: Standardized)
    ensures r.CloseRequired? <==> EnsureClose(renamed).None?
    ensures r.Standardized? ==>
              && |renamed| <= |r.columns| <= |renamed| + 5
              && forall i :: 0 <= i < |renamed| ==>
                   r.columns[i].numeric == renamed[i].numeric && r.columns[i].origin == renamed[i].origin
  {
    match EnsureClose(renamed)
    case None => CloseRequired
    case Some(withClose) =>
      var filled := FillVolume(FillPrices(withClose, ["Open", "High", "Low"]));
      var out := Rename(filled, tech);
      assert forall i :: 0 <= i < |renamed| ==> filled[i] == renamed[i];
      Standardized(out)
  }

  /** Renaming keeps dtypes, so a renamed frame without numeric columns had none before. */
  lemma NoNumericBeforeRename(cols: seq<Column>, mapping: map<string, string>)
    requires NumericColumns(Rename(cols, mapping)) == []
    ensures forall i :: 0 <= i < |cols| ==> !cols[i].numeric
  {
    var renamed := Rename(cols, mapping);
    forall i | 0 <= i < |cols| ensures !cols[i].numeric {
      assert renamed[i] in renamed;
    }
  }

  /** Columns renamed and then processed further keep their dtypes and values in their places. */
  lemma LeadingColumnsKept(cols: seq<Column>, renamed: seq<Column>, out: seq<Column>)
    requires |renamed| == |cols| <= |out|
    requires forall i :: 0 <= i < |cols| ==> renamed[i].numeric == cols[i].numeric && renamed[i].origin == cols[i].origin
    requires forall i :: 0 <= i < |renamed| ==> out[i].numeric == renamed[i].numeric && out[i].origin == renamed[i].origin
    ensures forall i :: 0 <= i < |cols| ==> out[i].numeric == cols[i].numeric && out[i].origin == cols[i].origin
  {
  }

  lemma LowerOfStandardNames()
    ensures Text.Lower("Close") == "close" && Text.Lower("Open") == "open" && Text.Lower("High") == "high"
    ensures Text.Lower("Low") == "low" && Text.Lower("Volume") == "volume"
  {
  }

  /** Every mapped column's lower-case name is one of the patterns. */
  lemma MappedKeysArePatterns(groups: seq<Group>, index: map<string, string>, exclusive: bool)
    requires IndexConsistent(index)
    ensures forall k :: k in MappingOf(groups, index, exclusive) ==>
              exists i :: 0 <= i < |groups| && Text.Lower(k) in groups[i].patterns
  {
    MappingSound(groups, index, exclusive);
  }

  lemma OhlcvNamesAreNotTechPatterns(name: string)
    requires name in ["close", "open", "high", "low", "volume"]
    ensures forall i :: 0 <= i < |TechGroups| ==> name !in TechGroups[i].patterns
  {
  }

  /** The technical renames never touch a column named by one of the five OHLCV names. */
  lemma TechRenameSparesOhlcv(index: map<string, string>, name: string)
    requires IndexConsistent(index)
    requires name in ["Close", "Open", "High", "Low", "Volume"]
    ensures name !in MappingOf(TechGroups, index, false)
  {
    LowerOfStandardNames();
    OhlcvNamesAreNotTechPatterns(Text.Lower(name));
    MappedKeysArePatterns(TechGroups, index, false);
  }

  lemma RenameKeepsName(cols: seq<Column>, mapping: map<string, string>, name: string)
    requires HasName(cols, name) && name !in mapping
    ensures HasName(Rename(cols, mapping), name)
  {
    var i :| 0 <= i < |cols| && cols[i].name == name;
    assert Rename(cols, mapping)[i].name == name;
  }

  /** After the fills a frame with Close has all five OHLCV names. */
  lemma FilledHasOhlcv(withClose: seq<Column>, n: string)
    requires HasName(withClose, "Close")
    requires n in ["Close", "Open", "High", "Low", "Volume"]
    ensures HasName(FillVolume(FillPrices(withClose, ["Open", "High", "Low"])), n)
  {
    var fills := ["Open", "High", "Low"];
    var prices := FillPrices(withClose, fills);
    assert HasName(prices, fills[0]) && HasName(prices, fills[1]) && HasName(prices, fills[2]);
    assert HasName(prices, "Close");
  }

  /**
   * Standardisation fails exactly when, after the OHLCV renames, there is no
   * Close, no price-like and no numeric column; otherwise the result has
   * Close, Open, High, Low and Volume columns.
   */
  lemma StandardizedHasOhlcv(cols: seq<Column>)
    ensures var renamed := Rename(cols, MappingOf(OhlcvGroups, LowerIndex(Names(cols)), true));
      StandardizeOf(cols).CloseRequired? <==>
        !HasName(renamed, "Close") && PriceLikeColumns(renamed) == [] && NumericColumns(renamed) == []
    ensures StandardizeOf(cols).Standardized? ==>
              forall n :: n in ["Close", "Open", "High", "Low", "Volume"] ==> HasName(StandardizeOf(cols).columns, n)
  {
    var index := LowerIndex(Names(cols));
    var renamed := Rename(cols, MappingOf(OhlcvGroups, index, true));
    var withClose := EnsureClose(renamed);
    if withClose.Some? {
      var filled := FillVolume(FillPrices(withClose.value, ["Open", "High", "Low"]));
      assert StandardizeOf(cols) == Standardized(Rename(filled, MappingOf(TechGroups, index, false)));
      forall n | n in ["Close", "Open", "High", "Low", "Volume"]
        ensures HasName(Rename(filled, MappingOf(TechGroups, index, false)), n)
      {
        FilledHasOhlcv(withClose.value, n);
        TechRenameSparesOhlcv(index, n);
        RenameKeepsName(filled, MappingOf(TechGroups, index, false), n);
      }
    }
  }

  // ---------------------------------------------------------------------------
  // The mapping loops

  lemma FirstPresentSkip(patterns: seq<string>, index: map<string, string>, j: nat)
    requires j < |patterns| && patterns[j] !in index
    ensures FirstPresent(patterns[j..], index) == FirstPresent(patterns[j + 1..], index)
  {
    assert patterns[j..][1..] == patterns[j + 1..];
  }

  lemma FirstPresentHit(patterns: seq<string>, index: map<string, string>, j: nat)
    requires j < |patterns| && patterns[j] in index
    ensures FirstPresent(patterns[j..], index) == Some(patterns[j])
  {
  }

  lemma MappingPrefix(groups: seq<Group>, index: map<string, string>, exclusive: bool, i: nat)
    requires i < |groups|
    ensures MappingOf(groups[..i + 1], index, exclusive) == AssignGroup(MappingOf(groups[..i], index, exclusive), groups[i], index, exclusive)
  {
    assert groups[..i + 1][..i] == groups[..i];
  }

  /** Fills the name mapping group by group, stopping at each group's first present pattern. */
  method MapColumns(groups: seq<Group>, index: map<string, string>, exclusive: bool) returns (mapping: map<string, string>)
    ensures mapping == MappingOf(groups, index, exclusive)
  {
    mapping := map[];
    var i := 0;
    while i < |groups|
      invariant 0 <= i <= |groups|
      invariant mapping == MappingOf(groups[..i], index, exclusive)
    {
      MappingPrefix(groups, index, exclusive, i);
      mapping := MapGroup(mapping, groups[i], index, exclusive);
      i := i + 1;
    }
    assert groups[..i] == groups;
  }

  /** One group: the first of its patterns present among the columns is mapped to the group's standard name. */
  method MapGroup(before: map<string, string>, g: Group, index: map<string, string>, exclusive: bool)
    returns (mapping: map<string, string>)
    ensures mapping == AssignGroup(before, g, index, exclusive)
  {
    mapping := before;
    // `mapping` stays `before` until the break, so the exclusive test reads the same on every pattern
    var taken := exclusive && g.standard in before.Values;
    var j := 0;
    while j < |g.patterns|
      invariant 0 <= j <= |g.patterns|
      invariant mapping == before
      invariant taken || FirstPresent(g.patterns, index) == FirstPresent(g.patterns[j..], index)
    {
      var pattern := g.patterns[j];
      if pattern in index {
        if !taken {
          FirstPresentHit(g.patterns, index, j);
          mapping := before[index[pattern] := g.standard];
          return;
        }
      } else {
        FirstPresentSkip(g.patterns, index, j);
      }
      j := j + 1;
    }
    assert taken || FirstPresent(g.patterns, index) == None;
  }

  /** Open, High and Low, in that order, each become a copy of Close when missing. */
  method FillMissingPrices(withClose: seq<Column>) returns (frame: seq<Column>)
    requires HasName(withClose, "Close")
    ensures frame == FillPrices(withClose, ["Open", "High", "Low"])
  {
    frame := withClose;
    var fills := ["Open", "High", "Low"];
    var k := 0;
    while k < |fills|
      invariant 0 <= k <= |fills|
      invariant HasName(frame, "Close")
      invariant frame == FillPrices(withClose, fills[..k])
    {
      assert fills[..k + 1][..k] == fills[..k];
      frame := FillFromClose(frame, fills[k]);
      k := k + 1;
    }
    assert fills[..k] == fills;
  }

  /** The column standardisation: the two mapping loops, the Close reconstruction and the fills. */
  method StandardizeColumns(cols: seq<Column>) returns (r: Standardized)
    ensures r == StandardizeOf(cols)
  {
    var index := LowerIndex(Names(cols));
    var ohlcv := MapColumns(OhlcvGroups, index, true);
    var renamed := Rename(cols, ohlcv);
    var withClose := EnsureClose(renamed);
    if withClose.None? {
      return CloseRequired;
    }
    var frame := FillMissingPrices(withClose.value);
    frame := FillVolume(frame);
    var tech := MapColumns(TechGroups, index, false);
    r := Standardized(Rename(frame, tech));
  }
}

=== FILE: backtest_metrics.dfy ===
/**
 * The summary metrics of a backtest run: total return, the running-peak
 * drawdown (optionally tightened by the environment's own drawdown), the
 * per-trade win/loss tally with its equity-curve fallback, the win rate and
 * the profit factor.
 *
 * Values are unrounded reals. A value that Python/numpy would produce as a
 * non-finite float (a division by a zero initial balance or by a zero
 * running peak) is `None`.
 */
module BacktestMetrics {
  import opened Wrappers
  import opened Numbers

  datatype Metrics = Metrics(
    totalReturn: real,
    totalReturnPct: Option<real>,
    maxDrawdown: Option<real>,
    winRate: real,
    totalTrades: nat,
    profitFactor: real,
    finalBalance: real)

  /** An entry of the trade list: a record with or without an "equity" key, or anything else. */
  datatype TradeRecord = DictTrade(equity: Option<real>) | OtherTrade

  /** The metrics reported when there is nothing to measure. */
  function DefaultMetrics(initial: real): (m: Metrics)
    ensures m.finalBalance == initial + m.totalReturn && m.totalReturn == 0.0 && m.totalReturnPct == Some(0.0)
    ensures m.totalTrades == 0 && m.winRate == 0.0 && m.profitFactor == 0.0 && m.maxDrawdown == Some(0.0)
  {
    Metrics(0.0, Some(0.0), Some(0.0), 0.0, 0, 0.0, initial)
  }

  // ---------------------------------------------------------------------------
  // Drawdown

  /** The running maximum of `s` at its last point (numpy's maximum.accumulate). */
  function RunningPeak(s: seq<real>): (p: real)
    requires |s| > 0
    ensures forall i :: 0 <= i < |s| ==> s[i] <= p
    ensures exists i :: 0 <= i < |s| && s[i] == p
    decreases |s|
  {
    if |s| == 1 then s[0]
    else
      var before := RunningPeak(s[..|s| - 1]);
      assert forall i :: 0 <= i < |s| - 1 ==> s[..|s| - 1][i] == s[i];
      Max(before, s[|s| - 1])
  }

  /** The drawdown in percent of point `i` against the running peak up to it; None when the peak is 0. */
  function DrawdownAt(s: seq<real>, i: nat): Option<real>
    requires i < |s|
  {
    var p := RunningPeak(s[..i + 1]);
    if p == 0.0 then None else Some((s[i] - p) / p * 100.0)
  }

  /** A point's drawdown depends only on the curve up to that point. */
  lemma DrawdownAtPrefix(s: seq<real>, n: nat)
    requires n <= |s|
    ensures forall i :: 0 <= i < n ==> DrawdownAt(s[..n], i) == DrawdownAt(s, i)
  {
    forall i | 0 <= i < n
      ensures DrawdownAt(s[..n], i) == DrawdownAt(s, i)
    {
      assert s[..n][..i + 1] == s[..i + 1];
    }
  }

  /**
   * The smallest drawdown over the curve (numpy's min over the drawdown
   * array): defined iff every point's drawdown is, and then at most every one
   * of them; MinDrawdownAttained shows it is attained. An empty curve reports 0.
   */
  function MinDrawdown(s: seq<real>): (r: Option<real>)
    ensures r.Some? <==> forall i :: 0 <= i < |s| ==> DrawdownAt(s, i).Some?
    ensures r.Some? ==> forall i :: 0 <= i < |s| ==> r.value <= DrawdownAt(s, i).value
    ensures |s| == 0 ==> r == Some(0.0)
    decreases |s|
  {
    if |s| == 0 then Some(0.0)
    else if |s| == 1 then DrawdownAt(s, 0)
    else
      DrawdownAtPrefix(s, |s| - 1);
      var before := MinDrawdown(s[..|s| - 1]);
      var last := DrawdownAt(s, |s| - 1);
      if before.Some? && last.Some? then Some(Min(before.value, last.value)) else None
  }

  /** The minimum drawdown is the drawdown of some point of the curve, so it is their minimum. */
  lemma {:induction false} MinDrawdownAttained(s: seq<real>)
    requires |s| > 0 && MinDrawdown(s).Some?
    ensures exists i :: 0 <= i < |s| && MinDrawdown(s).value == DrawdownAt(s, i).value
    decreases |s|
  {
    if |s| == 1 {
      assert MinDrawdown(s).value == DrawdownAt(s, 0).value;
    } else {
      var init := s[..|s| - 1];
      DrawdownAtPrefix(s, |s| - 1);
      var before := MinDrawdown(init);
      var last := DrawdownAt(s, |s| - 1);
      assert MinDrawdown(s) == Some(Min(before.value, last.value));
      if MinDrawdown(s).value == last.value {
        assert MinDrawdown(s).value == DrawdownAt(s, |s| - 1).value;
      } else {
        MinDrawdownAttained(init);
        var i :| 0 <= i < |init| && before.value == DrawdownAt(init, i).value;
        assert MinDrawdown(s).value == DrawdownAt(s, i).value;
      }
    }
  }

  /** The curve's drawdown, tightened by the environment's drawdown (a fraction) when one is supplied. */
  function CombinedDrawdown(calculated: Option<real>, env: Option<real>): Option<real> {
    if calculated.Some? && env.Some? then Some(Min(calculated.value, env.value * 100.0)) else calculated
  }

  lemma DrawdownPointBounds(e: real, p: real)
    requires 0.0 < e <= p
    ensures -100.0 < (e - p) / p * 100.0 <= 0.0
  {
  }

  /** With positive equities every drawdown is defined, non-positive and above -100%. */
  lemma {:induction false} DrawdownBounds(s: seq<real>)
    requires forall i :: 0 <= i < |s| ==> s[i] > 0.0
    ensures MinDrawdown(s).Some?
    ensures -100.0 < MinDrawdown(s).value <= 0.0
    decreases |s|
  {
    if |s| == 0 {
    } else {
      var last := |s| - 1;
      var p := RunningPeak(s[..last + 1]);
      assert s[..last + 1][last] == s[last];
      assert 0.0 < s[last] <= p;
      DrawdownPointBounds(s[last], p);
      if |s| > 1 {
        var init := s[..last];
        DrawdownBounds(init);
      }
    }
  }

  /** The curve 10000, 11000, 9000, 12000 has its worst drawdown at 9000 against the peak 11000. */
  lemma DrawdownExample()
    ensures MinDrawdown([10000.0, 11000.0, 9000.0, 12000.0]) == Some((9000.0 - 11000.0) / 11000.0 * 100.0)
  {
    var s := [10000.0, 11000.0, 9000.0, 12000.0];
    assert s[..1] == [10000.0];
    assert s[..2] == [10000.0, 11000.0] && s[..2][..1] == [10000.0];
    assert s[..3] == [10000.0, 11000.0, 9000.0] && s[..3][..2] == s[..2];
    assert s[..4] == s && s[..4][..3] == s[..3];
    assert s[..3][..2][..1] == [10000.0];
    assert RunningPeak(s[..2]) == 11000.0;
    assert RunningPeak(s[..3]) == 11000.0;
    assert RunningPeak(s[..4]) == 12000.0;
    assert MinDrawdown(s[..1]) == Some(0.0);
    assert MinDrawdown(s[..2]) == Some(0.0);
    assert MinDrawdown(s[..3]) == Some((9000.0 - 11000.0) / 11000.0 * 100.0);
  }

  /** The combined drawdown is the more conservative of the two and never exceeds the curve's own. */
  lemma CombinedDrawdownIsConservative(calculated: Option<real>, env: Option<real>)
    ensures calculated.None? ==> CombinedDrawdown(calculated, env).None?
    ensures calculated.Some? ==> CombinedDrawdown(calculated, env).Some?
                                 && CombinedDrawdown(calculated, env).value <= calculated.value
    ensures calculated.Some? && env.Some? ==>
              CombinedDrawdown(calculated, env).value <= env.value * 100.0
              && (CombinedDrawdown(calculated, env).value == calculated.value
                  || CombinedDrawdown(calculated, env).value == env.value * 100.0)
    ensures env.None? ==> CombinedDrawdown(calculated, env) == calculated
  {
  }

  // ---------------------------------------------------------------------------
  // Trade tally

  /** The accumulators of the per-trade pass. */
  datatype TradeTally = TradeTally(wins: nat, profit: real, loss: real, prev: real)

  /** One trade: a record's equity move over the previous equity counts as a win or a loss; anything else is skipped. */
  function TallyStep(t: TradeTally, trade: TradeRecord): (r: TradeTally)
    ensures r.wins >= t.wins && r.profit >= t.profit && r.loss >= t.loss
    ensures r.profit - r.loss == (t.profit - t.loss) + (r.prev - t.prev)
    ensures trade.OtherTrade? ==> r == t
  {
    match trade
    case OtherTrade => t
    case DictTrade(equity) =>
      var e := equity.GetOr(t.prev);
      var pnl := e - t.prev;
      if pnl > 0.0 then TradeTally(t.wins + 1, t.profit + pnl, t.loss, e)
      else TradeTally(t.wins, t.profit, t.loss + Abs(pnl), e)
  }

  /** The per-trade pass over the whole list; a list without records leaves it at its start. */
  function Tally(initial: real, trades: seq<TradeRecord>): (t: TradeTally)
    ensures (forall i :: 0 <= i < |trades| ==> trades[i].OtherTrade?) ==> t == TradeTally(0, 0.0, 0.0, initial)
    decreases |trades|
  {
    if trades == [] then TradeTally(0, 0.0, 0.0, initial)
    else TallyStep(Tally(initial, trades[..|trades| - 1]), trades[|trades| - 1])
  }

  /** Extending the prefix by one trade applies one step of the tally. */
  lemma TallyPrefix(initial: real, trades: seq<TradeRecord>, i: nat)
    requires i < |trades|
    ensures Tally(initial, trades[..i + 1]) == TallyStep(Tally(initial, trades[..i]), trades[i])
  {
    assert trades[..i + 1][..i] == trades[..i];
  }

  function DictCount(trades: seq<TradeRecord>): (n: nat)
    ensures n <= |trades|
    decreases |trades|
  {
    if trades == [] then 0
    else DictCount(trades[..|trades| - 1]) + (if trades[|trades| - 1].DictTrade? then 1 else 0)
  }

  /**
   * The tally telescopes: profit minus loss is the last recorded equity minus
   * the initial balance. Wins are bounded by the record count, and there is
   * profit exactly when there is a win.
   */
  lemma {:induction false} TallyFacts(initial: real, trades: seq<TradeRecord>)
    ensures var t := Tally(initial, trades);
      && t.profit - t.loss == t.prev - initial
      && t.profit >= 0.0 && t.loss >= 0.0
      && t.wins <= DictCount(trades)
      && (t.wins == 0 <==> t.profit == 0.0)
    decreases |trades|
  {
    if trades != [] {
      TallyFacts(initial, trades[..|trades| - 1]);
    }
  }

  // ---------------------------------------------------------------------------
  // Equity-curve fallback

  /** numpy's diff: the successive differences of the curve. */
  function Diffs(s: seq<real>): (d: seq<real>)
    ensures |s| > 0 ==> |d| == |s| - 1
    ensures |s| == 0 ==> d == []
    ensures forall i :: 0 <= i < |d| ==> d[i] == s[i + 1] - s[i]
    decreases |s|
  {
    if |s| < 2 then [] else Diffs(s[..|s| - 1]) + [s[|s| - 1] - s[|s| - 2]]
  }

  function CountPositive(d: seq<real>): (n: nat)
    ensures n <= |d|
    decreases |d|
  {
    if d == [] then 0 else CountPositive(d[..|d| - 1]) + (if d[|d| - 1] > 0.0 then 1 else 0)
  }

  function SumPositive(d: seq<real>): real
    decreases |d|
  {
    if d == [] then 0.0 else SumPositive(d[..|d| - 1]) + (if d[|d| - 1] > 0.0 then d[|d| - 1] else 0.0)
  }

  function SumNonPositive(d: seq<real>): real
    decreases |d|
  {
    if d == [] then 0.0 else SumNonPositive(d[..|d| - 1]) + (if d[|d| - 1] <= 0.0 then d[|d| - 1] else 0.0)
  }

  /** The positive and non-positive parts of the differences add up to the total change of the curve. */
  lemma {:induction false} FallbackTelescopes(s: seq<real>)
    requires |s| > 0
    ensures SumPositive(Diffs(s)) + SumNonPositive(Diffs(s)) == s[|s| - 1] - s[0]
    ensures SumPositive(Diffs(s)) >= 0.0 && SumNonPositive(Diffs(s)) <= 0.0
    decreases |s|
  {
    if |s| > 1 {
      var init := s[..|s| - 1];
      FallbackTelescopes(init);
      var d := Diffs(s);
      assert d[..|d| - 1] == Diffs(init);
    }
  }

  /** Wins, profit and loss after the trade pass and, when it found nothing, the equity-curve fallback. */
  function Outcome(equities: seq<real>, t: TradeTally): (r: (nat, real, real))
    ensures !(t.wins == 0 && t.profit == 0.0) || |equities| < 2 ==> r == (t.wins, t.profit, t.loss)
    ensures t.wins == 0 && t.profit == 0.0 && |equities| >= 2 ==>
              && r.0 <= |equities| - 1 && r.1 >= 0.0 && r.2 >= 0.0
              && r.1 - r.2 == equities[|equities| - 1] - equities[0]
  {
    var d := Diffs(equities);
    if t.wins == 0 && t.profit == 0.0 && |d| > 0 then
      FallbackTelescopes(equities);
      (CountPositive(d), SumPositive(d), Abs(SumNonPositive(d)))
    else (t.wins, t.profit, t.loss)
  }

  function ProfitFactor(profit: real, loss: real): (pf: real)
    ensures loss > 0.0 ==> pf * loss == profit
    ensures loss <= 0.0 ==> pf == Max(profit, 0.0)
  {
    if loss > 0.0 then profit / loss else if profit > 0.0 then profit else 0.0
  }

  /** `part` as a percentage of `whole`. */
  function PercentOf(part: real, whole: real): (pct: real)
    requires whole != 0.0
    ensures pct * whole == part * 100.0
  {
    ScaledQuotient(part, whole);
    part / whole * 100.0
  }

  /** The total return as a percentage of the initial balance; none when that balance is 0. */
  function ReturnPercent(totalReturn: real, initial: real): (pct: Option<real>)
    ensures pct.Some? <==> initial != 0.0
    ensures pct.Some? ==> pct.value * initial == totalReturn * 100.0
  {
    if initial == 0.0 then None else Some(PercentOf(totalReturn, initial))
  }

  /** Winning count over the trade count, in percent; 0 without trades. */
  function WinRateOf(equities: seq<real>, trades: seq<TradeRecord>, initial: real): (rate: real)
    ensures rate >= 0.0
    ensures trades == [] ==> rate == 0.0
  {
    if |trades| == 0 then 0.0
    else
      FractionBounds(Outcome(equities, Tally(initial, trades)).0 as real, |trades| as real);
      PercentOf(Outcome(equities, Tally(initial, trades)).0 as real, |trades| as real)
  }

  /** The profit factor as reported: negative values are shown as 0; 0 without trades. */
  function ReportedProfitFactor(equities: seq<real>, trades: seq<TradeRecord>, initial: real): (pf: real)
    ensures pf >= 0.0
    ensures trades == [] ==> pf == 0.0
  {
    if |trades| == 0 then 0.0
    else
      var o := Outcome(equities, Tally(initial, trades));
      var pf := ProfitFactor(o.1, o.2);
      if pf > 0.0 then pf else 0.0
  }

  /** With a loss the factor is profit over loss; without one it is the profit itself. */
  lemma ProfitFactorCases(profit: real, loss: real)
    requires profit >= 0.0 && loss >= 0.0
    ensures ProfitFactor(profit, loss) >= 0.0
    ensures loss > 0.0 ==> ProfitFactor(profit, loss) * loss == profit
    ensures loss == 0.0 ==> ProfitFactor(profit, loss) == profit
  {
    if loss > 0.0 {
      FractionBounds(profit, loss);
    }
  }

  /** The metrics of a run, unrounded. */
  function MetricsOf(equities: seq<real>, trades: seq<TradeRecord>, initial: real, envDrawdown: Option<real>): (m: Metrics)
    ensures m.finalBalance == initial + m.totalReturn
    ensures equities != [] ==> m.finalBalance == equities[|equities| - 1] && m.totalTrades == |trades|
    ensures equities != [] ==> m.totalReturnPct == ReturnPercent(m.totalReturn, initial)
    ensures equities == [] ==> m.totalTrades == 0 && m.finalBalance == initial
    ensures m.winRate >= 0.0 && m.profitFactor >= 0.0
  {
    if equities == [] then DefaultMetrics(initial)
    else
      var final := equities[|equities| - 1];
      var totalReturn := final - initial;
      var pct := ReturnPercent(totalReturn, initial);
      var drawdown := CombinedDrawdown(MinDrawdown(equities), envDrawdown);
      Metrics(totalReturn, pct, drawdown, WinRateOf(equities, trades, initial), |trades|,
              ReportedProfitFactor(equities, trades, initial), final)
  }

  /** No equities: the default metrics, whose final balance is the initial balance and everything else 0. */
  lemma EmptyEquitiesGiveDefaults(trades: seq<TradeRecord>, initial: real, envDrawdown: Option<real>)
    ensures var m := MetricsOf([], trades, initial, envDrawdown);
      && m == DefaultMetrics(initial)
      && m.finalBalance == initial && m.totalReturn == 0.0 && m.totalTrades == 0
      && m.winRate == 0.0 && m.profitFactor == 0.0 && m.maxDrawdown == Some(0.0) && m.totalReturnPct == Some(0.0)
  {
  }

  lemma ScaledQuotient(x: real, y: real)
    requires y != 0.0
    ensures x / y * 100.0 * y == x * 100.0
  {
    assert x / y * y == x;
  }

  /** The return is the last equity minus the initial balance, and its percentage is relative to the initial balance. */
  lemma TotalReturnIsLastMinusInitial(equities: seq<real>, trades: seq<TradeRecord>, initial: real, envDrawdown: Option<real>)
    requires |equities| > 0
    ensures var m := MetricsOf(equities, trades, initial, envDrawdown);
      && m.finalBalance == equities[|equities| - 1]
      && m.totalReturn == m.finalBalance - initial
      && m.finalBalance == initial + m.totalReturn
      && (initial != 0.0 ==> m.totalReturnPct == Some(PercentOf(m.totalReturn, initial)))
      && m.totalTrades == |trades|
  {
  }

  /** Without trades both the win rate and the profit factor are 0. */
  lemma NoTradesNoRates(equities: seq<real>, initial: real)
    ensures WinRateOf(equities, [], initial) == 0.0
    ensures ReportedProfitFactor(equities, [], initial) == 0.0
  {
  }

  /** Profit and loss after the fallback are never negative. */
  lemma OutcomeNonNegative(equities: seq<real>, initial: real, trades: seq<TradeRecord>)
    ensures Outcome(equities, Tally(initial, trades)).1 >= 0.0
    ensures Outcome(equities, Tally(initial, trades)).2 >= 0.0
  {
    TallyFacts(initial, trades);
    if |equities| > 0 {
      FallbackTelescopes(equities);
    }
  }

  /**
   * Profit and loss are never negative, so the raw profit factor is never
   * negative either and the reporting guard leaves it unchanged.
   */
  lemma ProfitFactorReported(equities: seq<real>, trades: seq<TradeRecord>, initial: real)
    requires |trades| > 0
    ensures ReportedProfitFactor(equities, trades, initial)
              == ProfitFactor(Outcome(equities, Tally(initial, trades)).1, Outcome(equities, Tally(initial, trades)).2)
    ensures ReportedProfitFactor(equities, trades, initial) >= 0.0
  {
    OutcomeNonNegative(equities, initial, trades);
    var o := Outcome(equities, Tally(initial, trades));
    ProfitFactorCases(o.1, o.2);
  }

  /** When the trade pass itself found a win, the win rate is a percentage of the trade count. */
  lemma WinRateFromTradesIsPercentage(equities: seq<real>, trades: seq<TradeRecord>, initial: real)
    requires Tally(initial, trades).wins > 0
    ensures 0.0 < WinRateOf(equities, trades, initial) <= 100.0
  {
    TallyFacts(initial, trades);
    var n := |trades| as real;
    var w := Tally(initial, trades).wins as real;
    assert Outcome(equities, Tally(initial, trades)).0 == Tally(initial, trades).wins;
    assert 0.0 < w <= n;
    FractionBounds(w, n);
  }

  /**
   * The equity-curve fallback counts rises of the curve, not trades: one
   * non-record trade over the curve 1, 2, 3 reports a 200% win rate.
   */
  lemma FallbackWinRateCanExceed100()
    ensures WinRateOf([1.0, 2.0, 3.0], [OtherTrade], 1.0) == 200.0
  {
    var d := Diffs([1.0, 2.0, 3.0]);
    assert d == [1.0, 1.0];
    assert d[..1] == [1.0] && d[..1][..0] == [];
    assert CountPositive(d) == 2;
    assert Tally(1.0, [OtherTrade]) == TradeTally(0, 0.0, 0.0, 1.0);
  }

  // ---------------------------------------------------------------------------
  // The computation

  /** The pass over the trades: wins, gross profit, gross loss and the last recorded equity. */
  method TallyTrades(initial: real, trades: seq<TradeRecord>) returns (t: TradeTally)
    ensures t == Tally(initial, trades)
  {
    var wins: nat := 0;
    var profit := 0.0;
    var loss := 0.0;
    var prev := initial;
    var i := 0;
    while i < |trades|
      invariant 0 <= i <= |trades|
      invariant TradeTally(wins, profit, loss, prev) == Tally(initial, trades[..i])
    {
      TallyPrefix(initial, trades, i);
      match trades[i] {
        case DictTrade(equity) =>
          var tradeEquity := equity.GetOr(prev);
          var pnl := tradeEquity - prev;
          if pnl > 0.0 {
            wins := wins + 1;
            profit := profit + pnl;
          } else {
            loss := loss + Abs(pnl);
          }
          prev := tradeEquity;
        case OtherTrade =>
      }
      i := i + 1;
    }
    assert trades[..i] == trades;
    t := TradeTally(wins, profit, loss, prev);
  }

  /** MetricsOf on a non-empty curve, component by component. */
  lemma MetricsOfCurve(equities: seq<real>, trades: seq<TradeRecord>, initial: real, envDrawdown: Option<real>)
    requires equities != []
    ensures MetricsOf(equities, trades, initial, envDrawdown)
            == Metrics(equities[|equities| - 1] - initial, ReturnPercent(equities[|equities| - 1] - initial, initial),
                       CombinedDrawdown(MinDrawdown(equities), envDrawdown), WinRateOf(equities, trades, initial),
                       |trades|, ReportedProfitFactor(equities, trades, initial), equities[|equities| - 1])
  {
  }

  /** Computes the metrics of a run: one pass over the trades, the rest vectorised. */
  method CalculateMetrics(equities: seq<real>, trades: seq<TradeRecord>, initial: real, envDrawdown: Option<real>)
    returns (m: Metrics)
    ensures m == MetricsOf(equities, trades, initial, envDrawdown)
  {
    if equities == [] {
      return DefaultMetrics(initial);
    }
    var finalBalance := equities[|equities| - 1];
    var totalReturn := finalBalance - initial;
    var pct := ReturnPercent(totalReturn, initial);
    var drawdown := CombinedDrawdown(MinDrawdown(equities), envDrawdown);
    var winRate, profitFactor := TradeRates(equities, trades, initial);
    MetricsOfCurve(equities, trades, initial, envDrawdown);
    m := Metrics(totalReturn, pct, drawdown, winRate, |trades|, profitFactor, finalBalance);
  }

  /** The trade block of the metrics: one pass over the trades, the equity-curve fallback, then the rates. */
  method TradeRates(equities: seq<real>, trades: seq<TradeRecord>, initial: real) returns (winRate: real, profitFactor: real)
    ensures winRate == WinRateOf(equities, trades, initial)
    ensures profitFactor == ReportedProfitFactor(equities, trades, initial)
  {
    winRate, profitFactor := 0.0, 0.0;
    if |trades| > 0 {
      var tally := TallyTrades(initial, trades);
      var wins, profit, loss := tally.wins, tally.profit, tally.loss;
      if wins == 0 && profit == 0.0 {
        var changes := Diffs(equities);
        if |changes| > 0 {
          wins := CountPositive(changes);
          profit := SumPositive(changes);
          loss := Abs(SumNonPositive(changes));
        }
      }
      assert (wins, profit, loss) == Outcome(equities, tally);
      winRate := PercentOf(wins as real, |trades| as real);
      var factor := ProfitFactor(profit, loss);
      profitFactor := if factor > 0.0 then factor else 0.0;
    }
  }
}

=== FILE: backtest_replay.dfy ===
/**
 * The bookkeeping of the backtest replay loop: how many steps are taken, the
 * equity list, the trade list copied from the environment and the points
 * returned to the caller.
 *
 * The policy and the environment are abstract: `step(k)` is what the
 * environment reports after the k-th step (counting from 0).
 */
module BacktestReplay {
  import opened BacktestMetrics

  /** What the environment reports after one step. */
  datatype StepReport = StepReport(equity: real, trades: seq<TradeRecord>, done: bool, truncated: bool)

  /** The step limit: one row is kept back beyond the observation window. */
  function MaxSteps(rows: int, windowSize: int): int {
    rows - windowSize - 1
  }

  /** Steps taken from step `k` on: up to the limit, stopping after the first step that reports done or truncated. */
  function StepsFrom(step: nat -> StepReport, limit: int, k: nat): (n: nat)
    ensures n >= k
    ensures limit <= k ==> n == k
    ensures limit > k ==> n <= limit
    decreases if limit > k then limit - k else 0
  {
    if limit <= k then k
    else if step(k).done || step(k).truncated then k + 1
    else StepsFrom(step, limit, k + 1)
  }

  /**
   * The number of steps of a run: never past the limit (none when the data
   * leave no room), no finished step before the last one, and a run that
   * ends short of the limit ends on a finished step.
   */
  function StepsTaken(step: nat -> StepReport, rows: int, windowSize: int): (n: nat)
    ensures n <= if MaxSteps(rows, windowSize) > 0 then MaxSteps(rows, windowSize) else 0
    ensures forall j :: 0 <= j < n - 1 ==> !step(j).done && !step(j).truncated
    ensures n < MaxSteps(rows, windowSize) ==> n > 0 && (step(n - 1).done || step(n - 1).truncated)
  {
    StepsStopAtFirstFinish(step, MaxSteps(rows, windowSize), 0);
    StepsFrom(step, MaxSteps(rows, windowSize), 0)
  }

  /** The run stops at the first finished step and never runs past the limit. */
  lemma {:induction false} StepsStopAtFirstFinish(step: nat -> StepReport, limit: int, k: nat)
    ensures var n := StepsFrom(step, limit, k);
      && (forall j :: k <= j < n - 1 ==> !step(j).done && !step(j).truncated)
      && (n < limit ==> n > k && (step(n - 1).done || step(n - 1).truncated))
    decreases if limit > k then limit - k else 0
  {
    if limit > k && !(step(k).done || step(k).truncated) {
      StepsStopAtFirstFinish(step, limit, k + 1);
    }
  }

  /** The equities reported by the first `n` steps. */
  function EquityTrail(step: nat -> StepReport, n: nat): (t: seq<real>)
    ensures |t| == n
    ensures forall k :: 0 <= k < n ==> t[k] == step(k).equity
  {
    if n == 0 then [] else EquityTrail(step, n - 1) + [step(n - 1).equity]
  }

  /** The last at most 100 points. */
  function LastHundred(s: seq<real>): (r: seq<real>)
    ensures |r| == if |s| > 100 then 100 else |s|
    ensures r == s[|s| - |r|..]
  {
    if |s| > 100 then s[|s| - 100..] else s
  }

  /** The result of a run. */
  datatype Replay = Replay(steps: nat, equities: seq<real>, trades: seq<TradeRecord>, shown: seq<real>, tradesCount: nat)

  /**
   * Runs the replay. `initialEquity` and `initialTrades` are the
   * environment's equity and trade list after reset.
   */
  method RunReplay(rows: int, windowSize: int, initialEquity: real, initialTrades: seq<TradeRecord>,
                   step: nat -> StepReport) returns (r: Replay)
    ensures r.steps == StepsTaken(step, rows, windowSize)
    ensures r.steps <= if MaxSteps(rows, windowSize) > 0 then MaxSteps(rows, windowSize) else 0
    ensures r.equities == [initialEquity] + EquityTrail(step, r.steps)
    ensures |r.equities| == r.steps + 1
    ensures r.shown == LastHundred(r.equities)
    ensures r.tradesCount == |r.trades|
    ensures forall k :: 0 <= k < r.steps ==> |step(k).trades| <= |r.trades|
    ensures r.steps == 0 ==> r.trades == initialTrades
    ensures r.steps > 0 ==> exists k :: 0 <= k < r.steps && r.trades == step(k).trades
  {
    ghost var source: nat;
    var stepCount, equities, executed, envTrades;
    stepCount, equities, executed, envTrades, source := ReplaySteps(MaxSteps(rows, windowSize), initialEquity, initialTrades, step);
    r := Finish(stepCount, equities, executed, envTrades);
    if stepCount > 0 {
      assert |envTrades| <= |executed|;
      assert r.trades == step(source).trades;
    }
  }

  /**
   * The loop of the replay: steps until the environment reports done or
   * truncated or the limit is reached, collecting the equities, the longest
   * trade list reported so far and the last trade list reported.
   */
  method ReplaySteps(maxSteps: int, initialEquity: real, initialTrades: seq<TradeRecord>, step: nat -> StepReport)
    returns (stepCount: nat, equities: seq<real>, executed: seq<TradeRecord>, envTrades: seq<TradeRecord>,
             ghost source: nat)
    ensures stepCount == StepsFrom(step, maxSteps, 0)
    ensures stepCount <= if maxSteps > 0 then maxSteps else 0
    ensures equities == [initialEquity] + EquityTrail(step, stepCount)
    ensures forall k :: 0 <= k < stepCount ==> |step(k).trades| <= |executed|
    ensures stepCount == 0 ==> executed == [] && envTrades == initialTrades
    ensures stepCount > 0 ==> envTrades == step(stepCount - 1).trades
    ensures stepCount > 0 ==> source < stepCount && executed == step(source).trades
  {
    var done := false;
    stepCount := 0;
    equities := [initialEquity];
    executed := [];
    envTrades := initialTrades;
    source := 0;  // the step whose trade list `executed` is
    while !done && stepCount < maxSteps
      invariant !done
      invariant stepCount <= if maxSteps > 0 then maxSteps else 0
      invariant StepsFrom(step, maxSteps, stepCount) == StepsFrom(step, maxSteps, 0)
      invariant equities == [initialEquity] + EquityTrail(step, stepCount)
      invariant forall k :: 0 <= k < stepCount ==> |step(k).trades| <= |executed|
      invariant stepCount == 0 ==> executed == [] && envTrades == initialTrades && source == 0
      invariant stepCount > 0 ==> envTrades == step(stepCount - 1).trades
      invariant stepCount > 0 ==> source < stepCount && executed == step(source).trades
      decreases maxSteps - stepCount
    {
      var report := step(stepCount);
      equities := equities + [report.equity];
      if |report.trades| > |executed| {
        executed := report.trades;
        source := stepCount;
      } else if stepCount == 0 {
        assert report.trades == executed == [];
      }
      envTrades := report.trades;
      done := report.done;
      stepCount := stepCount + 1;
      if report.truncated || report.done {
        break;
      }
    }
  }

  /** After the loop: take the environment's trade list if it is longer, and cut the equities shown. */
  function Finish(steps: nat, equities: seq<real>, executed: seq<TradeRecord>, envTrades: seq<TradeRecord>): (r: Replay)
    ensures r.steps == steps && r.equities == equities && r.shown == LastHundred(equities)
    ensures r.trades == (if |envTrades| > |executed| then envTrades else executed)
    ensures r.tradesCount == |r.trades|
  {
    var trades := if |envTrades| > |executed| then envTrades else executed;
    Replay(steps, equities, trades, LastHundred(equities), |trades|)
  }
}

=== FILE: experiment_env.dfy ===
/**
 * The minimal experiment environment: the clipped action becomes the new
 * position, the equity is compounded by the return earned by the previous
 * position minus a cost proportional to the position change, and the row
 * index advances by one per step.
 *
 * Only the close prices take part. The reward (the logarithm of the equity)
 * is not modelled. An IndexError of the row lookup is a step outcome.
 *
 * The step earns the return from the last observed close to the close one
 * row past the new observation, two bars apart; `AdvanceIntended` is the
 * step with the one-bar return, and `IntendedHoldTelescopes` what it gains.
 */
module ExperimentEnvironment {
  import opened Wrappers
  import opened Numbers
  import opened Rows

  /** The mutable part of the environment. */
  datatype SimState = SimState(stepIdx: int, position: real, equity: real)

  /**
   * What a step returns: whether the episode is over; or an IndexError,
   * raised before any change when the previous row is missing, or after the
   * index was advanced when the new row is missing.
   */
  datatype SimOutcome = Advanced(done: bool) | PreviousRowMissing | NewRowMissing

  datatype SimStep = SimStep(state: SimState, outcome: SimOutcome)

  predicate PositivePrices(closes: seq<real>) {
    forall i :: 0 <= i < |closes| ==> closes[i] > 0.0
  }

  /** The cost of moving the position, proportional to the change. */
  function TradeCost(action: real, position: real, fee: real): (cost: real)
    ensures fee >= 0.0 ==> cost >= 0.0
    ensures action == position ==> cost == 0.0
  {
    Abs(action - position) * fee
  }

  /** The cost is never negative for a non-negative fee, and is zero when the position stays. */
  lemma TradeCostNonNegative(action: real, position: real, fee: real)
    requires fee >= 0.0
    ensures TradeCost(action, position, fee) >= 0.0
    ensures action == position ==> TradeCost(action, position, fee) == 0.0
  {
  }

  /** The factor applied to the equity: the return earned by the held position, less the cost. */
  function Growth(position: real, ret: real, cost: real): (g: real)
    ensures position == 0.0 ==> g == 1.0 - cost
    ensures cost >= 0.0 ==> g <= 1.0 + position * ret
    ensures cost == 0.0 && position * ret >= 0.0 ==> g >= 1.0
  {
    1.0 + position * ret - cost
  }

  /** The rows of the observation: the `windowSize` rows ending just before the current row. */
  function ObservationRows(rows: nat, stepIdx: int, windowSize: int): (r: (nat, nat))
    ensures 0 <= windowSize <= stepIdx <= rows ==> r == (stepIdx - windowSize, stepIdx)
  {
    SliceRows(rows, stepIdx - windowSize, stepIdx)
  }

  /** One step, from the action to the new state and the outcome. */
  function Advance(s: SimState, closes: seq<real>, fee: real, action: real): (r: SimStep)
    requires PositivePrices(closes)
    ensures r.outcome.PreviousRowMissing? ==> r.state == s
    ensures r.outcome.NewRowMissing? ==> r.state == s.(stepIdx := s.stepIdx + 1)
    ensures r.outcome.Advanced? ==>
              && r.state.stepIdx == s.stepIdx + 1
              && -1.0 <= r.state.position <= 1.0
              && (r.outcome.done <==> r.state.stepIdx >= |closes| - 1)
  {
    var target := Clip(action, -1.0, 1.0);
    var prevRow := RowIndex(|closes|, s.stepIdx - 1);
    if prevRow.None? then SimStep(s, PreviousRowMissing)
    else
      var advanced := s.(stepIdx := s.stepIdx + 1);
      var row := RowIndex(|closes|, advanced.stepIdx);
      if row.None? then SimStep(advanced, NewRowMissing)
      else
        var prev := closes[prevRow.value];
        var ret := (closes[row.value] - prev) / prev;
        var equity := s.equity * Growth(s.position, ret, TradeCost(target, s.position, fee));
        SimStep(SimState(advanced.stepIdx, target, equity), Advanced(advanced.stepIdx >= |closes| - 1))
  }

  /**
   * A completed step advances the index by one, takes the clipped action as
   * the position and compounds the equity; it is done exactly when the new
   * index reaches the last row. A missing previous row changes nothing; a
   * missing new row has already advanced the index.
   */
  lemma AdvanceBookkeeping(s: SimState, closes: seq<real>, fee: real, action: real)
    requires PositivePrices(closes)
    ensures var r := Advance(s, closes, fee, action);
      && (r.outcome.PreviousRowMissing? <==> RowIndex(|closes|, s.stepIdx - 1).None?)
      && (r.outcome.PreviousRowMissing? ==> r.state == s)
      && (r.outcome.NewRowMissing? ==> r.state == s.(stepIdx := s.stepIdx + 1))
      && (r.outcome.Advanced? ==>
            && r.state.stepIdx == s.stepIdx + 1
            && -1.0 <= r.state.position <= 1.0
            && r.state.position == Clip(action, -1.0, 1.0)
            && (r.outcome.done <==> r.state.stepIdx >= |closes| - 1))
  {
  }

  /** The equity is compounded by the return between the close before the step and the close at the new index. */
  lemma AdvanceCompounds(s: SimState, closes: seq<real>, fee: real, action: real)
    requires PositivePrices(closes) && 1 <= s.stepIdx && s.stepIdx + 1 < |closes|
    ensures var r := Advance(s, closes, fee, action);
      var ret := (closes[s.stepIdx + 1] - closes[s.stepIdx - 1]) / closes[s.stepIdx - 1];
      && r.outcome.Advanced?
      && r.state.equity == s.equity * Growth(s.position, ret, TradeCost(Clip(action, -1.0, 1.0), s.position, fee))
  {
  }

  /** With a window of at least one row, no step taken before the last row raises, and the step onto it reports done. */
  lemma NoIndexErrorBeforeEnd(s: SimState, closes: seq<real>, fee: real, windowSize: int, action: real)
    requires PositivePrices(closes) && 1 <= windowSize <= s.stepIdx < |closes| - 1
    ensures Advance(s, closes, fee, action).outcome.Advanced?
    ensures Advance(s, closes, fee, action).outcome.done <==> s.stepIdx + 1 == |closes| - 1
  {
  }

  // ---------------------------------------------------------------------------
  // The return earned by a step: as written, and as evidently intended

  /**
   * The step as evidently intended: the return runs from the last close
   * observed before the step to the close of the row the step brings into the
   * observation, so that consecutive steps cover consecutive bars.
   */
  function AdvanceIntended(s: SimState, closes: seq<real>, fee: real, action: real): (r: SimStep)
    requires PositivePrices(closes)
    ensures r.outcome.PreviousRowMissing? <==> RowIndex(|closes|, s.stepIdx - 1).None?
    ensures r.outcome.PreviousRowMissing? ==> r.state == s
    ensures r.outcome.NewRowMissing? ==> r.state == s.(stepIdx := s.stepIdx + 1)
    ensures r.outcome.Advanced? ==>
              && r.state.stepIdx == s.stepIdx + 1
              && r.state.position == Clip(action, -1.0, 1.0)
              && (r.outcome.done <==> r.state.stepIdx >= |closes| - 1)
  {
    var target := Clip(action, -1.0, 1.0);
    var prevRow := RowIndex(|closes|, s.stepIdx - 1);
    if prevRow.None? then SimStep(s, PreviousRowMissing)
    else
      var advanced := s.(stepIdx := s.stepIdx + 1);
      var row := RowIndex(|closes|, advanced.stepIdx - 1);
      if row.None? then SimStep(advanced, NewRowMissing)
      else
        var prev := closes[prevRow.value];
        var ret := (closes[row.value] - prev) / prev;
        var equity := s.equity * Growth(s.position, ret, TradeCost(target, s.position, fee));
        SimStep(SimState(advanced.stepIdx, target, equity), Advanced(advanced.stepIdx >= |closes| - 1))
  }

  /** The state after `n` intended steps that each keep a full long position. */
  function HoldLongIntended(s: SimState, closes: seq<real>, fee: real, n: nat): SimState
    requires PositivePrices(closes)
    decreases n
  {
    if n == 0 then s else HoldLongIntended(AdvanceIntended(s, closes, fee, 1.0).state, closes, fee, n - 1)
  }

  /** A full long position, with nothing traded, grows the equity by the ratio of the two closes. */
  lemma LongGrowth(a: real, b: real)
    requires a > 0.0
    ensures Growth(1.0, (b - a) / a, 0.0) == b / a
  {
    var q := (b - a) / a;
    var r := b / a;
    assert q * a == b - a;
    assert r * a == b;
    assert (q + 1.0 - r) * a == 0.0;
  }

  /** One intended step holding a full long position multiplies the equity by the newly observed close's ratio. */
  lemma IntendedLongStep(p: SimState, closes: seq<real>, fee: real)
    requires PositivePrices(closes) && p.position == 1.0 && 1 <= p.stepIdx < |closes|
    ensures AdvanceIntended(p, closes, fee, 1.0).state ==
              SimState(p.stepIdx + 1, 1.0, p.equity * (closes[p.stepIdx] / closes[p.stepIdx - 1]))
  {
    var a := closes[p.stepIdx - 1];
    var b := closes[p.stepIdx];
    assert TradeCost(Clip(1.0, -1.0, 1.0), p.position, fee) == 0.0;
    LongGrowth(a, b);
  }

  /** A ratio of a number to itself leaves a product unchanged. */
  lemma UnitRatio(e: real, c: real)
    requires c > 0.0
    ensures e * (c / c) == e
  {
    assert c / c == 1.0;
  }

  /** Two ratios with a common middle term chain into one. */
  lemma RatioChain(e: real, c0: real, a: real, b: real, mid: real, end: real)
    requires c0 > 0.0 && a > 0.0
    requires mid == e * (a / c0) && end == mid * (b / a)
    ensures end == e * (b / c0)
  {
    var x := a / c0;
    var y := b / a;
    var z := b / c0;
    assert x * c0 == a;
    assert y * a == b;
    assert z * c0 == b;
    assert (x * y - z) * c0 == 0.0 by {
      assert x * y * c0 == (x * c0) * y;
    }
  }

  /** Intended steps that keep a full long position advance the index by one each. */
  lemma {:induction false} HoldLongIndex(s: SimState, closes: seq<real>, fee: real, n: nat)
    requires PositivePrices(closes) && s.position == 1.0 && 1 <= s.stepIdx && s.stepIdx + n <= |closes|
    ensures HoldLongIntended(s, closes, fee, n).stepIdx == s.stepIdx + n
    ensures HoldLongIntended(s, closes, fee, n).position == 1.0
    decreases n
  {
    if n > 0 {
      IntendedLongStep(s, closes, fee);
      HoldLongIndex(AdvanceIntended(s, closes, fee, 1.0).state, closes, fee, n - 1);
    }
  }

  /**
   * Holding a full long position through intended steps compounds the equity
   * by exactly the price move from the last close observed before the first
   * step to the last close observed after the last one.
   */
  lemma {:induction false} IntendedHoldTelescopes(s: SimState, closes: seq<real>, fee: real, n: nat)
    requires PositivePrices(closes) && s.position == 1.0 && 1 <= s.stepIdx && s.stepIdx + n <= |closes|
    ensures HoldLongIntended(s, closes, fee, n).equity == s.equity * (closes[s.stepIdx + n - 1] / closes[s.stepIdx - 1])
    decreases n
  {
    var c0 := closes[s.stepIdx - 1];
    if n == 0 {
      UnitRatio(s.equity, c0);
    } else {
      var next := AdvanceIntended(s, closes, fee, 1.0).state;
      IntendedLongStep(s, closes, fee);
      IntendedHoldTelescopes(next, closes, fee, n - 1);
      RatioChain(s.equity, c0, closes[s.stepIdx], closes[s.stepIdx + n - 1],
                 next.equity, HoldLongIntended(next, closes, fee, n - 1).equity);
    }
  }

  /**
   * Over the closes 1, 2, 4, 4, holding a full long position from index 1 for
   * two steps: the intended steps follow the price from 1 to 4, while the
   * steps as written grow the equity eightfold, each earning the move over
   * two bars, with the bar in the middle counted twice.
   */
  lemma AsWrittenDoublesTheMove()
    ensures var closes := [1.0, 2.0, 4.0, 4.0];
      var first := Advance(SimState(1, 1.0, 1.0), closes, 0.0, 1.0);
      var second := Advance(first.state, closes, 0.0, 1.0);
      && first.outcome.Advanced? && second.outcome.Advanced?
      && second.state.equity == 8.0
      && HoldLongIntended(SimState(1, 1.0, 1.0), closes, 0.0, 2).equity == 4.0
  {
    var closes := [1.0, 2.0, 4.0, 4.0];
    IntendedHoldTelescopes(SimState(1, 1.0, 1.0), closes, 0.0, 2);
    assert closes[2] / closes[0] == 4.0;
  }

  class TradingEnv {
    const closes: seq<real>
    const windowSize: int
    const fee: real
    const maxStep: int
    var stepIdx: int
    var position: real
    var equity: real

    function State(): SimState
      reads this
    {
      SimState(stepIdx, position, equity)
    }

    ghost predicate Valid()
      reads this
    {
      PositivePrices(closes) && maxStep == |closes| - 1 && -1.0 <= position <= 1.0
    }

    /** Builds the environment over the close prices and resets it. */
    constructor (closes: seq<real>, windowSize: int, fee: real)
      requires PositivePrices(closes)
      ensures Valid()
      ensures this.closes == closes && this.windowSize == windowSize && this.fee == fee && maxStep == |closes| - 1
      ensures State() == SimState(windowSize, 0.0, 1.0)
    {
      this.closes := closes;
      this.windowSize := windowSize;
      this.fee := fee;
      maxStep := |closes| - 1;
      stepIdx := windowSize;
      position := 0.0;
      equity := 1.0;
    }

    /** Starts a new episode at the end of the first window, flat, with an equity of 1; returns the observed rows. */
    method Reset() returns (observation: (nat, nat))
      requires Valid()
      modifies this
      ensures Valid()
      ensures State() == SimState(windowSize, 0.0, 1.0)
      ensures observation == ObservationRows(|closes|, windowSize, windowSize)
    {
      stepIdx := windowSize;
      position := 0.0;
      equity := 1.0;
      observation := ObservationRows(|closes|, stepIdx, windowSize);
    }

    /** One step, as `Advance` describes it; returns the rows of the next observation too. */
    method Step(action: real) returns (outcome: SimOutcome, observation: (nat, nat))
      requires Valid()
      modifies this
      ensures Valid()
      ensures State() == Advance(old(State()), closes, fee, action).state
      ensures outcome == Advance(old(State()), closes, fee, action).outcome
      ensures outcome.Advanced? ==> observation == ObservationRows(|closes|, stepIdx, windowSize)
    {
      var target := Clip(action, -1.0, 1.0);
      var prevRow := RowIndex(|closes|, stepIdx - 1);
      if prevRow.None? {
        return PreviousRowMissing, (0, 0);
      }
      var prevPrice := closes[prevRow.value];
      stepIdx := stepIdx + 1;
      var done := stepIdx >= maxStep;
      var row := RowIndex(|closes|, stepIdx);
      if row.None? {
        return NewRowMissing, (0, 0);
      }
      var price := closes[row.value];
      var ret := (price - prevPrice) / prevPrice;
      var cost := TradeCost(target, position, fee);
      equity := equity * Growth(position, ret, cost);
      position := target;
      outcome := Advanced(done);
      observation := ObservationRows(|closes|, stepIdx, windowSize);
    }
  }
}

=== FILE: model_service.dfy ===
/**
 * The demonstration decision service: the sum of the observation's features
 * is compared with the thresholds ±0.3.
 */
module ModelService {

  datatype Action = Buy | Sell | Hold

  /** The sum of the features, 0 for an empty list: never negative over non-negative features, never positive over non-positive ones. */
  function Sum(features: seq<real>): (total: real)
    ensures (forall i :: 0 <= i < |features| ==> features[i] >= 0.0) ==> total >= 0.0
    ensures (forall i :: 0 <= i < |features| ==> features[i] <= 0.0) ==> total <= 0.0
    ensures |features| == 1 ==> total == features[0]
    decreases |features|
  {
    if features == [] then 0.0
    else
      assert forall i :: 0 <= i < |features| - 1 ==> features[..|features| - 1][i] == features[i];
      Sum(features[..|features| - 1]) + features[|features| - 1]
  }

  /** The decision and the score it was based on. */
  datatype Prediction = Prediction(action: Action, score: real)

  /** BUY above 0.3, SELL below −0.3, HOLD in between (both thresholds included). */
  function Predict(features: seq<real>): (p: Prediction)
    ensures p.score == Sum(features)
    ensures p.action == Buy <==> Sum(features) > 0.3
    ensures p.action == Sell <==> Sum(features) < -0.3
    ensures p.action == Hold <==> -0.3 <= Sum(features) <= 0.3
  {
    var s := if features != [] then Sum(features) else 0.0;
    Prediction(if s > 0.3 then Buy else if s < -0.3 then Sell else Hold, s)
  }

  /** An empty observation, and one whose features cancel out, both hold. */
  lemma EmptyOrBalancedHolds(features: seq<real>)
    requires Sum(features) == 0.0
    ensures Predict(features) == Prediction(Hold, 0.0)
    ensures Predict([]) == Prediction(Hold, 0.0)
  {
  }

  /** Adding a non-negative feature never turns a BUY into something else. */
  lemma {:induction false} MoreFeaturesMoreBullish(features: seq<real>, extra: real)
    requires extra >= 0.0 && Predict(features).action == Buy
    ensures Predict(features + [extra]).action == Buy
  {
    assert (features + [extra])[..|features|] == features;
  }

  /** The sum does not depend on how the features are split. */
  lemma {:induction false} SumAppend(a: seq<real>, b: seq<real>)
    ensures Sum(a + b) == Sum(a) + Sum(b)
    decreases |b|
  {
    if b == [] {
      assert a + b == a;
    } else {
      var init := b[..|b| - 1];
      SumAppend(a, init);
      assert (a + b)[..|a + b| - 1] == a + init;
    }
  }
}

=== FILE: numbers.dfy ===
/** Elementary real-number helpers shared by the trading modules. */
module Numbers {
  import opened Wrappers

  /** Python truthiness of an optional number: present and non-zero. */
  predicate Truthy(p: Option<real>) {
    p.Some? && p.value != 0.0
  }

  function Abs(x: real): (r: real)
    ensures r >= 0.0 && (r == x || r == -x)
  {
    if x < 0.0 then -x else x
  }

  /** Python's `max(a, b)`. */
  function Max(a: real, b: real): (r: real)
    ensures r >= a && r >= b && (r == a || r == b)
  {
    if a >= b then a else b
  }

  /** Python's `min(a, b)`. */
  function Min(a: real, b: real): (r: real)
    ensures r <= a && r <= b && (r == a || r == b)
  {
    if a <= b then a else b
  }

  /** numpy's `clip(x, lo, hi)`: the nearest point of [lo, hi]. */
  function Clip(x: real, lo: real, hi: real): (r: real)
    requires lo <= hi
    ensures lo <= r <= hi
    ensures lo <= x <= hi ==> r == x
    ensures x < lo ==> r == lo
    ensures x > hi ==> r == hi
  {
    if x < lo then lo else if x > hi then hi else x
  }

  lemma MulPositive(a: real, b: real)
    requires a > 0.0 && b > 0.0
    ensures a * b > 0.0
  {
  }

  /** Multiplying both sides by a positive factor keeps a strict comparison. */
  lemma ScaleByPositive(x: real, y: real, p: real)
    requires p > 0.0
    ensures x < y <==> x * p < y * p
  {
    if x < y {
      MulPositive(y - x, p);
    } else if x > y {
      MulPositive(x - y, p);
    }
  }

  /** A quotient by a positive divisor is a fraction in [0, 1] when the dividend lies in [0, divisor]. */
  lemma FractionBounds(a: real, b: real)
    requires b > 0.0
    ensures a <= b ==> a / b <= 1.0
    ensures a >= 0.0 ==> a / b >= 0.0
    ensures a > 0.0 ==> a / b > 0.0
    ensures a / b * b == a
  {
  }

  /** A percentage of a positive base: positive exactly when the part is, and scaling back gives the part. */
  lemma PercentSign(a: real, b: real)
    requires b > 0.0
    ensures a / b * 100.0 > 0.0 <==> a > 0.0
    ensures a / b * 100.0 * b == a * 100.0
  {
    var q := a / b;
    assert q * b == a;
    if a <= 0.0 {
      assert (-a) / b == -q;
      assert q <= 0.0;
    }
  }
}

=== FILE: performance_tracker.dfy ===
/**
 * The per-model performance tracker: a dictionary from lower-cased model
 * name to counters, the list of recorded trades and a capped equity curve.
 *
 * The dictionary's insertion order matters (the comparison reports the first
 * best model), so the tracker keeps the keys' order beside the map.
 * Timestamps are passed in by the caller.
 */
module PerformanceTracking {
  import opened Wrappers
  import opened Numbers
  import Text

  const CurveCapacity: nat := 1000

  /** One recorded trade. */
  datatype TradeEntry = TradeEntry(symbol: string, action: string, entryPrice: real, exitPrice: Option<real>,
                                   pnl: Option<real>, pnlPct: Option<real>, timestamp: real)

  /** The counters of one model. */
  datatype ModelMetrics = ModelMetrics(
    modelType: string,
    totalPredictions: int,
    correctPredictions: int,
    totalTrades: int,
    profitableTrades: int,
    totalReturn: real,
    totalReturnPct: real,
    sharpeRatio: real,
    maxDrawdown: real,
    winRate: real,
    averageReturnPerTrade: real,
    profitFactor: real,
    trades: seq<TradeEntry>,
    equityCurve: seq<real>,
    lastUpdated: Option<real>)

  function NewMetrics(key: string): ModelMetrics {
    ModelMetrics(key, 0, 0, 0, 0, 0.0, 0.0, 0.0, 0.0, 0.0, 0.0, 0.0, [], [], None)
  }

  /** A trade counts as profitable when its pnl is present and positive. */
  predicate Profitable(t: TradeEntry) {
    t.pnl.Some? && t.pnl.value > 0.0
  }

  function ProfitableCount(trades: seq<TradeEntry>): (n: nat)
    ensures n <= |trades|
    decreases |trades|
  {
    if trades == [] then 0
    else ProfitableCount(trades[..|trades| - 1]) + (if Profitable(trades[|trades| - 1]) then 1 else 0)
  }

  /** The sum of the truthy pnl values. */
  function ReturnSum(trades: seq<TradeEntry>): real
    decreases |trades|
  {
    if trades == [] then 0.0
    else
      var t := trades[|trades| - 1];
      ReturnSum(trades[..|trades| - 1]) + (if Truthy(t.pnl) then t.pnl.value else 0.0)
  }

  /**
   * The counters agree with the recorded trades: one trade per count, the
   * profitable count and the return are those of the trade list, and the win
   * rate and average follow from them.
   */
  predicate WellFormed(key: string, m: ModelMetrics) {
    && m.modelType == key
    && 0 <= m.correctPredictions <= m.totalPredictions
    && m.totalTrades == |m.trades|
    && m.profitableTrades == ProfitableCount(m.trades)
    && m.totalReturn == ReturnSum(m.trades)
    && |m.equityCurve| <= CurveCapacity
    && (m.totalTrades == 0 ==> m.winRate == 0.0 && m.averageReturnPerTrade == 0.0)
    && (m.totalTrades > 0 ==>
          m.winRate == m.profitableTrades as real / m.totalTrades as real * 100.0
          && m.averageReturnPerTrade == m.totalReturn / m.totalTrades as real)
  }

  /** The win rate of a well-formed entry is a percentage. */
  lemma WinRateIsPercentage(key: string, m: ModelMetrics)
    requires WellFormed(key, m)
    ensures 0.0 <= m.winRate <= 100.0
    ensures 0 <= m.profitableTrades <= m.totalTrades
  {
    if m.totalTrades > 0 {
      FractionBounds(m.profitableTrades as real, m.totalTrades as real);
    }
  }

  lemma NewMetricsWellFormed(key: string)
    ensures WellFormed(key, NewMetrics(key))
    ensures NewMetrics(key).totalPredictions == 0 && NewMetrics(key).totalTrades == 0
    ensures NewMetrics(key).trades == [] && NewMetrics(key).equityCurve == []
  {
  }

  // ---------------------------------------------------------------------------
  // The updates of one entry

  /**
   * A prediction is correct when both prices are truthy and they differ by
   * less than 1% of the prediction. The difference is divided by the signed
   * prediction, so a negative prediction always counts as correct.
   */
  function CorrectPrediction(predicted: Option<real>, actual: Option<real>): (ok: bool)
    ensures ok ==> Truthy(predicted) && Truthy(actual)
    ensures Truthy(actual) && predicted.Some? && predicted.value > 0.0 ==>
              (ok <==> Abs(actual.value - predicted.value) < 0.01 * predicted.value)
    ensures Truthy(actual) && predicted.Some? && predicted.value < 0.0 ==> ok
  {
    if Truthy(predicted) && Truthy(actual) then
      RelativeErrorBelow(actual.value - predicted.value, predicted.value);
      Abs(actual.value - predicted.value) / predicted.value < 0.01
    else false
  }

  /** Dividing by a positive bound compares against the scaled bound; dividing by a negative one gives a negative quotient. */
  lemma RelativeErrorBelow(diff: real, p: real)
    requires p != 0.0
    ensures p > 0.0 ==> (Abs(diff) / p < 0.01 <==> Abs(diff) < 0.01 * p)
    ensures p < 0.0 ==> Abs(diff) / p < 0.01
  {
    var q := Abs(diff) / p;
    assert q * p == Abs(diff);
    if p < 0.0 {
      if q > 0.0 {
        MulPositive(q, -p);
        assert q * (-p) == -(q * p);
      }
    } else {
      ScaleByPositive(q, 0.01, p);
      assert q < 0.01 <==> Abs(diff) < 0.01 * p;
    }
  }

  function PredictionStep(m: ModelMetrics, predicted: Option<real>, actual: Option<real>, stamp: real): (r: ModelMetrics)
    ensures r.totalPredictions == m.totalPredictions + 1
    ensures r.correctPredictions == m.correctPredictions + (if CorrectPrediction(predicted, actual) then 1 else 0)
    ensures r.lastUpdated == Some(stamp)
    ensures r == m.(totalPredictions := r.totalPredictions, correctPredictions := r.correctPredictions, lastUpdated := Some(stamp))
  {
    m.(totalPredictions := m.totalPredictions + 1,
       correctPredictions := m.correctPredictions + (if CorrectPrediction(predicted, actual) then 1 else 0),
       lastUpdated := Some(stamp))
  }

  /** The pnl of every trade is present (a missing one makes the profit-factor comparison fail). */
  predicate AllPnlPresent(trades: seq<TradeEntry>) {
    forall i :: 0 <= i < |trades| ==> trades[i].pnl.Some?
  }

  function SumPositivePnl(trades: seq<TradeEntry>): real
    requires AllPnlPresent(trades)
    decreases |trades|
  {
    if trades == [] then 0.0
    else
      var p := trades[|trades| - 1].pnl.value;
      SumPositivePnl(trades[..|trades| - 1]) + (if p > 0.0 then p else 0.0)
  }

  function SumNegativePnl(trades: seq<TradeEntry>): real
    requires AllPnlPresent(trades)
    decreases |trades|
  {
    if trades == [] then 0.0
    else
      var p := trades[|trades| - 1].pnl.value;
      SumNegativePnl(trades[..|trades| - 1]) + (if p < 0.0 then p else 0.0)
  }

  /** The entry after a trade, and whether the profit-factor recomputation raised. */
  datatype TradeOutcome = TradeOutcome(metrics: ModelMetrics, raised: bool)

  /** Counters, return, win rate and average; then the profit factor and time stamp unless a pnl is missing. */
  function TradeStep(m: ModelMetrics, t: TradeEntry): (r: TradeOutcome)
    ensures r.raised <==> !AllPnlPresent(m.trades + [t])
    ensures r.metrics.totalTrades == m.totalTrades + 1 && r.metrics.trades == m.trades + [t]
    ensures r.metrics.equityCurve == m.equityCurve && r.metrics.totalPredictions == m.totalPredictions
    ensures r.metrics.correctPredictions == m.correctPredictions && r.metrics.modelType == m.modelType
    ensures r.raised ==> r.metrics.profitFactor == m.profitFactor && r.metrics.lastUpdated == m.lastUpdated
    ensures !r.raised ==> r.metrics.lastUpdated == Some(t.timestamp)
  {
    var total := m.totalTrades + 1;
    var totalReturn := if Truthy(t.pnl) then m.totalReturn + t.pnl.value else m.totalReturn;
    var profitable := if Truthy(t.pnl) && t.pnl.value > 0.0 then m.profitableTrades + 1 else m.profitableTrades;
    var counted := m.(
      totalTrades := total,
      trades := m.trades + [t],
      totalReturn := totalReturn,
      profitableTrades := profitable,
      winRate := if total > 0 then profitable as real / total as real * 100.0 else m.winRate,
      averageReturnPerTrade := if total > 0 then totalReturn / total as real else m.averageReturnPerTrade);
    if !AllPnlPresent(counted.trades) then TradeOutcome(counted, true)
    else
      var loss := Abs(SumNegativePnl(counted.trades));
      TradeOutcome(counted.(profitFactor := if loss > 0.0 then SumPositivePnl(counted.trades) / loss else m.profitFactor,
                            lastUpdated := Some(t.timestamp)), false)
  }

  /** Appends a point and keeps only the most recent 1000. */
  function CurveStep(m: ModelMetrics, equity: real): (r: ModelMetrics)
    ensures |r.equityCurve| == if |m.equityCurve| + 1 > CurveCapacity then CurveCapacity else |m.equityCurve| + 1
    ensures r.equityCurve == (m.equityCurve + [equity])[|m.equityCurve| + 1 - |r.equityCurve|..]
    ensures r.equityCurve[|r.equityCurve| - 1] == equity
    ensures r == m.(equityCurve := r.equityCurve)
  {
    var curve := m.equityCurve + [equity];
    m.(equityCurve := if |curve| > CurveCapacity then curve[|curve| - CurveCapacity..] else curve)
  }

  /** A prediction keeps an entry well-formed, and a correct count never exceeds the total. */
  lemma PredictionPreservesWellFormed(key: string, m: ModelMetrics, predicted: Option<real>, actual: Option<real>, stamp: real)
    requires WellFormed(key, m)
    ensures WellFormed(key, PredictionStep(m, predicted, actual, stamp))
  {
  }

  lemma {:induction false} ProfitableCountAppend(trades: seq<TradeEntry>, t: TradeEntry)
    ensures ProfitableCount(trades + [t]) == ProfitableCount(trades) + (if Profitable(t) then 1 else 0)
    ensures ReturnSum(trades + [t]) == ReturnSum(trades) + (if Truthy(t.pnl) then t.pnl.value else 0.0)
  {
    assert (trades + [t])[..|trades|] == trades;
  }

  /** A trade keeps an entry well-formed, whether or not the profit factor raised. */
  lemma TradePreservesWellFormed(key: string, m: ModelMetrics, t: TradeEntry)
    requires WellFormed(key, m)
    ensures WellFormed(key, TradeStep(m, t).metrics)
  {
    ProfitableCountAppend(m.trades, t);
  }

  lemma CurvePreservesWellFormed(key: string, m: ModelMetrics, equity: real)
    requires WellFormed(key, m)
    ensures WellFormed(key, CurveStep(m, equity))
  {
  }

  /** Recording a trade without a pnl always raises, after the counters were updated. */
  lemma MissingPnlRaises(m: ModelMetrics, t: TradeEntry)
    requires t.pnl.None?
    ensures TradeStep(m, t).raised
    ensures TradeStep(m, t).metrics.totalTrades == m.totalTrades + 1
  {
    assert (m.trades + [t])[|m.trades|] == t;
  }

  /** Once a trade without a pnl is recorded, every later trade raises too. */
  lemma MissingPnlIsSticky(m: ModelMetrics, t: TradeEntry, later: TradeEntry)
    requires t.pnl.None?
    ensures TradeStep(TradeStep(m, t).metrics, later).raised
  {
    var trades := TradeStep(m, t).metrics.trades;
    assert trades[|m.trades|] == t;
    assert (trades + [later])[|m.trades|] == t;
  }

  /** The profit factor changes only when there is a loss; it is then total profit over total loss. */
  lemma ProfitFactorOnlyWithLoss(m: ModelMetrics, t: TradeEntry)
    requires !TradeStep(m, t).raised
    ensures var trades := m.trades + [t];
      var loss := Abs(SumNegativePnl(trades));
      && (loss == 0.0 ==> TradeStep(m, t).metrics.profitFactor == m.profitFactor)
      && (loss > 0.0 ==> TradeStep(m, t).metrics.profitFactor * loss == SumPositivePnl(trades))
  {
    var trades := m.trades + [t];
    var loss := Abs(SumNegativePnl(trades));
    if loss > 0.0 {
      FractionBounds(SumPositivePnl(trades), loss);
    }
  }

  // ---------------------------------------------------------------------------
  // Reading

  /** The summary the tracker reports for one model. */
  datatype Summary = Summary(
    modelType: string,
    totalPredictions: int,
    accuracy: real,
    totalTrades: int,
    profitableTrades: int,
    winRate: real,
    totalReturn: real,
    averageReturnPerTrade: real,
    profitFactor: real,
    lastUpdated: Option<real>)

  function Accuracy(m: ModelMetrics): real {
    if m.totalPredictions > 0 then m.correctPredictions as real / m.totalPredictions as real * 100.0 else 0.0
  }

  /** Accuracy is a percentage of correct predictions, and 0 without predictions. */
  lemma AccuracyIsPercentage(key: string, m: ModelMetrics)
    requires WellFormed(key, m)
    ensures 0.0 <= Accuracy(m) <= 100.0
    ensures m.totalPredictions == 0 ==> Accuracy(m) == 0.0
  {
    if m.totalPredictions > 0 {
      FractionBounds(m.correctPredictions as real, m.totalPredictions as real);
    }
  }

  /**
   * The reported summary: the stored counters and figures as they are, and
   * the accuracy as the percentage of correct predictions (0 without any).
   */
  function Summarize(m: ModelMetrics): (s: Summary)
    ensures s.modelType == m.modelType && s.totalPredictions == m.totalPredictions
    ensures s.totalTrades == m.totalTrades && s.profitableTrades == m.profitableTrades && s.winRate == m.winRate
    ensures s.totalReturn == m.totalReturn && s.averageReturnPerTrade == m.averageReturnPerTrade
    ensures s.profitFactor == m.profitFactor && s.lastUpdated == m.lastUpdated
    ensures m.totalPredictions > 0 ==> s.accuracy * m.totalPredictions as real == m.correctPredictions as real * 100.0
    ensures m.totalPredictions <= 0 ==> s.accuracy == 0.0
    ensures 0 <= m.correctPredictions <= m.totalPredictions ==> 0.0 <= s.accuracy <= 100.0
  {
    var summary := Summary(m.modelType, m.totalPredictions, Accuracy(m), m.totalTrades, m.profitableTrades,
                           m.winRate, m.totalReturn, m.averageReturnPerTrade, m.profitFactor, m.lastUpdated);
    if m.totalPredictions > 0 then
      FractionBounds(m.correctPredictions as real, m.totalPredictions as real);
      summary
    else summary
  }

  datatype Criterion = ByWinRate | ByReturn | ByProfitFactor

  function Score(s: Summary, c: Criterion): real {
    match c
    case ByWinRate => s.winRate
    case ByReturn => s.totalReturn
    case ByProfitFactor => s.profitFactor
  }

  /** Python's max over a non-empty list: the first element with the greatest score. */
  function FirstBest(items: seq<(string, Summary)>, c: Criterion): (i: nat)
    requires |items| > 0
    ensures i < |items|
    ensures forall j :: 0 <= j < |items| ==> Score(items[j].1, c) <= Score(items[i].1, c)
    ensures forall j :: 0 <= j < i ==> Score(items[j].1, c) < Score(items[i].1, c)
    decreases |items|
  {
    if |items| == 1 then 0
    else
      var init := items[..|items| - 1];
      var best := FirstBest(init, c);
      assert forall j :: 0 <= j < |init| ==> init[j] == items[j];
      if Score(items[|items| - 1].1, c) > Score(items[best].1, c) then |items| - 1 else best
  }

  datatype Comparison =
    | NoModelData
    | Compared(models: seq<(string, Summary)>, bestByWinRate: string, bestByReturn: string,
               bestByProfitFactor: string, totalModels: nat)

  // ---------------------------------------------------------------------------
  // The tracker

  /** The entry for `key`, created zeroed when missing. */
  function EntryFor(models: map<string, ModelMetrics>, key: string): ModelMetrics {
    if key in models then models[key] else NewMetrics(key)
  }

  /** The key order after touching `key`: a new key goes last. */
  function KeyOrderAfter(order: seq<string>, models: map<string, ModelMetrics>, key: string): seq<string> {
    if key in models then order else order + [key]
  }

  /** `order` without `key`. */
  function Without(order: seq<string>, key: string): (r: seq<string>)
    ensures forall x :: x in r <==> x in order && x != key
    ensures |r| <= |order|
    decreases |order|
  {
    if order == [] then []
    else (if order[0] == key then [] else [order[0]]) + Without(order[1..], key)
  }

  predicate Distinct(order: seq<string>) {
    forall i, j :: 0 <= i < j < |order| ==> order[i] != order[j]
  }

  lemma DistinctTail(order: seq<string>)
    requires order != [] && Distinct(order)
    ensures Distinct(order[1..]) && order[0] !in order[1..]
  {
    var rest := order[1..];
    forall i, j | 0 <= i < j < |rest| ensures rest[i] != rest[j] {
      assert rest[i] == order[i + 1] && rest[j] == order[j + 1];
    }
    forall i | 0 <= i < |rest| ensures rest[i] != order[0] {
      assert rest[i] == order[i + 1];
    }
  }

  lemma ConsDistinct(x: string, rest: seq<string>)
    requires Distinct(rest) && x !in rest
    ensures Distinct([x] + rest)
  {
    var r := [x] + rest;
    forall i, j | 0 <= i < j < |r| ensures r[i] != r[j] {
      assert r[j] == rest[j - 1];
      if i > 0 {
        assert r[i] == rest[i - 1];
      }
    }
  }

  lemma {:induction false} WithoutKeepsDistinct(order: seq<string>, key: string)
    requires Distinct(order)
    ensures Distinct(Without(order, key))
    decreases |order|
  {
    if order != [] {
      DistinctTail(order);
      WithoutKeepsDistinct(order[1..], key);
      if order[0] != key {
        ConsDistinct(order[0], Without(order[1..], key));
      }
    }
  }

  lemma {:induction false} WithoutAbsent(order: seq<string>, key: string)
    requires key !in order
    ensures Without(order, key) == order
    decreases |order|
  {
    if order != [] {
      WithoutAbsent(order[1..], key);
    }
  }

  /** A distinct key list with exactly the map's keys is as long as the map. */
  lemma KeysCount(order: seq<string>, models: map<string, ModelMetrics>)
    requires Distinct(order) && forall k :: k in order <==> k in models
    ensures |order| == |models|
  {
    DistinctCardinality(order);
    assert models.Keys == set k | k in order;
  }

  lemma {:induction false} DistinctCardinality(order: seq<string>)
    requires Distinct(order)
    ensures |set k | k in order| == |order|
    decreases |order|
  {
    if order != [] {
      var rest := order[1..];
      DistinctTail(order);
      DistinctCardinality(rest);
      assert (set k | k in order) == (set k | k in rest) + {order[0]};
    }
  }

  /** The tracker's invariant: the key order lists each key once, keys are lower-case and every entry is well-formed. */
  ghost predicate Consistent(order: seq<string>, models: map<string, ModelMetrics>) {
    && Distinct(order)
    && (forall k :: k in order <==> k in models)
    && (forall k :: k in models ==> Text.Lower(k) == k && WellFormed(k, models[k]))
  }

  lemma UpdateTwice(models: map<string, ModelMetrics>, key: string, first: ModelMetrics, second: ModelMetrics)
    ensures models[key := first][key := second] == models[key := second]
  {
  }

  /** Replacing one entry by a well-formed one keeps the tracker consistent. */
  lemma ReplaceKeepsConsistent(order: seq<string>, models: map<string, ModelMetrics>, key: string, m: ModelMetrics)
    requires Consistent(order, models) && key in models && WellFormed(key, m)
    ensures Consistent(order, models[key := m])
  {
  }

  /** Registering a new lower-case key keeps the tracker consistent. */
  lemma RegisterKeepsConsistent(order: seq<string>, models: map<string, ModelMetrics>, key: string)
    requires Consistent(order, models) && Text.Lower(key) == key
    ensures Consistent(KeyOrderAfter(order, models, key), models[key := EntryFor(models, key)])
  {
    if key in models {
      assert models[key := EntryFor(models, key)] == models;
    } else {
      NewMetricsWellFormed(key);
      assert key !in order;
      var o := order + [key];
      var m := models[key := NewMetrics(key)];
      forall i, j | 0 <= i < j < |o| ensures o[i] != o[j] {
        if j == |order| {
          assert o[i] == order[i];
        } else {
          assert o[i] == order[i] && o[j] == order[j];
        }
      }
      assert forall k :: k in o <==> k in m;
      assert Consistent(o, m);
    }
  }

  /** Deleting a key keeps the tracker consistent. */
  lemma DeleteKeepsConsistent(order: seq<string>, models: map<string, ModelMetrics>, key: string)
    requires Consistent(order, models)
    ensures Consistent(Without(order, key), models - {key})
  {
    WithoutKeepsDistinct(order, key);
  }

  class ModelPerformanceTracker {
    var models: map<string, ModelMetrics>
    var order: seq<string>

    ghost predicate Valid()
      reads this
    {
      Consistent(order, models)
    }

    constructor ()
      ensures Valid() && models == map[] && order == []
    {
      models := map[];
      order := [];
    }

    /** Registers `key` if it is new; every other entry and the order of the old keys are unchanged. */
    method Register(key: string)
      requires Valid() && Text.Lower(key) == key
      modifies this
      ensures Valid() && key in models
      ensures models == old(models)[key := EntryFor(old(models), key)]
      ensures order == KeyOrderAfter(old(order), old(models), key)
    {
      RegisterKeepsConsistent(order, models, key);
      if key !in models {
        models := models[key := NewMetrics(key)];
        order := order + [key];
      }
    }

    /** Stores a well-formed entry under an existing key. */
    method Replace(key: string, m: ModelMetrics)
      requires Valid() && key in models && WellFormed(key, m)
      modifies this`models
      ensures Valid()
      ensures models == old(models)[key := m]
    {
      ReplaceKeepsConsistent(order, models, key, m);
      models := models[key := m];
    }

    method RecordPrediction(modelType: string, predicted: Option<real>, actual: Option<real>, stamp: real)
      requires Valid()
      modifies this
      ensures Valid()
      ensures var key := Text.Lower(modelType);
        && models == old(models)[key := PredictionStep(EntryFor(old(models), key), predicted, actual, stamp)]
        && order == KeyOrderAfter(old(order), old(models), key)
    {
      var key := Text.Lower(modelType);
      Text.LowerIdempotent(modelType);
      Register(key);
      var m := PredictionStep(models[key], predicted, actual, stamp);
      PredictionPreservesWellFormed(key, models[key], predicted, actual, stamp);
      Replace(key, m);
      UpdateTwice(old(models), key, EntryFor(old(models), key), m);
    }

    /** Records a trade; `raised` reports the failure of the profit-factor recomputation on a missing pnl. */
    method RecordTrade(modelType: string, symbol: string, action: string, entryPrice: real, exitPrice: Option<real>,
                       pnl: Option<real>, pnlPct: Option<real>, stamp: real) returns (raised: bool)
      requires Valid()
      modifies this
      ensures Valid()
      ensures var key := Text.Lower(modelType);
        var outcome := TradeStep(EntryFor(old(models), key), TradeEntry(symbol, action, entryPrice, exitPrice, pnl, pnlPct, stamp));
        && models == old(models)[key := outcome.metrics]
        && raised == outcome.raised
        && order == KeyOrderAfter(old(order), old(models), key)
    {
      var key := Text.Lower(modelType);
      Text.LowerIdempotent(modelType);
      Register(key);
      var trade := TradeEntry(symbol, action, entryPrice, exitPrice, pnl, pnlPct, stamp);
      var outcome := TradeStep(models[key], trade);
      TradePreservesWellFormed(key, models[key], trade);
      Replace(key, outcome.metrics);
      UpdateTwice(old(models), key, EntryFor(old(models), key), outcome.metrics);
      raised := outcome.raised;
    }

    method UpdateEquityCurve(modelType: string, equity: real)
      requires Valid()
      modifies this
      ensures Valid()
      ensures var key := Text.Lower(modelType);
        && models == old(models)[key := CurveStep(EntryFor(old(models), key), equity)]
        && order == KeyOrderAfter(old(order), old(models), key)
    {
      var key := Text.Lower(modelType);
      Text.LowerIdempotent(modelType);
      Register(key);
      var m := CurveStep(models[key], equity);
      CurvePreservesWellFormed(key, models[key], equity);
      Replace(key, m);
      UpdateTwice(old(models), key, EntryFor(old(models), key), m);
    }

    function GetModelMetrics(modelType: string): (r: Option<ModelMetrics>)
      reads this
      ensures r.Some? <==> Text.Lower(modelType) in models
      ensures r.Some? ==> r.value == models[Text.Lower(modelType)]
    {
      if Text.Lower(modelType) in models then Some(models[Text.Lower(modelType)]) else None
    }

    /** The summaries, in the dictionary's order. */
    function GetAllMetrics(): (r: seq<(string, Summary)>)
      requires Valid()
      reads this
      ensures |r| == |order|
      ensures forall i :: 0 <= i < |r| ==> r[i].0 == order[i] && r[i].1 == Summarize(models[order[i]])
    {
      seq(|order|, i requires 0 <= i < |order| && Valid() reads this => (order[i], Summarize(models[order[i]])))
    }

    function CompareModels(): (r: Comparison)
      requires Valid()
      reads this
      ensures r.NoModelData? <==> models == map[]
      ensures r.Compared? ==>
                && r.models == GetAllMetrics()
                && r.totalModels == |models|
                && r.bestByWinRate in models && r.bestByReturn in models && r.bestByProfitFactor in models
    // each best is the first tracked model with the greatest score, as FirstBest specifies
    ensures r.Compared? ==>
              && |r.models| > 0
              && r.bestByWinRate == r.models[FirstBest(r.models, ByWinRate)].0
              && r.bestByReturn == r.models[FirstBest(r.models, ByReturn)].0
              && r.bestByProfitFactor == r.models[FirstBest(r.models, ByProfitFactor)].0
    {
      KeysCount(order, models);
      if |order| == 0 then
        NoModelData
      else
        var all := GetAllMetrics();
        Compared(all, all[FirstBest(all, ByWinRate)].0, all[FirstBest(all, ByReturn)].0,
                 all[FirstBest(all, ByProfitFactor)].0, |models|)
    }

    method ResetModel(modelType: string)
      requires Valid()
      modifies this
      ensures Valid()
      ensures models == old(models) - {Text.Lower(modelType)}
      ensures order == Without(old(order), Text.Lower(modelType))
    {
      var key := Text.Lower(modelType);
      DeleteKeepsConsistent(order, models, key);
      if key in models {
        models := models - {key};
        order := Without(order, key);
      } else {
        WithoutAbsent(order, key);
        assert models - {key} == models;
      }
    }

    method ResetAll()
      modifies this
      ensures Valid() && models == map[] && order == []
    {
      models := map[];
      order := [];
    }
  }
}

=== FILE: position_ledger.dfy ===
/**
 * The bot's position ledger and the summaries computed from it: recording a
 * trade (weighted-average entry on BUY, reduce-or-delete on SELL, realized
 * and unrealized P&L), the dashboard win rate, the portfolio valuation, the
 * partial update of the risk limits and the percent-to-fraction conversion.
 *
 * The bot-state row, the position table and the trade table are kept
 * together in one object; table rows keep their insertion order.
 */
module PositionLedger {
  import opened Wrappers
  import opened Numbers
  import Text
  import RiskManagement

  /** One row of the position table. */
  datatype Position = Position(symbol: string, quantity: real, avgPrice: real, currentPrice: real)

  /** One row of the trade table. */
  datatype TradeRow = TradeRow(symbol: string, action: string, price: real, size: real, fee: real,
                               pnl: Option<real>, timestamp: real)

  /** The last action remembered by the bot state. */
  datatype LastAction = LastAction(action: string, timestamp: real)

  // ---------------------------------------------------------------------------
  // Looking up a position

  /** The index of the first row holding `symbol`, as the table query returns it. */
  function FindPosition(ps: seq<Position>, symbol: string): (r: Option<nat>)
    ensures r.Some? ==> r.value < |ps| && ps[r.value].symbol == symbol
    ensures r.Some? ==> forall j :: 0 <= j < r.value ==> ps[j].symbol != symbol
    ensures r.None? ==> forall j :: 0 <= j < |ps| ==> ps[j].symbol != symbol
    decreases |ps|
  {
    if ps == [] then None
    else if ps[0].symbol == symbol then Some(0)
    else match FindPosition(ps[1..], symbol)
      case None => None
      case Some(i) => Some(i + 1)
  }

  /** The position held for `symbol`, if any. */
  function Holding(ps: seq<Position>, symbol: string): Option<Position> {
    match FindPosition(ps, symbol)
    case None => None
    case Some(i) => Some(ps[i])
  }

  /** Each symbol has at most one row. */
  predicate UniqueSymbols(ps: seq<Position>) {
    forall i, j :: 0 <= i < j < |ps| ==> ps[i].symbol != ps[j].symbol
  }

  /** The first row holding a symbol is found wherever it is. */
  lemma FindAt(ps: seq<Position>, symbol: string, i: nat)
    requires i < |ps| && ps[i].symbol == symbol
    requires forall j :: 0 <= j < i ==> ps[j].symbol != symbol
    ensures FindPosition(ps, symbol) == Some(i)
  {
  }

  lemma FindNone(ps: seq<Position>, symbol: string)
    requires forall j :: 0 <= j < |ps| ==> ps[j].symbol != symbol
    ensures FindPosition(ps, symbol) == None
  {
  }

  /** Overwriting the row of `symbol` changes the holding of `symbol` only. */
  lemma HoldingAfterUpdate(ps: seq<Position>, i: nat, q: Position, s: string)
    requires FindPosition(ps, q.symbol) == Some(i)
    ensures Holding(ps[i := q], s) == if s == q.symbol then Some(q) else Holding(ps, s)
  {
    var ps' := ps[i := q];
    if s == q.symbol {
      FindAt(ps', s, i);
    } else {
      match FindPosition(ps, s)
      case None =>
        FindNone(ps', s);
      case Some(k) =>
        FindAt(ps', s, k);
    }
  }

  /** Appending a row for a symbol that has none changes the holding of that symbol only. */
  lemma HoldingAfterAppend(ps: seq<Position>, q: Position, s: string)
    requires FindPosition(ps, q.symbol) == None
    ensures Holding(ps + [q], s) == if s == q.symbol then Some(q) else Holding(ps, s)
  {
    var ps' := ps + [q];
    if s == q.symbol {
      FindAt(ps', s, |ps|);
    } else {
      match FindPosition(ps, s)
      case None =>
        FindNone(ps', s);
      case Some(k) =>
        FindAt(ps', s, k);
    }
  }

  /** Deleting the row of a symbol removes its holding and changes no other. */
  lemma HoldingAfterDelete(ps: seq<Position>, i: nat, s: string)
    requires UniqueSymbols(ps) && i < |ps|
    ensures Holding(ps[..i] + ps[i + 1..], s) == if s == ps[i].symbol then None else Holding(ps, s)
  {
    var ps' := ps[..i] + ps[i + 1..];
    assert forall j :: 0 <= j < i ==> ps'[j] == ps[j];
    assert forall j :: i <= j < |ps'| ==> ps'[j] == ps[j + 1];
    if s == ps[i].symbol {
      FindNone(ps', s);
    } else {
      match FindPosition(ps, s)
      case None =>
        FindNone(ps', s);
      case Some(k) =>
        if k < i {
          FindAt(ps', s, k);
        } else {
          FindAt(ps', s, k - 1);
        }
    }
  }

  // ---------------------------------------------------------------------------
  // Recording a trade

  /** A BUY on an existing position: quantities add up and the entry price becomes the weighted average. */
  function AddToPosition(p: Position, price: real, size: real): (r: Position)
    ensures r.symbol == p.symbol && r.quantity == p.quantity + size && r.currentPrice == price
    ensures r.quantity > 0.0 ==> r.avgPrice * r.quantity == p.avgPrice * p.quantity + price * size
    ensures r.quantity <= 0.0 ==> r.avgPrice == price
  {
    var total := p.quantity + size;
    var avg := if total > 0.0 then (p.avgPrice * p.quantity + price * size) / total else price;
    Position(p.symbol, total, avg, price)
  }

  /**
   * The position table after a trade: at most one row appears or disappears,
   * every row is either an old one or the traded symbol's, and a trade that
   * is neither a BUY nor a SELL of a held symbol leaves the table alone.
   */
  function ApplyTrade(ps: seq<Position>, symbol: string, action: string, price: real, size: real): (r: seq<Position>)
    ensures |ps| - 1 <= |r| <= |ps| + 1
    ensures forall j :: 0 <= j < |r| ==> r[j] in ps || r[j].symbol == symbol
    ensures Text.Upper(action) != "BUY" && (Text.Upper(action) != "SELL" || FindPosition(ps, symbol).None?) ==> r == ps
  {
    var side := Text.Upper(action);
    match FindPosition(ps, symbol)
    case None =>
      if side == "BUY" then ps + [Position(symbol, size, price, price)] else ps
    case Some(i) =>
      if side == "BUY" then ps[i := AddToPosition(ps[i], price, size)]
      else if side == "SELL" then
        var remaining := ps[i].quantity - size;
        if remaining <= 0.0 then ps[..i] + ps[i + 1..]
        else ps[i := ps[i].(quantity := remaining, currentPrice := price)]
      else ps
  }

  /**
   * What a trade does to the holding of its own symbol: a BUY leaves a
   * holding priced at the fill; a SELL keeps it only while quantity remains,
   * reduced by the size; any other action changes nothing.
   */
  function HoldingAfter(held: Option<Position>, symbol: string, action: string, price: real, size: real): (r: Option<Position>)
    ensures Text.Upper(action) == "BUY" ==> r.Some? && r.value.currentPrice == price
    ensures Text.Upper(action) == "BUY" && held.None? ==> r == Some(Position(symbol, size, price, price))
    ensures Text.Upper(action) == "SELL" ==> (r.Some? <==> held.Some? && held.value.quantity > size)
    ensures Text.Upper(action) == "SELL" && r.Some? ==>
              r.value == held.value.(quantity := held.value.quantity - size, currentPrice := price)
    ensures Text.Upper(action) != "BUY" && Text.Upper(action) != "SELL" ==> r == held
  {
    var side := Text.Upper(action);
    match held
    case None => if side == "BUY" then Some(Position(symbol, size, price, price)) else None
    case Some(p) =>
      if side == "BUY" then Some(AddToPosition(p, price, size))
      else if side == "SELL" then
        if p.quantity - size <= 0.0 then None else Some(p.(quantity := p.quantity - size, currentPrice := price))
      else held
  }

  /**
   * A trade changes the holding of its own symbol as `HoldingAfter` says and
   * leaves every other symbol's holding as it was.
   */
  lemma ApplyTradeHoldings(ps: seq<Position>, symbol: string, action: string, price: real, size: real, s: string)
    requires UniqueSymbols(ps)
    ensures Holding(ApplyTrade(ps, symbol, action, price, size), s) ==
            if s == symbol then HoldingAfter(Holding(ps, symbol), symbol, action, price, size) else Holding(ps, s)
  {
    var side := Text.Upper(action);
    match FindPosition(ps, symbol)
    case None =>
      if side == "BUY" {
        HoldingAfterAppend(ps, Position(symbol, size, price, price), s);
      }
    case Some(i) =>
      if side == "BUY" {
        HoldingAfterUpdate(ps, i, AddToPosition(ps[i], price, size), s);
      } else if side == "SELL" {
        if ps[i].quantity - size <= 0.0 {
          HoldingAfterDelete(ps, i, s);
        } else {
          HoldingAfterUpdate(ps, i, ps[i].(quantity := ps[i].quantity - size, currentPrice := price), s);
        }
      }
  }

  /** A trade never creates a second row for a symbol. */
  lemma ApplyTradeKeepsUnique(ps: seq<Position>, symbol: string, action: string, price: real, size: real)
    requires UniqueSymbols(ps)
    ensures UniqueSymbols(ApplyTrade(ps, symbol, action, price, size))
  {
    var ps' := ApplyTrade(ps, symbol, action, price, size);
    match FindPosition(ps, symbol)
    case None =>
    case Some(i) =>
      if Text.Upper(action) == "SELL" && ps[i].quantity - size <= 0.0 {
        forall a, b | 0 <= a < b < |ps'| ensures ps'[a].symbol != ps'[b].symbol {
          var a0 := if a < i then a else a + 1;
          var b0 := if b < i then b else b + 1;
          assert ps'[a] == ps[a0] && ps'[b] == ps[b0];
        }
      }
  }

  /** With positive quantities the new average entry price lies between the old one and the fill price. */
  lemma AverageBetween(p: Position, price: real, size: real)
    requires p.quantity >= 0.0 && size >= 0.0 && p.quantity + size > 0.0
    ensures Min(p.avgPrice, price) <= AddToPosition(p, price, size).avgPrice <= Max(p.avgPrice, price)
  {
    var r := AddToPosition(p, price, size);
    var lo := Min(p.avgPrice, price);
    var hi := Max(p.avgPrice, price);
    var q := p.quantity;
    assert lo * q <= p.avgPrice * q && lo * size <= price * size by {
      MulMonotone(lo, p.avgPrice, q);
      MulMonotone(lo, price, size);
    }
    assert p.avgPrice * q <= hi * q && price * size <= hi * size by {
      MulMonotone(p.avgPrice, hi, q);
      MulMonotone(price, hi, size);
    }
    var t := r.quantity;
    assert lo * t == lo * q + lo * size;
    assert hi * t == hi * q + hi * size;
    assert r.avgPrice * t == p.avgPrice * q + price * size;
    SumBetween(lo * q, p.avgPrice * q, hi * q, lo * size, price * size, hi * size);
    DivideMonotone(lo, r.avgPrice, r.quantity);
    DivideMonotone(r.avgPrice, hi, r.quantity);
  }

  lemma SumBetween(a1: real, b1: real, c1: real, a2: real, b2: real, c2: real)
    requires a1 <= b1 <= c1 && a2 <= b2 <= c2
    ensures a1 + a2 <= b1 + b2 <= c1 + c2
  {
  }

  lemma MulMonotone(a: real, b: real, k: real)
    requires a <= b && k >= 0.0
    ensures a * k <= b * k
  {
    assert b * k - a * k == (b - a) * k;
  }

  lemma DivideMonotone(a: real, b: real, k: real)
    requires k > 0.0 && a * k <= b * k
    ensures a <= b
  {
  }

  /**
   * The unrealized P&L of the table: the sum of (current − average) · quantity.
   * Long positions that are all in profit give a gain, all at a loss give a loss.
   */
  function Unrealized(ps: seq<Position>): (u: real)
    ensures (forall i :: 0 <= i < |ps| ==> ps[i].quantity >= 0.0 && ps[i].currentPrice >= ps[i].avgPrice) ==> u >= 0.0
    ensures (forall i :: 0 <= i < |ps| ==> ps[i].quantity >= 0.0 && ps[i].currentPrice <= ps[i].avgPrice) ==> u <= 0.0
    decreases |ps|
  {
    if ps == [] then 0.0
    else
      var p := ps[|ps| - 1];
      assert forall i :: 0 <= i < |ps| - 1 ==> ps[..|ps| - 1][i] == ps[i];
      SignedProduct(p.currentPrice - p.avgPrice, p.quantity);
      Unrealized(ps[..|ps| - 1]) + (p.currentPrice - p.avgPrice) * p.quantity
  }

  lemma SignedProduct(a: real, q: real)
    ensures a >= 0.0 && q >= 0.0 ==> a * q >= 0.0
    ensures a <= 0.0 && q >= 0.0 ==> a * q <= 0.0
  {
  }

  /**
   * The realized P&L as the trade endpoint computes it: the column is loaded
   * as a `Decimal`, and adding a float pnl to it raises `TypeError`. `None`
   * stands for that error; a falsy pnl skips the addition.
   */
  function RealizedAsWritten(realized: real, pnl: Option<real>): (r: Option<real>)
    ensures r.None? <==> Truthy(pnl)
    ensures r.Some? ==> r.value == realized
  {
    if Truthy(pnl) then None else Some(realized)
  }

  /** The realized P&L as intended: it grows by a trade's pnl when that pnl is present and non-zero. */
  function RealizedAfter(realized: real, pnl: Option<real>): (r: real)
    ensures pnl.Some? ==> r == realized + pnl.value
    ensures pnl.None? ==> r == realized
  {
    if Truthy(pnl) then realized + pnl.value else realized
  }

  /**
   * The code as written and the intended update agree exactly on the trades
   * without a pnl: every trade that carries one raises instead of moving the
   * realized P&L, so the realized P&L can never change.
   */
  lemma AsWrittenLosesEveryPnl(realized: real, pnl: Option<real>)
    ensures Truthy(pnl) ==> RealizedAsWritten(realized, pnl).None? && RealizedAfter(realized, pnl) != realized
    ensures !Truthy(pnl) ==> RealizedAsWritten(realized, pnl) == Some(RealizedAfter(realized, pnl))
  {
  }

  /** A profitable trade of 5.0 raises as written, and moves the realized P&L from 0 to 5 as intended. */
  lemma AsWrittenRejectsProfit()
    ensures RealizedAsWritten(0.0, Some(5.0)) == None
    ensures RealizedAfter(0.0, Some(5.0)) == 5.0
  {
  }

  /** The present pnls of a list of trades, summed. */
  function PnlSum(trades: seq<TradeRow>): real
    decreases |trades|
  {
    if trades == [] then 0.0
    else PnlSum(trades[..|trades| - 1]) + trades[|trades| - 1].pnl.GetOr(0.0)
  }

  /** The realized P&L after recording `trades` one by one with the intended update. */
  function RealizedOver(realized: real, trades: seq<TradeRow>): real
    decreases |trades|
  {
    if trades == [] then realized
    else RealizedAfter(RealizedOver(realized, trades[..|trades| - 1]), trades[|trades| - 1].pnl)
  }

  /** Skipping falsy pnls loses nothing: the realized P&L moves by the sum of all present pnls. */
  lemma {:induction false} RealizedOverIsSum(realized: real, trades: seq<TradeRow>)
    ensures RealizedOver(realized, trades) == realized + PnlSum(trades)
    decreases |trades|
  {
    if trades != [] {
      RealizedOverIsSum(realized, trades[..|trades| - 1]);
    }
  }

  /** Positions valued at their entry price carry no unrealized P&L. */
  lemma {:induction false} UnrealizedAtCost(ps: seq<Position>)
    requires forall i :: 0 <= i < |ps| ==> ps[i].currentPrice == ps[i].avgPrice
    ensures Unrealized(ps) == 0.0
    decreases |ps|
  {
    if ps != [] {
      UnrealizedAtCost(ps[..|ps| - 1]);
    }
  }

  // ---------------------------------------------------------------------------
  // Summaries

  /** A trade wins when its pnl is truthy and positive, which is to say present and positive. */
  function Winning(t: TradeRow): (w: bool)
    ensures w <==> t.pnl.Some? && t.pnl.value > 0.0
  {
    Truthy(t.pnl) && t.pnl.value > 0.0
  }

  function WinnerCount(trades: seq<TradeRow>): (n: nat)
    ensures n <= |trades|
    decreases |trades|
  {
    if trades == [] then 0
    else WinnerCount(trades[..|trades| - 1]) + (if Winning(trades[|trades| - 1]) then 1 else 0)
  }

  /** The dashboard win rate: winners over all trades, as a percentage, 0 without trades. */
  function DashboardWinRate(trades: seq<TradeRow>): (r: real)
    ensures 0.0 <= r <= 100.0
    ensures trades == [] ==> r == 0.0
    ensures WinnerCount(trades) == |trades| && trades != [] ==> r == 100.0
    ensures WinnerCount(trades) == 0 ==> r == 0.0
  {
    if |trades| > 0 then
      FractionBounds(WinnerCount(trades) as real, |trades| as real);
      WinnerCount(trades) as real / |trades| as real * 100.0
    else 0.0
  }

  /** One line of the portfolio view. */
  datatype Asset = Asset(symbol: string, quantity: real, avgPrice: real, currentPrice: real,
                         value: real, changePercent: real, unrealized: real)

  function AssetOf(p: Position): (a: Asset)
    ensures a.symbol == p.symbol && a.quantity == p.quantity && a.value == p.quantity * p.currentPrice
    ensures a.unrealized == (p.currentPrice - p.avgPrice) * p.quantity
    ensures p.avgPrice <= 0.0 ==> a.changePercent == 0.0
  {
    var change := if p.avgPrice > 0.0 then (p.currentPrice - p.avgPrice) / p.avgPrice * 100.0 else 0.0;
    Asset(p.symbol, p.quantity, p.avgPrice, p.currentPrice, p.quantity * p.currentPrice, change,
          (p.currentPrice - p.avgPrice) * p.quantity)
  }

  /** With a positive entry price, the change shown is positive exactly when the price rose, and it is the change relative to entry. */
  lemma ChangePercentSign(p: Position)
    requires p.avgPrice > 0.0
    ensures AssetOf(p).changePercent > 0.0 <==> p.currentPrice > p.avgPrice
    ensures AssetOf(p).changePercent * p.avgPrice == (p.currentPrice - p.avgPrice) * 100.0
  {
    PercentSign(p.currentPrice - p.avgPrice, p.avgPrice);
  }

  /** The market value of the table: the sum of quantity · current price. */
  function TotalValue(ps: seq<Position>): (v: real)
    ensures (forall i :: 0 <= i < |ps| ==> ps[i].quantity >= 0.0 && ps[i].currentPrice >= 0.0) ==> v >= 0.0
    decreases |ps|
  {
    if ps == [] then 0.0
    else
      assert forall i :: 0 <= i < |ps| - 1 ==> ps[..|ps| - 1][i] == ps[i];
      SignedProduct(ps[|ps| - 1].currentPrice, ps[|ps| - 1].quantity);
      TotalValue(ps[..|ps| - 1]) + ps[|ps| - 1].quantity * ps[|ps| - 1].currentPrice
  }

  datatype PortfolioView = PortfolioView(totalValue: real, assetsCount: nat, unrealized: real, freeCash: real,
                                         assets: seq<Asset>)

  /** Extending the prefix by one position adds that position's value and unrealized P&L to the totals. */
  lemma PortfolioPrefix(ps: seq<Position>, i: nat)
    requires i < |ps|
    ensures TotalValue(ps[..i + 1]) == TotalValue(ps[..i]) + AssetOf(ps[i]).value
    ensures Unrealized(ps[..i + 1]) == Unrealized(ps[..i]) + AssetOf(ps[i]).unrealized
  {
    TotalValuePrefix(ps, i);
    UnrealizedPrefix(ps, i);
  }

  lemma TotalValuePrefix(ps: seq<Position>, i: nat)
    requires i < |ps|
    ensures TotalValue(ps[..i + 1]) == TotalValue(ps[..i]) + ps[i].quantity * ps[i].currentPrice
  {
    var q := ps[..i + 1];
    assert q[..|q| - 1] == ps[..i] && q[|q| - 1] == ps[i];
  }

  lemma UnrealizedPrefix(ps: seq<Position>, i: nat)
    requires i < |ps|
    ensures Unrealized(ps[..i + 1]) == Unrealized(ps[..i]) + (ps[i].currentPrice - ps[i].avgPrice) * ps[i].quantity
  {
    var q := ps[..i + 1];
    assert q[..|q| - 1] == ps[..i] && q[|q| - 1] == ps[i];
  }

  /** Values every position; free cash is the balance not tied up in positions, never negative. */
  method Portfolio(balance: real, positions: seq<Position>) returns (view: PortfolioView)
    ensures |view.assets| == view.assetsCount == |positions|
    ensures forall i :: 0 <= i < |positions| ==> view.assets[i] == AssetOf(positions[i])
    ensures view.unrealized == Unrealized(positions)
    ensures view.freeCash == Max(0.0, balance - TotalValue(positions))
    ensures view.totalValue == Max(balance, TotalValue(positions))
  {
    var assets: seq<Asset> := [];
    var totalValue := 0.0;
    var unrealized := 0.0;
    var i := 0;
    while i < |positions|
      invariant 0 <= i <= |positions|
      invariant |assets| == i
      invariant forall j :: 0 <= j < i ==> assets[j] == AssetOf(positions[j])
      invariant totalValue == TotalValue(positions[..i])
      invariant unrealized == Unrealized(positions[..i])
    {
      var pos := positions[i];
      var asset := AssetOf(pos);
      totalValue := totalValue + asset.value;
      unrealized := unrealized + asset.unrealized;
      assets := assets + [asset];
      PortfolioPrefix(positions, i);
      i := i + 1;
    }
    assert positions[..i] == positions;
    var freeCash := balance - totalValue;
    if freeCash < 0.0 {
      freeCash := 0.0;
    }
    view := PortfolioView(totalValue + freeCash, |assets|, unrealized, freeCash, assets);
  }

  /** A percentage above 1 is divided by 100; a value up to 1 is taken as a fraction already; a missing one is 0. */
  function PercentToFraction(pct: Option<real>): (r: real)
    ensures pct.None? ==> r == 0.0
    ensures pct.Some? && pct.value <= 1.0 ==> r == pct.value
    ensures pct.Some? && pct.value > 1.0 ==> r * 100.0 == pct.value
  {
    match pct
    case None => 0.0
    case Some(p) => if p > 1.0 then p / 100.0 else p
  }

  /** A non-negative percentage of at most 100 becomes a fraction in [0, 1], and converting that again changes nothing. */
  lemma PercentToFractionRange(pct: real)
    requires 0.0 <= pct <= 100.0
    ensures 0.0 <= PercentToFraction(Some(pct)) <= 1.0
    ensures PercentToFraction(Some(PercentToFraction(Some(pct)))) == PercentToFraction(Some(pct))
  {
  }

  // ---------------------------------------------------------------------------
  // Configuration

  /** The fields of a configuration update; a missing field leaves its limit alone. */
  datatype ConfigUpdate = ConfigUpdate(maxPositionSize: Option<real>, riskPerTrade: Option<real>,
                                       stopLossPercent: Option<real>, takeProfitPercent: Option<real>,
                                       maxDailyLoss: Option<real>, mode: Option<string>)

  function UpdateLimits(l: RiskManagement.RiskLimits, cfg: ConfigUpdate): (r: RiskManagement.RiskLimits)
    ensures r.maxPositionSize == cfg.maxPositionSize.GetOr(l.maxPositionSize)
    ensures r.maxRiskPerTrade == cfg.riskPerTrade.GetOr(l.maxRiskPerTrade)
    ensures r.stopLossPercent == cfg.stopLossPercent.GetOr(l.stopLossPercent)
    ensures r.takeProfitPercent == cfg.takeProfitPercent.GetOr(l.takeProfitPercent)
    ensures r.maxDailyLoss == cfg.maxDailyLoss.GetOr(l.maxDailyLoss)
    ensures r.maxLeverage == l.maxLeverage && r.minBalance == l.minBalance && r.maxOpenPositions == l.maxOpenPositions
  {
    l.(maxPositionSize := cfg.maxPositionSize.GetOr(l.maxPositionSize),
       maxRiskPerTrade := cfg.riskPerTrade.GetOr(l.maxRiskPerTrade),
       stopLossPercent := cfg.stopLossPercent.GetOr(l.stopLossPercent),
       takeProfitPercent := cfg.takeProfitPercent.GetOr(l.takeProfitPercent),
       maxDailyLoss := cfg.maxDailyLoss.GetOr(l.maxDailyLoss))
  }

  /** An update without limit fields changes nothing, and applying one twice is the same as applying it once. */
  lemma UpdateLimitsIdempotent(l: RiskManagement.RiskLimits, cfg: ConfigUpdate)
    ensures UpdateLimits(UpdateLimits(l, cfg), cfg) == UpdateLimits(l, cfg)
    ensures (cfg.maxPositionSize.None? && cfg.riskPerTrade.None? && cfg.stopLossPercent.None?
             && cfg.takeProfitPercent.None? && cfg.maxDailyLoss.None?) ==> UpdateLimits(l, cfg) == l
  {
  }

  /** The mode after an update: a non-empty requested mode, lower-cased. */
  function ModeAfter(mode: string, requested: Option<string>): (r: string)
    ensures requested.Some? && requested.value != "" ==> r == Text.Lower(requested.value)
    ensures requested.None? || requested.value == "" ==> r == mode
  {
    if requested.Some? && requested.value != "" then Text.Lower(requested.value) else mode
  }

  // ---------------------------------------------------------------------------
  // The bot state with its tables

  class BotState {
    var mode: string
    var balance: real
    var realizedPnl: real
    var unrealizedPnl: real
    var lastAction: Option<LastAction>
    var positions: seq<Position>
    var trades: seq<TradeRow>

    /** One row per symbol, and the unrealized P&L agrees with the table. */
    ghost predicate Valid()
      reads this
    {
      UniqueSymbols(positions) && unrealizedPnl == Unrealized(positions)
    }

    /** The state row as first created: paper mode, a balance of 10000, nothing held or traded. */
    constructor ()
      ensures Valid()
      ensures mode == "paper" && balance == 10000.0 && realizedPnl == 0.0 && unrealizedPnl == 0.0
      ensures lastAction == None && positions == [] && trades == []
    {
      mode := "paper";
      balance := 10000.0;
      realizedPnl := 0.0;
      unrealizedPnl := 0.0;
      lastAction := None;
      positions := [];
      trades := [];
    }

    /**
     * Stores a trade as the endpoint is written: with a truthy pnl the update of
     * the realized P&L raises, the request is aborted before the commit and
     * nothing changes (`ok` is false); otherwise the trade is recorded and the
     * realized P&L stays as it was.
     */
    method RecordTrade(symbol: string, action: string, price: real, size: real, fee: real,
                       pnl: Option<real>, timestamp: real) returns (ok: bool)
      requires Valid()
      modifies this`realizedPnl, this`unrealizedPnl, this`lastAction, this`positions, this`trades
      ensures Valid()
      ensures ok <==> !Truthy(pnl)
      ensures !ok ==> unchanged(this)
      ensures ok ==> trades == old(trades) + [TradeRow(symbol, action, price, size, fee, pnl, timestamp)]
      ensures ok ==> realizedPnl == old(realizedPnl)
      ensures ok ==> lastAction == Some(LastAction(action, timestamp))
      ensures ok ==> positions == ApplyTrade(old(positions), symbol, action, price, size)
      ensures ok ==> unrealizedPnl == Unrealized(positions)
    {
      if RealizedAsWritten(realizedPnl, pnl).None? {
        return false;
      }
      RecordTradeCorrected(symbol, action, price, size, fee, pnl, timestamp);
      ok := true;
    }

    /** Stores a trade as intended, with the pnl added to the realized P&L, and updates the positions. */
    method RecordTradeCorrected(symbol: string, action: string, price: real, size: real, fee: real,
                                pnl: Option<real>, timestamp: real)
      requires Valid()
      modifies this`realizedPnl, this`unrealizedPnl, this`lastAction, this`positions, this`trades
      ensures Valid()
      ensures trades == old(trades) + [TradeRow(symbol, action, price, size, fee, pnl, timestamp)]
      ensures realizedPnl == RealizedAfter(old(realizedPnl), pnl)
      ensures lastAction == Some(LastAction(action, timestamp))
      ensures positions == ApplyTrade(old(positions), symbol, action, price, size)
      ensures unrealizedPnl == Unrealized(positions)
    {
      trades := trades + [TradeRow(symbol, action, price, size, fee, pnl, timestamp)];
      realizedPnl := RealizedAfter(realizedPnl, pnl);
      lastAction := Some(LastAction(action, timestamp));
      ApplyTradeKeepsUnique(positions, symbol, action, price, size);
      positions := ApplyTrade(positions, symbol, action, price, size);
      unrealizedPnl := Unrealized(positions);
    }

    /** Applies a configuration update to the risk limits and the mode. */
    method UpdateConfig(risk: RiskManagement.RiskManager, cfg: ConfigUpdate)
      modifies risk`limits, this`mode
      ensures risk.limits == UpdateLimits(old(risk.limits), cfg)
      ensures mode == ModeAfter(old(mode), cfg.mode)
    {
      risk.limits := UpdateLimits(risk.limits, cfg);
      if cfg.mode.Some? && cfg.mode.value != "" {
        mode := Text.Lower(cfg.mode.value);
      }
    }

    function WinRate(): (r: real)
      reads this
      ensures 0.0 <= r <= 100.0
      ensures r == DashboardWinRate(trades)
    {
      DashboardWinRate(trades)
    }
  }
}

=== FILE: risk_manager.dfy ===
/**
 * The risk manager of the trading backend: configured limits, a daily
 * loss/trade window that resets lazily when the calendar day advances, the
 * ordered accept/reject decision for a proposed trade, fixed-fractional
 * position sizing, stop-loss / take-profit prices and the per-symbol
 * position-risk map.
 *
 * The wall clock is not read: every operation that consults "today" takes
 * the current day number as a parameter.
 */
module RiskManagement {
  import opened Wrappers
  import opened Numbers
  import Text

  /** Configured limits; percentages are stored as percent values (5.0 = 5%). */
  datatype RiskLimits = RiskLimits(
    maxPositionSize: real,    // notional cap per trade, in quote currency
    maxDailyLoss: real,       // absolute daily loss cap
    maxRiskPerTrade: real,    // percent of balance
    stopLossPercent: real,
    takeProfitPercent: real,
    maxLeverage: real,
    minBalance: real,
    maxOpenPositions: int)

  /** The limits used when none are supplied. */
  function DefaultLimits(): (l: RiskLimits)
    ensures l.maxPositionSize == 1000.0 && l.maxDailyLoss == 500.0
    ensures l.maxRiskPerTrade == 2.0 && l.stopLossPercent == 5.0 && l.takeProfitPercent == 10.0
    ensures l.maxLeverage == 1.0 && l.minBalance == 1000.0 && l.maxOpenPositions == 5
  {
    RiskLimits(1000.0, 500.0, 2.0, 5.0, 10.0, 1.0, 1000.0, 5)
  }

  /** Why a trade or a loss was refused; each carries the figures the message reports. */
  datatype Violation =
    | BelowMinBalance(balance: real, minimum: real)
    | PositionSizeExceeded(value: real, maximum: real)
    | MaxOpenPositionsReached(maxOpen: int)
    | TradeRiskExceeded(risk: real, percent: real)
    | DailyLossExceeded(newLoss: real, limit: real)

  datatype Decision = Allowed | Rejected(reason: Violation)

  /** An entry of the caller's existing-positions dictionary; its `quantity` key may be missing or hold `None`. */
  datatype Holding = Holding(quantity: Entry<real>)

  /** Risk view of one open position. */
  datatype PositionRisk = PositionRisk(
    symbol: string,
    entryPrice: real,
    currentPrice: real,
    quantity: real,
    unrealizedPnl: real,
    unrealizedPnlPercent: real,
    stopLossPrice: Option<real>,
    takeProfitPrice: Option<real>)

  /** The daily window: loss so far, trades so far, and the day it was last reset. */
  datatype DailyState = DailyState(loss: real, trades: int, lastReset: int)

  /** Daily statistics as reported to the dashboard. */
  datatype DailyStats = DailyStats(
    dailyLoss: real,
    dailyLossLimit: real,
    dailyTrades: int,
    remainingLossCapacity: real,
    lossPercentUsed: real)

  // ---------------------------------------------------------------------------
  // Daily window

  /** The lazy reset: a later day clears the counters, any other day leaves them. */
  function ResetIfNewDay(s: DailyState, today: int): (r: DailyState)
    ensures today > s.lastReset ==> r == DailyState(0.0, 0, today)
    ensures today <= s.lastReset ==> r == s
  {
    if today > s.lastReset then DailyState(0.0, 0, today) else s
  }

  lemma ResetIdempotent(s: DailyState, today: int)
    ensures ResetIfNewDay(ResetIfNewDay(s, today), today) == ResetIfNewDay(s, today)
    ensures ResetIfNewDay(s, today).lastReset >= s.lastReset
  {
  }

  /** Booking a completed trade: a loss adds its magnitude, every trade counts once. */
  function BookTrade(s: DailyState, pnl: real): (r: DailyState)
    ensures r.trades == s.trades + 1 && r.lastReset == s.lastReset
    ensures pnl < 0.0 ==> r.loss == s.loss - pnl
    ensures pnl >= 0.0 ==> r.loss == s.loss
    ensures r.loss >= s.loss
  {
    DailyState(if pnl < 0.0 then s.loss + Abs(pnl) else s.loss, s.trades + 1, s.lastReset)
  }

  /** `pct` percent of `x`. */
  function PercentOf(x: real, pct: real): real {
    x * (pct / 100.0)
  }

  lemma NonNegativeShare(x: real, pct: real)
    ensures x >= 0.0 && pct >= 0.0 ==> x * (pct / 100.0) >= 0.0 && PercentOf(x, pct) >= 0.0
  {
  }

  /** The move of a price in percent of the entry, times the cost basis, is the P&L in percent units. */
  lemma PercentOfEntry(current: real, entry: real, quantity: real)
    requires entry != 0.0
    ensures ((current - entry) / entry * 100.0) * entry == (current - entry) * 100.0
    ensures (current - entry) * quantity * 100.0 == ((current - entry) / entry * 100.0) * entry * quantity
  {
    var d := current - entry;
    assert d / entry * entry == d;
    calc {
      (d / entry * 100.0) * entry * quantity;
      == (d / entry * entry) * 100.0 * quantity;
      == d * 100.0 * quantity;
    }
  }

  /** Whether booking `pnl` would take the day's loss over the limit; it never changes the window. */
  function DailyLossCheck(limits: RiskLimits, s: DailyState, pnl: real): (d: Decision)
    ensures d.Rejected? <==> pnl < 0.0 && s.loss - pnl > limits.maxDailyLoss
    ensures d.Rejected? ==> d.reason == DailyLossExceeded(s.loss - pnl, limits.maxDailyLoss)
  {
    if pnl < 0.0 && s.loss + Abs(pnl) > limits.maxDailyLoss then
      Rejected(DailyLossExceeded(s.loss + Abs(pnl), limits.maxDailyLoss))
    else
      Allowed
  }

  /** Trading should stop once the day's loss has reached the limit, that is once no loss capacity remains. */
  predicate ShouldStop(limits: RiskLimits, s: DailyState)
    ensures ShouldStop(limits, s) <==> DailyStatsOf(limits, s).remainingLossCapacity == 0.0
  {
    s.loss >= limits.maxDailyLoss
  }

  /** Once stopped, booking more trades on the same day keeps trading stopped. */
  lemma StopPersistsWithinDay(limits: RiskLimits, s: DailyState, pnls: seq<real>, today: int)
    requires ShouldStop(limits, s) && today <= s.lastReset
    ensures ShouldStop(limits, BookAll(ResetIfNewDay(s, today), pnls))
    ensures BookAll(ResetIfNewDay(s, today), pnls).lastReset == s.lastReset
  {
    BookAllLossGrows(s, pnls);
  }

  /** Booking a sequence of trades, oldest first. */
  function BookAll(s: DailyState, pnls: seq<real>): DailyState
    decreases |pnls|
  {
    if pnls == [] then s else BookTrade(BookAll(s, pnls[..|pnls| - 1]), pnls[|pnls| - 1])
  }

  lemma {:induction false} BookAllLossGrows(s: DailyState, pnls: seq<real>)
    ensures BookAll(s, pnls).loss >= s.loss
    ensures BookAll(s, pnls).lastReset == s.lastReset
    ensures BookAll(s, pnls).trades == s.trades + |pnls|
    decreases |pnls|
  {
    if pnls != [] {
      BookAllLossGrows(s, pnls[..|pnls| - 1]);
    }
  }

  /** The dashboard's view of the daily window. */
  function DailyStatsOf(limits: RiskLimits, s: DailyState): (st: DailyStats)
    ensures st.dailyLoss == s.loss && st.dailyTrades == s.trades && st.dailyLossLimit == limits.maxDailyLoss
    ensures st.remainingLossCapacity >= 0.0
    ensures st.remainingLossCapacity >= limits.maxDailyLoss - s.loss
    ensures limits.maxDailyLoss <= s.loss ==> st.remainingLossCapacity == 0.0
    ensures limits.maxDailyLoss <= 0.0 ==> st.lossPercentUsed == 0.0
    ensures limits.maxDailyLoss > 0.0 && 0.0 <= s.loss <= limits.maxDailyLoss ==>
              0.0 <= st.lossPercentUsed <= 100.0
  {
    DailyStats(
      s.loss,
      limits.maxDailyLoss,
      s.trades,
      Max(0.0, limits.maxDailyLoss - s.loss),
      if limits.maxDailyLoss > 0.0 then s.loss / limits.maxDailyLoss * 100.0 else 0.0)
  }

  // ---------------------------------------------------------------------------
  // Trade admission

  /**
   * The ordered admission checks: minimum balance, notional cap, number of
   * open positions, risk per trade. The first check that fires decides.
   */
  function TradeCheck(limits: RiskLimits, amount: real, price: real, balance: real, openCount: nat): (d: Decision)
    ensures d == Allowed ==>
              balance >= limits.minBalance && amount * price <= limits.maxPositionSize && openCount < limits.maxOpenPositions
    ensures d.Rejected? ==> !d.reason.DailyLossExceeded?
    ensures d.Rejected? && d.reason.BelowMinBalance? <==> balance < limits.minBalance
  {
    var value := amount * price;
    if balance < limits.minBalance then
      Rejected(BelowMinBalance(balance, limits.minBalance))
    else if value > limits.maxPositionSize then
      Rejected(PositionSizeExceeded(value, limits.maxPositionSize))
    else if openCount >= limits.maxOpenPositions then
      Rejected(MaxOpenPositionsReached(limits.maxOpenPositions))
    else if PercentOf(value, limits.maxRiskPerTrade) > PercentOf(balance, limits.maxRiskPerTrade) then
      Rejected(TradeRiskExceeded(PercentOf(value, limits.maxRiskPerTrade), limits.maxRiskPerTrade))
    else
      Allowed
  }

  /** The minimum-balance check comes before every other check. */
  lemma MinBalanceFirst(limits: RiskLimits, amount: real, price: real, balance: real, openCount: nat)
    requires balance < limits.minBalance
    ensures TradeCheck(limits, amount, price, balance, openCount) == Rejected(BelowMinBalance(balance, limits.minBalance))
  {
  }

  lemma MulPositiveMonotone(a: real, b: real, k: real)
    requires k > 0.0
    ensures a * k > b * k <==> a > b
  {
    if a > b {
      assert a * k - b * k == (a - b) * k;
    } else {
      assert b * k - a * k == (b - a) * k;
    }
  }

  /** With a positive risk percentage the risk check fires exactly when the notional exceeds the balance. */
  lemma RiskCheckIsNotionalOverBalance(limits: RiskLimits, value: real, balance: real)
    requires limits.maxRiskPerTrade > 0.0
    ensures PercentOf(value, limits.maxRiskPerTrade) > PercentOf(balance, limits.maxRiskPerTrade) <==> value > balance
  {
    MulPositiveMonotone(value, balance, limits.maxRiskPerTrade / 100.0);
  }

  /** A trade is admitted exactly when no check fires; with a positive risk percentage that reads as four plain comparisons. */
  lemma {:induction false} AllowedExactly(limits: RiskLimits, amount: real, price: real, balance: real, openCount: nat)
    requires limits.maxRiskPerTrade > 0.0
    ensures TradeCheck(limits, amount, price, balance, openCount) == Allowed <==>
              && balance >= limits.minBalance
              && amount * price <= limits.maxPositionSize
              && openCount < limits.maxOpenPositions
              && amount * price <= balance
  {
    RiskCheckIsNotionalOverBalance(limits, amount * price, balance);
  }

  /** Each rejection names the first check that fires, and the checks before it passed. */
  lemma RejectionOrder(limits: RiskLimits, amount: real, price: real, balance: real, openCount: nat)
    ensures var d := TradeCheck(limits, amount, price, balance, openCount);
      && (d.Rejected? && d.reason.PositionSizeExceeded? ==>
            balance >= limits.minBalance && d.reason.value == amount * price && amount * price > limits.maxPositionSize)
      && (d.Rejected? && d.reason.MaxOpenPositionsReached? ==>
            balance >= limits.minBalance && amount * price <= limits.maxPositionSize && openCount >= limits.maxOpenPositions)
      && (d.Rejected? && d.reason.TradeRiskExceeded? ==>
            balance >= limits.minBalance && amount * price <= limits.maxPositionSize && openCount < limits.maxOpenPositions)
      && !(d.Rejected? && d.reason.DailyLossExceeded?)
  {
  }

  /** With a zero risk percentage the risk check can never fire. */
  lemma ZeroRiskNeverRejectsOnRisk(limits: RiskLimits, amount: real, price: real, balance: real, openCount: nat)
    requires limits.maxRiskPerTrade == 0.0
    ensures var d := TradeCheck(limits, amount, price, balance, openCount);
      !(d.Rejected? && d.reason.TradeRiskExceeded?)
  {
  }

  // ---------------------------------------------------------------------------
  // Sizing and exit prices

  /** `risk_percent or max_risk_per_trade`: a missing or zero percentage falls back to the limit. */
  function EffectiveRiskPercent(limits: RiskLimits, riskPercent: Option<real>): (p: real)
    ensures riskPercent.None? || riskPercent == Some(0.0) ==> p == limits.maxRiskPerTrade
    ensures riskPercent.Some? && riskPercent.value != 0.0 ==> p == riskPercent.value
  {
    match riskPercent
    case Some(v) => if v != 0.0 then v else limits.maxRiskPerTrade
    case None => limits.maxRiskPerTrade
  }

  /** The amount of balance one trade may put at risk. */
  function RiskBudget(limits: RiskLimits, balance: real, riskPercent: Option<real>): real {
    PercentOf(balance, EffectiveRiskPercent(limits, riskPercent))
  }

  /** Fixed-fractional sizing, clamped by the notional cap. */
  function PositionSize(limits: RiskLimits, price: real, balance: real, riskPercent: Option<real>): (size: real)
    requires price != 0.0
    ensures (price > 0.0 && balance >= 0.0 && limits.maxPositionSize >= 0.0
             && EffectiveRiskPercent(limits, riskPercent) >= 0.0) ==> size >= 0.0
  {
    NonNegativeShare(balance, EffectiveRiskPercent(limits, riskPercent));
    Min(RiskBudget(limits, balance, riskPercent) / price, limits.maxPositionSize / price)
  }

  /** For a positive price the sized notional respects both the notional cap and the risk budget, and equals one of them. */
  lemma PositionSizeBounds(limits: RiskLimits, price: real, balance: real, riskPercent: Option<real>)
    requires price > 0.0
    ensures var size := PositionSize(limits, price, balance, riskPercent);
      var budget := RiskBudget(limits, balance, riskPercent);
      && size * price <= limits.maxPositionSize
      && size * price <= budget
      && (size * price == limits.maxPositionSize || size * price == budget)
  {
    var budget := RiskBudget(limits, balance, riskPercent);
    var cap := limits.maxPositionSize;
    var size := PositionSize(limits, price, balance, riskPercent);
    assert (budget / price) * price == budget;
    assert (cap / price) * price == cap;
    if budget / price <= cap / price {
      assert size == budget / price;
      MulPositiveMonotone(cap / price, budget / price, price);
    } else {
      assert size == cap / price;
      MulPositiveMonotone(budget / price, cap / price, price);
    }
  }

  /** Sizing with no percentage, with zero, and with the configured limit all agree. */
  lemma PositionSizeFallback(limits: RiskLimits, price: real, balance: real)
    requires price != 0.0
    ensures PositionSize(limits, price, balance, None) == PositionSize(limits, price, balance, Some(limits.maxRiskPerTrade))
    ensures PositionSize(limits, price, balance, Some(0.0)) == PositionSize(limits, price, balance, None)
  {
  }

  predicate IsBuySide(side: string) {
    Text.Lower(side) == "buy"
  }

  /** Stop-loss price: below entry for a buy, above entry for anything else. */
  function StopLossPrice(limits: RiskLimits, entry: real, side: string): (stop: real)
    ensures entry >= 0.0 && limits.stopLossPercent >= 0.0 ==> (IsBuySide(side) ==> stop <= entry) && (!IsBuySide(side) ==> stop >= entry)
    ensures limits.stopLossPercent == 0.0 ==> stop == entry
  {
    NonNegativeShare(entry, limits.stopLossPercent);
    if IsBuySide(side) then entry * (1.0 - limits.stopLossPercent / 100.0)
    else entry * (1.0 + limits.stopLossPercent / 100.0)
  }

  /** Take-profit price: the mirror of the stop-loss price. */
  function TakeProfitPrice(limits: RiskLimits, entry: real, side: string): (take: real)
    ensures entry >= 0.0 && limits.takeProfitPercent >= 0.0 ==> (IsBuySide(side) ==> take >= entry) && (!IsBuySide(side) ==> take <= entry)
    ensures limits.takeProfitPercent == 0.0 ==> take == entry
  {
    NonNegativeShare(entry, limits.takeProfitPercent);
    if IsBuySide(side) then entry * (1.0 + limits.takeProfitPercent / 100.0)
    else entry * (1.0 - limits.takeProfitPercent / 100.0)
  }

  /**
   * The long and short stop prices sit symmetrically around the entry, and so
   * do the take-profit prices; for a long position with non-negative
   * percentages, stop <= entry <= take.
   */
  lemma ExitPricesMirror(limits: RiskLimits, entry: real)
    ensures StopLossPrice(limits, entry, "buy") + StopLossPrice(limits, entry, "sell") == 2.0 * entry
    ensures TakeProfitPrice(limits, entry, "buy") + TakeProfitPrice(limits, entry, "sell") == 2.0 * entry
    ensures entry >= 0.0 && limits.stopLossPercent >= 0.0 ==>
              StopLossPrice(limits, entry, "buy") <= entry <= StopLossPrice(limits, entry, "sell")
    ensures entry >= 0.0 && limits.takeProfitPercent >= 0.0 ==>
              TakeProfitPrice(limits, entry, "sell") <= entry <= TakeProfitPrice(limits, entry, "buy")
  {
    assert Text.Lower("buy") == "buy";
    assert Text.Lower("sell") == "sell";
    if entry >= 0.0 && limits.stopLossPercent >= 0.0 {
      assert entry * (limits.stopLossPercent / 100.0) >= 0.0;
    }
    if entry >= 0.0 && limits.takeProfitPercent >= 0.0 {
      assert entry * (limits.takeProfitPercent / 100.0) >= 0.0;
    }
  }

  /** Stop loss fires when a non-zero stop price is set and the price is at or below it. */
  function CheckStopLoss(p: PositionRisk): (fire: bool)
    ensures fire <==> Truthy(p.stopLossPrice) && p.currentPrice <= p.stopLossPrice.value
  {
    if !Truthy(p.stopLossPrice) then false
    else p.currentPrice <= p.stopLossPrice.value
  }

  /** Take profit fires when a non-zero take price is set and the price is at or above it. */
  function CheckTakeProfit(p: PositionRisk): (fire: bool)
    ensures fire <==> Truthy(p.takeProfitPrice) && p.currentPrice >= p.takeProfitPrice.value
  {
    if !Truthy(p.takeProfitPrice) then false
    else p.currentPrice >= p.takeProfitPrice.value
  }

  /** The risk record `update_position` stores; exit prices are always those of a long position. */
  function MakePositionRisk(limits: RiskLimits, symbol: string, current: real, quantity: real, entry: real): (p: PositionRisk)
    requires entry != 0.0
    ensures p.symbol == symbol && p.stopLossPrice.Some? && p.takeProfitPrice.Some?
    ensures p.unrealizedPnlPercent * entry == (current - entry) * 100.0
    ensures p.unrealizedPnl * 100.0 == p.unrealizedPnlPercent * entry * quantity
  {
    PercentOfEntry(current, entry, quantity);
    PositionRisk(
      symbol, entry, current, quantity,
      (current - entry) * quantity,
      ((current - entry) / entry) * 100.0,
      Some(StopLossPrice(limits, entry, "buy")),
      Some(TakeProfitPrice(limits, entry, "buy")))
  }

  /** The unrealized figures of a recorded position are the price move times the quantity, and the move in percent. */
  lemma RecordedPositionPnl(limits: RiskLimits, symbol: string, current: real, quantity: real, entry: real)
    requires entry != 0.0
    ensures var p := MakePositionRisk(limits, symbol, current, quantity, entry);
      && p.unrealizedPnl == (current - entry) * quantity
      && p.entryPrice == entry && p.currentPrice == current && p.quantity == quantity
      && (current > entry && quantity > 0.0 ==> p.unrealizedPnl > 0.0)
      && (current < entry && quantity > 0.0 ==> p.unrealizedPnl < 0.0)
  {
    if current > entry && quantity > 0.0 {
      MulPositive(current - entry, quantity);
    }
    if current < entry && quantity > 0.0 {
      MulPositive(entry - current, quantity);
    }
  }

  /**
   * For a recorded position with a positive entry and a stop percentage
   * below 100, the stop fires exactly at or below entry*(1 - sl/100).
   */
  lemma RecordedPositionStop(limits: RiskLimits, symbol: string, current: real, quantity: real, entry: real)
    requires entry > 0.0 && limits.stopLossPercent < 100.0
    ensures CheckStopLoss(MakePositionRisk(limits, symbol, current, quantity, entry)) <==>
              current <= entry * (1.0 - limits.stopLossPercent / 100.0)
  {
    var stop := entry * (1.0 - limits.stopLossPercent / 100.0);
    BuyExitPrices(limits, entry);
    MulPositive(entry, 1.0 - limits.stopLossPercent / 100.0);
    var p := MakePositionRisk(limits, symbol, current, quantity, entry);
    assert p.stopLossPrice == Some(stop) && p.currentPrice == current;
    assert Truthy(p.stopLossPrice);
  }

  /**
   * For a recorded position with a positive entry and a take-profit
   * percentage above -100, the take fires exactly at or above entry*(1 + tp/100).
   */
  lemma RecordedPositionTake(limits: RiskLimits, symbol: string, current: real, quantity: real, entry: real)
    requires entry > 0.0 && limits.takeProfitPercent > -100.0
    ensures CheckTakeProfit(MakePositionRisk(limits, symbol, current, quantity, entry)) <==>
              current >= entry * (1.0 + limits.takeProfitPercent / 100.0)
  {
    var take := entry * (1.0 + limits.takeProfitPercent / 100.0);
    BuyExitPrices(limits, entry);
    MulPositive(entry, 1.0 + limits.takeProfitPercent / 100.0);
    var p := MakePositionRisk(limits, symbol, current, quantity, entry);
    assert p.takeProfitPrice == Some(take) && p.currentPrice == current;
    assert Truthy(p.takeProfitPrice);
  }

  /** A long position's exit prices, written out. */
  lemma BuyExitPrices(limits: RiskLimits, entry: real)
    ensures StopLossPrice(limits, entry, "buy") == entry * (1.0 - limits.stopLossPercent / 100.0)
    ensures TakeProfitPrice(limits, entry, "buy") == entry * (1.0 + limits.takeProfitPercent / 100.0)
  {
    assert Text.Lower("buy") == "buy";
  }

  // ---------------------------------------------------------------------------
  // The stateful manager

  class RiskManager {
    var limits: RiskLimits
    var dailyLoss: real
    var dailyTrades: int
    var lastResetDate: int
    var openPositions: map<string, PositionRisk>

    /** The daily counters never go negative. */
    ghost predicate Valid()
      reads this
    {
      dailyLoss >= 0.0 && dailyTrades >= 0
    }

    function Daily(): DailyState
      reads this
    {
      DailyState(dailyLoss, dailyTrades, lastResetDate)
    }

    /** Starts with the given limits, or the defaults when none are given, an empty day and no positions. */
    constructor (limits: Option<RiskLimits>, today: int)
      ensures Valid()
      ensures this.limits == limits.GetOr(DefaultLimits()) && Daily() == DailyState(0.0, 0, today) && openPositions == map[]
    {
      this.limits := limits.GetOr(DefaultLimits());
      dailyLoss := 0.0;
      dailyTrades := 0;
      lastResetDate := today;
      openPositions := map[];
    }

    method ResetDailyStats(today: int)
      requires Valid()
      modifies this`dailyLoss, this`dailyTrades, this`lastResetDate
      ensures Valid()
      ensures Daily() == ResetIfNewDay(old(Daily()), today)
    {
      if today > lastResetDate {
        dailyLoss := 0.0;
        dailyTrades := 0;
        lastResetDate := today;
      }
    }

    /** Resets the day if needed, then applies the ordered admission checks; nothing else changes. */
    method CheckTradeAllowed(symbol: string, side: string, amount: real, price: real, balance: real,
                             existing: map<string, Holding>, today: int) returns (d: Decision)
      requires Valid()
      modifies this`dailyLoss, this`dailyTrades, this`lastResetDate
      ensures Valid()
      ensures Daily() == ResetIfNewDay(old(Daily()), today)
      ensures d == TradeCheck(limits, amount, price, balance, |existing|)
    {
      ResetDailyStats(today);
      if balance < limits.minBalance {
        return Rejected(BelowMinBalance(balance, limits.minBalance));
      }
      var value := amount * price;
      if value > limits.maxPositionSize {
        return Rejected(PositionSizeExceeded(value, limits.maxPositionSize));
      }
      if |existing| >= limits.maxOpenPositions {
        return Rejected(MaxOpenPositionsReached(limits.maxOpenPositions));
      }
      var riskAmount := PercentOf(value, limits.maxRiskPerTrade);
      if riskAmount > PercentOf(balance, limits.maxRiskPerTrade) {
        return Rejected(TradeRiskExceeded(riskAmount, limits.maxRiskPerTrade));
      }
      return Allowed;
    }

    /** Resets the day if needed and reports whether `pnl` would break the daily loss limit, without booking it. */
    method CheckDailyLoss(pnl: real, today: int) returns (d: Decision)
      requires Valid()
      modifies this`dailyLoss, this`dailyTrades, this`lastResetDate
      ensures Valid()
      ensures Daily() == ResetIfNewDay(old(Daily()), today)
      ensures d == DailyLossCheck(limits, Daily(), pnl)
    {
      ResetDailyStats(today);
      if pnl < 0.0 {
        var newLoss := dailyLoss + Abs(pnl);
        if newLoss > limits.maxDailyLoss {
          return Rejected(DailyLossExceeded(newLoss, limits.maxDailyLoss));
        }
      }
      return Allowed;
    }

    /** Resets the day if needed, then books the trade. */
    method RecordTrade(pnl: real, today: int)
      requires Valid()
      modifies this`dailyLoss, this`dailyTrades, this`lastResetDate
      ensures Valid()
      ensures Daily() == BookTrade(ResetIfNewDay(old(Daily()), today), pnl)
    {
      ResetDailyStats(today);
      if pnl < 0.0 {
        dailyLoss := dailyLoss + Abs(pnl);
      }
      dailyTrades := dailyTrades + 1;
    }

    /** Stores the risk record of `symbol`, replacing any earlier one. */
    method UpdatePosition(symbol: string, current: real, quantity: real, entry: real)
      requires entry != 0.0
      modifies this`openPositions
      ensures openPositions == old(openPositions)[symbol := MakePositionRisk(limits, symbol, current, quantity, entry)]
    {
      var unrealized := (current - entry) * quantity;
      var unrealizedPercent := ((current - entry) / entry) * 100.0;
      var position := PositionRisk(
        symbol, entry, current, quantity, unrealized, unrealizedPercent,
        Some(StopLossPrice(limits, entry, "buy")),
        Some(TakeProfitPrice(limits, entry, "buy")));
      openPositions := openPositions[symbol := position];
    }

    method GetDailyStats(today: int) returns (st: DailyStats)
      requires Valid()
      modifies this`dailyLoss, this`dailyTrades, this`lastResetDate
      ensures Valid()
      ensures Daily() == ResetIfNewDay(old(Daily()), today)
      ensures st == DailyStatsOf(limits, Daily())
    {
      ResetDailyStats(today);
      st := DailyStats(
        dailyLoss,
        limits.maxDailyLoss,
        dailyTrades,
        Max(0.0, limits.maxDailyLoss - dailyLoss),
        if limits.maxDailyLoss > 0.0 then dailyLoss / limits.maxDailyLoss * 100.0 else 0.0);
    }

    method ShouldStopTrading(today: int) returns (stop: bool)
      requires Valid()
      modifies this`dailyLoss, this`dailyTrades, this`lastResetDate
      ensures Valid()
      ensures Daily() == ResetIfNewDay(old(Daily()), today)
      ensures stop <==> ShouldStop(limits, Daily())
    {
      ResetDailyStats(today);
      stop := dailyLoss >= limits.maxDailyLoss;
    }
  }
}

=== FILE: rows.dfy ===
/**
 * Positional row access on a table of `n` rows with Python's rules:
 * a negative index counts from the end, an index outside the table is an
 * error, and slice bounds are clamped to the table.
 */
module Rows {
  import opened Wrappers

  /** The row read by `iloc[i]`, or None where pandas raises an IndexError. */
  function RowIndex(n: nat, i: int): (r: Option<nat>)
    ensures r.Some? <==> -(n as int) <= i < n
    ensures r.Some? ==> r.value < n
    ensures r.Some? && i >= 0 ==> r.value == i
    ensures r.Some? && i < 0 ==> r.value == n + i
  {
    if 0 <= i < n then Some(i) else if -(n as int) <= i < 0 then Some(n + i) else None
  }

  /** One slice bound, normalised as Python does: negative counts from the end, then clamped to [0, n]. */
  function SliceBound(n: nat, b: int): (r: nat)
    ensures r <= n
    ensures 0 <= b <= n ==> r == b
  {
    if b < 0 then (if b + n < 0 then 0 else b + n) else if b > n then n else b
  }

  /** The rows `[lo, hi)` selected by `iloc[start:end]`; empty when `lo >= hi`. */
  function SliceRows(n: nat, start: int, end: int): (r: (nat, nat))
    ensures r.0 <= n && r.1 <= n
    ensures 0 <= start && 0 <= end ==> r.1 <= end && (r.0 < r.1 ==> r.0 == start)
  {
    (SliceBound(n, start), SliceBound(n, end))
  }
}

=== FILE: text.dfy ===
/**
 * String helpers used by the trading core: ASCII case mapping (Python's
 * `str.lower()` / `str.upper()` restricted to ASCII) and substring search
 * (Python's `in` on strings).
 */
module Text {

  function LowerChar(c: char): char {
    if 'A' <= c <= 'Z' then (c as int + 32) as char else c
  }

  function UpperChar(c: char): char {
    if 'a' <= c <= 'z' then (c as int - 32) as char else c
  }

  function Lower(s: string): (r: string)
    ensures |r| == |s|
    ensures forall i :: 0 <= i < |s| ==> r[i] == LowerChar(s[i])
  {
    if s == [] then [] else [LowerChar(s[0])] + Lower(s[1..])
  }

  function Upper(s: string): (r: string)
    ensures |r| == |s|
    ensures forall i :: 0 <= i < |s| ==> r[i] == UpperChar(s[i])
  {
    if s == [] then [] else [UpperChar(s[0])] + Upper(s[1..])
  }

  predicate IsPrefix(t: string, s: string) {
    |t| <= |s| && s[..|t|] == t
  }

  /** Python's `t in s` for strings. */
  predicate Contains(s: string, t: string)
    decreases |s|
  {
    IsPrefix(t, s) || (s != [] && Contains(s[1..], t))
  }

  /** Lower-casing a lower-cased string changes nothing. */
  lemma LowerIdempotent(s: string)
    ensures Lower(Lower(s)) == Lower(s)
  {
    var t := Lower(s);
    assert forall i :: 0 <= i < |t| ==> LowerChar(t[i]) == t[i];
  }
}

=== FILE: trading_executor.dfy ===
/**
 * The trading executor: the decision procedure for one proposed trade (HOLD
 * short-circuit, side selection, default sizing, risk admission, then paper
 * or live dispatch), the paper/live mode switch, and the stop-loss /
 * take-profit scan over open positions.
 *
 * The exchange client is abstract: it is either authenticated or not, it
 * quotes a last price (possibly none), and `place_market_order` answers with
 * an `OrderReply` supplied by the caller. The paper order id's timestamp is
 * passed in.
 */
module TradingExecution {
  import opened Wrappers
  import Text
  import opened RiskManagement

  /** The abstract exchange client. */
  datatype ExchangeClient = ExchangeClient(authenticated: bool, lastPrice: Option<real>)

  /** What the exchange answers to a market order. */
  datatype OrderReply =
    | NoReply                                              // the client returned None
    | ErrorReply(message: Entry<string>)                   // a record carrying an "error" key; its `message` key may be missing or hold None
    | OrderPlaced(id: Option<string>, price: Entry<real>)   // an order record; its `price` key may be missing or hold None

  datatype OrderId = PaperOrderId(stamp: real) | ExchangeOrderId(id: Option<string>)

  /** The reasons behind a result with status "error". */
  datatype ErrorKind =
    | NoPositionToSell(symbol: string)
    | ClientNotInitialized
    | NotAuthenticated
    | OrderFailed(message: Option<string>, orderSymbol: string, orderAction: string)

  /** Exceptions that escape `execute_trade`. */
  datatype Exception =
    | ZeroDivision       // sizing a BUY at price 0
    | PriceUnavailable   // arithmetic on a missing price (the client quoted None)
    | QuantityUnavailable  // arithmetic on a held quantity stored as None

  /** The result record of one trade proposal. */
  datatype TradeResult =
    | Skipped(symbol: string)
    | Errored(error: ErrorKind)
    | RiskRejected(reason: Violation, symbol: string, action: string)
    | Executed(mode: string, symbol: string, side: string, amount: real, price: Option<real>, fee: real, orderId: OrderId)
    | Threw(exception: Exception)

  const FeeRate: real := 0.001

  /** The fee charged on a fill: 0.1% of the traded notional. */
  function Fee(amount: real, price: real): (fee: real)
    ensures fee * 1000.0 == amount * price
    ensures amount >= 0.0 && price >= 0.0 ==> 0.0 <= fee <= amount * price
  {
    amount * price * FeeRate
  }

  /** The price used when nothing else supplies one. */
  function MockPrice(symbol: string): (p: real)
    ensures p == 50000.0 <==> Text.Contains(symbol, "BTC")
    ensures p == 3000.0 <==> !Text.Contains(symbol, "BTC")
  {
    if Text.Contains(symbol, "BTC") then 50000.0 else 3000.0
  }

  /** The predicted price if given, else the client's quote if there is a client, else the mock price. */
  function QuotedPrice(predicted: Option<real>, client: Option<ExchangeClient>, symbol: string): (p: Option<real>)
    ensures predicted.Some? ==> p == predicted
    ensures predicted.None? && client.None? ==> p == Some(MockPrice(symbol))
    ensures p.None? <==> predicted.None? && client.Some? && client.value.lastPrice.None?
  {
    if predicted.Some? then predicted
    else if client.Some? then client.value.lastPrice
    else Some(MockPrice(symbol))
  }

  /** "buy" for a BUY action in any letter case; every other action sells. */
  function SideOf(action: string): (side: string)
    ensures side == "buy" <==> Text.Upper(action) == "BUY"
    ensures side == "sell" <==> Text.Upper(action) != "BUY"
  {
    if Text.Upper(action) == "BUY" then "buy" else "sell"
  }

  /** A simulated fill at the requested price with a 0.1% fee. */
  function PaperTrade(symbol: string, side: string, amount: real, price: real, stamp: real): (r: TradeResult)
    ensures r.Executed? && r.mode == "paper" && r.symbol == symbol && r.side == Text.Upper(side)
    ensures r.amount == amount && r.price == Some(price) && r.fee == Fee(amount, price)
    ensures r.orderId == PaperOrderId(stamp)
  {
    Executed("paper", symbol, Text.Upper(side), amount, Some(price), Fee(amount, price), PaperOrderId(stamp))
  }

  /** A market order on the exchange. */
  function LiveTrade(client: Option<ExchangeClient>, reply: OrderReply, symbol: string, side: string,
                     amount: real, price: real): (r: TradeResult)
    ensures client.None? ==> r == Errored(ClientNotInitialized)
    ensures client.Some? && !client.value.authenticated ==> r == Errored(NotAuthenticated)
    ensures r.Executed? <==> client.Some? && client.value.authenticated && !reply.ErrorReply?
    ensures client.Some? && client.value.authenticated && reply.ErrorReply? ==>
              r == Errored(OrderFailed(reply.message.Get("Order failed"), symbol, Text.Upper(side)))
    ensures r.Executed? ==>
              && r.mode == "live" && r.amount == amount && r.side == Text.Upper(side)
              && r.fee == Fee(amount, price)
              && (reply.OrderPlaced? ==> r.price == reply.price.Get(price))
              && (reply.NoReply? ==> r.price == Some(price))
              && r.orderId == ExchangeOrderId(if reply.OrderPlaced? then reply.id else None)
  {
    if client.None? then Errored(ClientNotInitialized)
    else if !client.value.authenticated then Errored(NotAuthenticated)
    else match reply
      case ErrorReply(message) => Errored(OrderFailed(message.Get("Order failed"), symbol, Text.Upper(side)))
      case NoReply => Executed("live", symbol, Text.Upper(side), amount, Some(price), Fee(amount, price), ExchangeOrderId(None))
      case OrderPlaced(id, fill) =>
        Executed("live", symbol, Text.Upper(side), amount, fill.Get(price), Fee(amount, price), ExchangeOrderId(id))
  }

  /** The stage before the risk check: either a finished result, or the side, amount and price to check. */
  datatype Prepared = Finished(result: TradeResult) | Ready(side: string, amount: Option<real>, price: Option<real>)

  /** HOLD short-circuit, price choice, side selection and default sizing. */
  function Prepare(client: Option<ExchangeClient>, limits: RiskLimits, symbol: string, action: string,
                   predicted: Option<real>, amount: Option<real>, balance: real,
                   existing: map<string, Holding>): (p: Prepared)
    ensures p.Finished? ==> !p.result.Executed?
    ensures p.Ready? ==> p.side == SideOf(action)
  {
    if Text.Upper(action) == "HOLD" then Finished(Skipped(symbol))
    else
      var price := QuotedPrice(predicted, client, symbol);
      var side := SideOf(action);
      if amount.Some? then Ready(side, amount, price)
      else if side == "buy" then
        if price.None? then Finished(Threw(PriceUnavailable))
        else if price.value == 0.0 then Finished(Threw(ZeroDivision))
        else Ready(side, Some(PositionSize(limits, price.value, balance, None)), price)
      else if symbol in existing then Ready(side, existing[symbol].quantity.Get(0.0), price)
      else Finished(Errored(NoPositionToSell(symbol)))
  }

  /**
   * The risk check and, when it admits the trade, the dispatch on the mode. A
   * missing price or quantity raises at the first multiplication, after the
   * balance check.
   */
  function CheckAndDispatch(mode: string, client: Option<ExchangeClient>, limits: RiskLimits, symbol: string,
                            action: string, side: string, amount: Option<real>, price: Option<real>, balance: real,
                            existing: map<string, Holding>, reply: OrderReply, stamp: real): (r: TradeResult)
    ensures r.Executed? ==>
              && balance >= limits.minBalance && price.Some? && amount.Some?
              && TradeCheck(limits, amount.value, price.value, balance, |existing|) == Allowed
              && r.side == Text.Upper(side) && r.amount == amount.value
              && (mode != "live" ==> r.mode == "paper" && r.price == price && r.fee == Fee(amount.value, price.value))
    ensures balance >= limits.minBalance && price.Some? && amount.Some?
            && TradeCheck(limits, amount.value, price.value, balance, |existing|).Rejected? ==>
              r == RiskRejected(TradeCheck(limits, amount.value, price.value, balance, |existing|).reason, symbol, action)
    ensures balance >= limits.minBalance && price.Some? && amount.None? ==> r == Threw(QuantityUnavailable)
  {
    if balance < limits.minBalance then RiskRejected(BelowMinBalance(balance, limits.minBalance), symbol, action)
    else if price.None? then Threw(PriceUnavailable)
    else if amount.None? then Threw(QuantityUnavailable)
    else match TradeCheck(limits, amount.value, price.value, balance, |existing|)
      case Rejected(v) => RiskRejected(v, symbol, action)
      case Allowed =>
        if mode == "live" then LiveTrade(client, reply, symbol, side, amount.value, price.value)
        else PaperTrade(symbol, side, amount.value, price.value, stamp)
  }

  /** The whole decision procedure for one trade proposal. */
  function Execute(mode: string, client: Option<ExchangeClient>, limits: RiskLimits, symbol: string, action: string,
                   predicted: Option<real>, amount: Option<real>, balance: real, existing: map<string, Holding>,
                   reply: OrderReply, stamp: real): (r: TradeResult)
    ensures Text.Upper(action) == "HOLD" ==> r == Skipped(symbol)
    ensures r.Executed? ==> Text.Upper(action) != "HOLD" && balance >= limits.minBalance && r.side == Text.Upper(SideOf(action))
  {
    match Prepare(client, limits, symbol, action, predicted, amount, balance, existing)
    case Finished(r) => r
    case Ready(side, qty, price) =>
      CheckAndDispatch(mode, client, limits, symbol, action, side, qty, price, balance, existing, reply, stamp)
  }

  /** HOLD, in any letter case, is skipped before anything else is consulted. */
  lemma HoldIsSkipped(mode: string, client: Option<ExchangeClient>, limits: RiskLimits, symbol: string, action: string,
                      predicted: Option<real>, amount: Option<real>, balance: real, existing: map<string, Holding>,
                      reply: OrderReply, stamp: real)
    requires Text.Upper(action) == "HOLD"
    ensures Execute(mode, client, limits, symbol, action, predicted, amount, balance, existing, reply, stamp) == Skipped(symbol)
    ensures !Prepare(client, limits, symbol, action, predicted, amount, balance, existing).Ready?
  {
  }

  lemma HoldSpellings()
    ensures Text.Upper("hold") == "HOLD" && Text.Upper("Hold") == "HOLD" && Text.Upper("HOLD") == "HOLD"
  {
  }

  /** An executed trade is a BUY exactly when the action upper-cases to BUY; any other action sells. */
  lemma ExecutedSide(mode: string, client: Option<ExchangeClient>, limits: RiskLimits, symbol: string, action: string,
                     predicted: Option<real>, amount: Option<real>, balance: real, existing: map<string, Holding>,
                     reply: OrderReply, stamp: real)
    ensures var r := Execute(mode, client, limits, symbol, action, predicted, amount, balance, existing, reply, stamp);
      r.Executed? ==> (r.side == "BUY" <==> Text.Upper(action) == "BUY") && (r.side == "SELL" <==> Text.Upper(action) != "BUY")
  {
    var r := Execute(mode, client, limits, symbol, action, predicted, amount, balance, existing, reply, stamp);
    var p := Prepare(client, limits, symbol, action, predicted, amount, balance, existing);
    if p.Ready? {
      assert r == CheckAndDispatch(mode, client, limits, symbol, action, p.side, p.amount, p.price, balance, existing, reply, stamp);
      UpperSides();
    }
  }

  lemma UpperSides()
    ensures Text.Upper("buy") == "BUY" && Text.Upper("sell") == "SELL"
  {
  }

  /** A SELL without an amount and without a position for the symbol fails before the risk check. */
  lemma SellWithoutPosition(mode: string, client: Option<ExchangeClient>, limits: RiskLimits, symbol: string, action: string,
                            predicted: Option<real>, balance: real, existing: map<string, Holding>,
                            reply: OrderReply, stamp: real)
    requires Text.Upper(action) != "HOLD" && Text.Upper(action) != "BUY" && symbol !in existing
    ensures Execute(mode, client, limits, symbol, action, predicted, None, balance, existing, reply, stamp)
              == Errored(NoPositionToSell(symbol))
    ensures !Prepare(client, limits, symbol, action, predicted, None, balance, existing).Ready?
  {
  }

  /**
   * A SELL without an amount whose held quantity is stored as `None` reaches
   * the risk check with no amount and raises there, once the balance check has
   * passed; a missing quantity key sells 0 instead.
   */
  lemma NullQuantityRaises(mode: string, client: Option<ExchangeClient>, limits: RiskLimits, symbol: string, action: string,
                           predicted: Option<real>, balance: real, existing: map<string, Holding>,
                           reply: OrderReply, stamp: real)
    requires Text.Upper(action) != "HOLD" && Text.Upper(action) != "BUY" && symbol in existing
    requires balance >= limits.minBalance && QuotedPrice(predicted, client, symbol).Some?
    ensures existing[symbol].quantity.Null? ==>
              Execute(mode, client, limits, symbol, action, predicted, None, balance, existing, reply, stamp)
                == Threw(QuantityUnavailable)
    ensures existing[symbol].quantity.Missing? ==>
              Prepare(client, limits, symbol, action, predicted, None, balance, existing).amount == Some(0.0)
  {
  }

  /** Default sizing: a BUY is sized by the risk manager, a SELL takes the held quantity. */
  lemma DefaultSizing(client: Option<ExchangeClient>, limits: RiskLimits, symbol: string, action: string,
                      predicted: Option<real>, balance: real, existing: map<string, Holding>)
    requires Text.Upper(action) != "HOLD"
    ensures var price := QuotedPrice(predicted, client, symbol);
      var p := Prepare(client, limits, symbol, action, predicted, None, balance, existing);
      && (Text.Upper(action) == "BUY" && price.Some? && price.value != 0.0 ==>
            p == Ready("buy", Some(PositionSize(limits, price.value, balance, None)), price))
      && (Text.Upper(action) != "BUY" && symbol in existing ==>
            p == Ready("sell", existing[symbol].quantity.Get(0.0), price))
  {
  }

  /**
   * A risk rejection never reaches the exchange or the simulator, and an
   * executed trade passed every admission check with the amount and requested
   * price that were checked.
   */
  lemma ExecutedOnlyIfAdmitted(mode: string, client: Option<ExchangeClient>, limits: RiskLimits, symbol: string, action: string,
                               predicted: Option<real>, amount: Option<real>, balance: real, existing: map<string, Holding>,
                               reply: OrderReply, stamp: real)
    ensures var r := Execute(mode, client, limits, symbol, action, predicted, amount, balance, existing, reply, stamp);
      var p := Prepare(client, limits, symbol, action, predicted, amount, balance, existing);
      && (r.Executed? ==> p.Ready? && p.price.Some? && p.amount.Some?
                          && TradeCheck(limits, p.amount.value, p.price.value, balance, |existing|) == Allowed
                          && r.amount == p.amount.value)
      && (p.Ready? && p.price.Some? && p.amount.Some?
          && TradeCheck(limits, p.amount.value, p.price.value, balance, |existing|).Rejected? ==>
            r == RiskRejected(TradeCheck(limits, p.amount.value, p.price.value, balance, |existing|).reason, symbol, action))
  {
  }

  /** Outside live mode an admitted trade is a paper fill at the requested price with fee amount*price*0.001. */
  lemma PaperFill(mode: string, client: Option<ExchangeClient>, limits: RiskLimits, symbol: string, action: string,
                  predicted: Option<real>, amount: Option<real>, balance: real, existing: map<string, Holding>,
                  reply: OrderReply, stamp: real)
    requires mode != "live"
    ensures var r := Execute(mode, client, limits, symbol, action, predicted, amount, balance, existing, reply, stamp);
      var p := Prepare(client, limits, symbol, action, predicted, amount, balance, existing);
      r.Executed? ==> r.mode == "paper" && p.Ready? && p.price.Some? && r.price == p.price && r.fee == Fee(r.amount, p.price.value)
  {
    var p := Prepare(client, limits, symbol, action, predicted, amount, balance, existing);
    var r := Execute(mode, client, limits, symbol, action, predicted, amount, balance, existing, reply, stamp);
    if p.Ready? {
      assert r == CheckAndDispatch(mode, client, limits, symbol, action, p.side, p.amount, p.price, balance, existing, reply, stamp);
    } else {
      assert r == p.result;
    }
  }

  /** In live mode without an authenticated client nothing is executed. */
  lemma LiveNeedsAuthenticatedClient(client: Option<ExchangeClient>, limits: RiskLimits, symbol: string, action: string,
                                     predicted: Option<real>, amount: Option<real>, balance: real, existing: map<string, Holding>,
                                     reply: OrderReply, stamp: real)
    requires client.None? || !client.value.authenticated
    ensures !Execute("live", client, limits, symbol, action, predicted, amount, balance, existing, reply, stamp).Executed?
  {
  }

  // ---------------------------------------------------------------------------
  // Mode switching

  datatype ModeState = ModeState(mode: string, client: Option<ExchangeClient>)

  /**
   * Switching the mode. `requested` says whether an exchange was named;
   * `connect` is what connecting to it yields (None when connecting fails).
   */
  function Switched(old_: ModeState, newMode: string, requested: bool, connect: Option<ExchangeClient>): ModeState {
    var m := Text.Lower(newMode);
    if m == "live" && old_.mode == "paper" then
      if requested then
        if connect.Some? then ModeState(m, connect) else ModeState("paper", old_.client)
      else ModeState(m, old_.client)
    else if m == "paper" then ModeState(m, None)
    else ModeState(m, old_.client)
  }

  /** Switching to paper clears the client; a failed paper-to-live switch stays in paper; a successful one holds the new client. */
  lemma SwitchModeOutcomes(s: ModeState, newMode: string, requested: bool, connect: Option<ExchangeClient>)
    ensures Text.Lower(newMode) == "paper" ==> Switched(s, newMode, requested, connect) == ModeState("paper", None)
    ensures s.mode == "paper" && Text.Lower(newMode) == "live" && requested && connect.None? ==>
              Switched(s, newMode, requested, connect) == s
    ensures s.mode == "paper" && Text.Lower(newMode) == "live" && requested && connect.Some? ==>
              Switched(s, newMode, requested, connect) == ModeState("live", connect)
    ensures Text.Lower(newMode) != "paper" && Text.Lower(newMode) != "live" ==>
              Switched(s, newMode, requested, connect) == ModeState(Text.Lower(newMode), s.client)
  {
  }

  // ---------------------------------------------------------------------------
  // Stop-loss / take-profit scan

  /**
   * One entry of the positions list. A missing symbol reads as None; each
   * numeric key may be missing (read as 0), hold None, or hold a number.
   */
  datatype PositionEntry =
    PositionEntry(symbol: Option<string>, avgPrice: Entry<real>, currentPrice: Entry<real>, quantity: Entry<real>)

  datatype CloseReason = StopLossHit | TakeProfitHit

  /** A SELL of the full quantity at the current price. */
  datatype CloseAction = CloseAction(symbol: string, reason: CloseReason, amount: real, price: real)

  /** What the scan returns: its actions, or the TypeError of a None in the pnl arithmetic. */
  datatype ScanResult = Closing(actions: seq<CloseAction>) | ScanTypeError

  /**
   * The scan's guard: a truthy symbol, and average and current prices that
   * do not compare equal to 0. A missing price reads as 0 and is skipped; a
   * None price is not equal to 0 and passes.
   */
  predicate PassesGuard(p: PositionEntry)
    ensures PassesGuard(p) ==> p.symbol.Some? && |p.symbol.value| > 0 && !p.avgPrice.Missing? && !p.currentPrice.Missing?
    ensures p.symbol.Some? && |p.symbol.value| > 0 && p.avgPrice.Null? && p.currentPrice.Null? ==> PassesGuard(p)
  {
    && p.symbol.Some? && p.symbol.value != ""
    && p.avgPrice.Get(0.0) != Some(0.0) && p.currentPrice.Get(0.0) != Some(0.0)
  }

  /** An entry past the guard with a None price or quantity makes `update_position`'s pnl arithmetic raise. */
  predicate Raises(p: PositionEntry) {
    PassesGuard(p) && (p.avgPrice.Null? || p.currentPrice.Null? || p.quantity.Null?)
  }

  /** The entries whose risk is recorded and checked: past the guard, with numbers in all three fields. */
  predicate Eligible(p: PositionEntry)
    ensures Eligible(p) <==> PassesGuard(p) && !Raises(p)
    ensures Eligible(p) ==> p.avgPrice.Present? && p.currentPrice.Present? && p.avgPrice.value * p.currentPrice.value != 0.0
  {
    && p.symbol.Some? && p.symbol.value != ""
    && p.avgPrice.Present? && p.avgPrice.value != 0.0
    && p.currentPrice.Present? && p.currentPrice.value != 0.0
    && !p.quantity.Null?
  }

  /** The quantity of an entry whose `quantity` is not None: 0 when the key is missing. */
  function Quantity(p: PositionEntry): (q: real)
    requires !p.quantity.Null?
    ensures p.quantity.Get(0.0) == Some(q)
  {
    if p.quantity.Present? then p.quantity.value else 0.0
  }

  /** The risk record the scan stores for an eligible entry. */
  function RiskOf(limits: RiskLimits, p: PositionEntry): PositionRisk
    requires Eligible(p)
  {
    MakePositionRisk(limits, p.symbol.value, p.currentPrice.value, Quantity(p), p.avgPrice.value)
  }

  /** The action for one entry: stop loss is checked before take profit, and at most one fires. */
  function CloseActionFor(limits: RiskLimits, p: PositionEntry): (a: Option<CloseAction>)
    ensures a.Some? ==> Eligible(p) && a.value.symbol == p.symbol.value
                        && a.value.amount == Quantity(p) && a.value.price == p.currentPrice.value
    ensures Eligible(p) ==> (a.Some? && a.value.reason == StopLossHit <==> CheckStopLoss(RiskOf(limits, p)))
    ensures Eligible(p) ==>
              (a.Some? && a.value.reason == TakeProfitHit <==>
                 !CheckStopLoss(RiskOf(limits, p)) && CheckTakeProfit(RiskOf(limits, p)))
  {
    if !Eligible(p) then None
    else
      var risk := RiskOf(limits, p);
      if CheckStopLoss(risk) then Some(CloseAction(p.symbol.value, StopLossHit, Quantity(p), p.currentPrice.value))
      else if CheckTakeProfit(risk) then Some(CloseAction(p.symbol.value, TakeProfitHit, Quantity(p), p.currentPrice.value))
      else None
  }

  function OptionToSeq<T>(o: Option<T>): seq<T> {
    if o.Some? then [o.value] else []
  }

  /** The actions of the scan, in list order. */
  function CloseActions(limits: RiskLimits, ps: seq<PositionEntry>): (acts: seq<CloseAction>)
    ensures |acts| <= |ps|
    ensures forall k :: 0 <= k < |acts| ==> acts[k].symbol != ""
    decreases |ps|
  {
    if ps == [] then []
    else CloseActions(limits, ps[..|ps| - 1]) + OptionToSeq(CloseActionFor(limits, ps[|ps| - 1]))
  }

  /** The positions of the entries that call for an action, in increasing order. */
  function FiringIndices(limits: RiskLimits, ps: seq<PositionEntry>): (idx: seq<nat>)
    ensures forall k :: 0 <= k < |idx| ==> idx[k] < |ps| && CloseActionFor(limits, ps[idx[k]]).Some?
    ensures forall k, l :: 0 <= k < l < |idx| ==> idx[k] < idx[l]
    ensures forall j :: 0 <= j < |ps| && CloseActionFor(limits, ps[j]).Some? ==> j in idx
    decreases |ps|
  {
    if ps == [] then []
    else
      var init := ps[..|ps| - 1];
      var before := FiringIndices(limits, init);
      assert forall j :: 0 <= j < |init| ==> init[j] == ps[j];
      before + (if CloseActionFor(limits, ps[|ps| - 1]).Some? then [|ps| - 1] else [])
  }

  /** The risk map after the scan: every eligible entry's record written in list order. */
  function TrackRisks(limits: RiskLimits, m: map<string, PositionRisk>, ps: seq<PositionEntry>): (r: map<string, PositionRisk>)
    ensures m.Keys <= r.Keys
    ensures forall s :: s in r && (s !in m || r[s] != m[s]) ==> r[s].symbol == s && s != ""
    decreases |ps|
  {
    if ps == [] then m
    else
      var before := TrackRisks(limits, m, ps[..|ps| - 1]);
      var p := ps[|ps| - 1];
      if Eligible(p) then before[p.symbol.value := RiskOf(limits, p)] else before
  }

  /** How many entries the scan gets through: the position of the first entry that raises, or all of them. */
  function Processed(ps: seq<PositionEntry>): (n: nat)
    ensures n <= |ps|
    ensures forall j :: 0 <= j < n ==> !Raises(ps[j])
    ensures n < |ps| ==> Raises(ps[n])
    decreases |ps|
  {
    if ps == [] then 0
    else if Raises(ps[0]) then 0
    else
      var rest := Processed(ps[1..]);
      assert forall j :: 1 <= j <= rest ==> ps[1..][j - 1] == ps[j];
      1 + rest
  }

  /** The scan's result: a TypeError when some entry raises, otherwise the actions in list order. */
  function Scan(limits: RiskLimits, ps: seq<PositionEntry>): (r: ScanResult)
    ensures r.ScanTypeError? <==> exists j :: 0 <= j < |ps| && Raises(ps[j])
    ensures r.Closing? ==> r.actions == CloseActions(limits, ps)
  {
    if Processed(ps) < |ps| then ScanTypeError else Closing(CloseActions(limits, ps))
  }

  /**
   * An entry past the guard with a None average price, current price or
   * quantity aborts the whole scan; a missing quantity is read as 0 and the
   * entry is scanned.
   */
  lemma NullFieldRaises(limits: RiskLimits, ps: seq<PositionEntry>, j: nat)
    requires j < |ps| && PassesGuard(ps[j])
    ensures ps[j].avgPrice.Null? || ps[j].currentPrice.Null? || ps[j].quantity.Null? ==> Scan(limits, ps) == ScanTypeError
    ensures ps[j].quantity.Missing? && ps[j].avgPrice.Present? && ps[j].currentPrice.Present? ==>
              Eligible(ps[j]) && Quantity(ps[j]) == 0.0
  {
    if ps[j].avgPrice.Null? || ps[j].currentPrice.Null? || ps[j].quantity.Null? {
      assert Raises(ps[j]);
    }
  }

  /** The scan emits no more actions than entries, and every action is the one some entry calls for. */
  lemma {:induction false} CloseActionsSound(limits: RiskLimits, ps: seq<PositionEntry>)
    ensures |CloseActions(limits, ps)| <= |ps|
    ensures forall k :: 0 <= k < |CloseActions(limits, ps)| ==>
              exists j :: 0 <= j < |ps| && CloseActionFor(limits, ps[j]) == Some(CloseActions(limits, ps)[k])
    decreases |ps|
  {
    if ps != [] {
      var init := ps[..|ps| - 1];
      CloseActionsSound(limits, init);
      var acts := CloseActions(limits, ps);
      assert acts == CloseActions(limits, init) + OptionToSeq(CloseActionFor(limits, ps[|ps| - 1]));
      forall k | 0 <= k < |acts|
        ensures exists j :: 0 <= j < |ps| && CloseActionFor(limits, ps[j]) == Some(acts[k])
      {
        if k < |CloseActions(limits, init)| {
          var j :| 0 <= j < |init| && CloseActionFor(limits, init[j]) == Some(CloseActions(limits, init)[k]);
          assert ps[j] == init[j];
        } else {
          assert CloseActionFor(limits, ps[|ps| - 1]) == Some(acts[k]);
        }
      }
    }
  }

  /**
   * The scan emits exactly one action per entry that calls for one, in list
   * order: the k-th action is the one of the k-th firing entry.
   */
  lemma {:induction false} CloseActionsOnePerEntry(limits: RiskLimits, ps: seq<PositionEntry>)
    ensures |CloseActions(limits, ps)| == |FiringIndices(limits, ps)|
    ensures forall k :: 0 <= k < |CloseActions(limits, ps)| ==>
              Some(CloseActions(limits, ps)[k]) == CloseActionFor(limits, ps[FiringIndices(limits, ps)[k]])
    decreases |ps|
  {
    if ps != [] {
      var init := ps[..|ps| - 1];
      CloseActionsOnePerEntry(limits, init);
      var acts := CloseActions(limits, ps);
      var idx := FiringIndices(limits, ps);
      var a := CloseActionFor(limits, ps[|ps| - 1]);
      assert acts == CloseActions(limits, init) + OptionToSeq(a);
      assert idx == FiringIndices(limits, init) + (if a.Some? then [|ps| - 1] else []);
      forall k | 0 <= k < |acts|
        ensures Some(acts[k]) == CloseActionFor(limits, ps[idx[k]])
      {
        if k < |CloseActions(limits, init)| {
          assert ps[idx[k]] == init[FiringIndices(limits, init)[k]];
        }
      }
    }
  }

  /** Every entry whose stop loss or take profit fires gets its SELL in the scan's output. */
  lemma CloseActionsComplete(limits: RiskLimits, ps: seq<PositionEntry>, j: nat)
    requires j < |ps| && CloseActionFor(limits, ps[j]).Some?
    ensures CloseActionFor(limits, ps[j]).value in CloseActions(limits, ps)
  {
    CloseActionsOnePerEntry(limits, ps);
    var idx := FiringIndices(limits, ps);
    var k :| 0 <= k < |idx| && idx[k] == j;
    assert CloseActions(limits, ps)[k] == CloseActionFor(limits, ps[j]).value;
  }

  /** Every eligible entry, and only those, adds its symbol to the risk map. */
  lemma {:induction false} TrackRisksKeys(limits: RiskLimits, m: map<string, PositionRisk>, ps: seq<PositionEntry>)
    ensures TrackRisks(limits, m, ps).Keys ==
              m.Keys + set j | 0 <= j < |ps| && Eligible(ps[j]) :: ps[j].symbol.value
    decreases |ps|
  {
    if ps != [] {
      var init := ps[..|ps| - 1];
      TrackRisksKeys(limits, m, init);
      var last := |ps| - 1;
      var sInit := set j | 0 <= j < |init| && Eligible(init[j]) :: init[j].symbol.value;
      var sAll := set j | 0 <= j < |ps| && Eligible(ps[j]) :: ps[j].symbol.value;
      assert sAll == sInit + (if Eligible(ps[last]) then {ps[last].symbol.value} else {}) by {
        forall x | x in sAll ensures x in sInit + (if Eligible(ps[last]) then {ps[last].symbol.value} else {}) {
          var j :| 0 <= j < |ps| && Eligible(ps[j]) && ps[j].symbol.value == x;
          if j < last { assert init[j] == ps[j]; }
        }
        forall x | x in sInit ensures x in sAll {
          var j :| 0 <= j < |init| && Eligible(init[j]) && init[j].symbol.value == x;
          assert ps[j] == init[j];
        }
      }
    }
  }

  /**
   * The record stored for a symbol after the scan: that of the last eligible
   * entry with the symbol, or the previous record when no eligible entry has it.
   */
  lemma {:induction false} TrackRisksValues(limits: RiskLimits, m: map<string, PositionRisk>, ps: seq<PositionEntry>, s: string)
    ensures s in m && (forall j :: 0 <= j < |ps| && Eligible(ps[j]) ==> ps[j].symbol != Some(s)) ==>
              s in TrackRisks(limits, m, ps) && TrackRisks(limits, m, ps)[s] == m[s]
    ensures forall j :: 0 <= j < |ps| && Eligible(ps[j]) && ps[j].symbol == Some(s)
                        && (forall k :: j < k < |ps| && Eligible(ps[k]) ==> ps[k].symbol != Some(s)) ==>
              s in TrackRisks(limits, m, ps) && TrackRisks(limits, m, ps)[s] == RiskOf(limits, ps[j])
    decreases |ps|
  {
    if ps != [] {
      var init := ps[..|ps| - 1];
      var last := |ps| - 1;
      TrackRisksValues(limits, m, init, s);
      assert forall j :: 0 <= j < |init| ==> init[j] == ps[j];
      var before := TrackRisks(limits, m, init);
      if Eligible(ps[last]) && ps[last].symbol == Some(s) {
        assert TrackRisks(limits, m, ps) == before[s := RiskOf(limits, ps[last])];
      } else {
        assert s in before ==> s in TrackRisks(limits, m, ps) && TrackRisks(limits, m, ps)[s] == before[s];
      }
    }
  }

  // ---------------------------------------------------------------------------
  // The stateful executor

  class TradingExecutor {
    var mode: string
    var client: Option<ExchangeClient>
    const risk: RiskManager

    /**
     * `connect` is what connecting to the exchange yields in live mode (None
     * when it fails, which falls back to paper mode).
     */
    constructor (mode: string, connect: Option<ExchangeClient>, risk: RiskManager)
      ensures this.risk == risk
      ensures Text.Lower(mode) == "live" && connect.Some? ==> this.mode == "live" && client == connect
      ensures Text.Lower(mode) == "live" && connect.None? ==> this.mode == "paper" && client.None?
      ensures Text.Lower(mode) != "live" ==> this.mode == Text.Lower(mode) && client.None?
    {
      var m := Text.Lower(mode);
      var c: Option<ExchangeClient> := None;
      if m == "live" {
        if connect.Some? {
          c := connect;
        } else {
          m := "paper";
        }
      }
      this.mode := m;
      this.client := c;
      this.risk := risk;
    }

    method SwitchMode(newMode: string, requested: bool, connect: Option<ExchangeClient>)
      modifies this`mode, this`client
      ensures ModeState(mode, client) == Switched(old(ModeState(mode, client)), newMode, requested, connect)
    {
      var oldMode := mode;
      mode := Text.Lower(newMode);
      if mode == "live" && oldMode == "paper" {
        if requested {
          if connect.Some? {
            client := connect;
          } else {
            mode := "paper";
          }
        }
      } else if mode == "paper" {
        client := None;
      }
    }

    /**
     * Executes one proposal. The daily window is reset exactly when the risk
     * check is reached; nothing else in the risk manager changes.
     */
    method ExecuteTrade(symbol: string, action: string, predicted: Option<real>, amount: Option<real>, balance: real,
                        existing: map<string, Holding>, reply: OrderReply, stamp: real, today: int)
      returns (r: TradeResult)
      requires risk.Valid()
      modifies risk`dailyLoss, risk`dailyTrades, risk`lastResetDate
      ensures risk.Valid()
      ensures r == Execute(mode, client, risk.limits, symbol, action, predicted, amount, balance, existing, reply, stamp)
      ensures risk.Daily() ==
                if Prepare(client, risk.limits, symbol, action, predicted, amount, balance, existing).Ready?
                then ResetIfNewDay(old(risk.Daily()), today) else old(risk.Daily())
    {
      if Text.Upper(action) == "HOLD" {
        return Skipped(symbol);
      }
      var price := QuotedPrice(predicted, client, symbol);
      var side := SideOf(action);
      var qty: Option<real>;
      if amount.Some? {
        qty := amount;
      } else if side == "buy" {
        if price.None? {
          return Threw(PriceUnavailable);
        } else if price.value == 0.0 {
          return Threw(ZeroDivision);
        }
        qty := Some(PositionSize(risk.limits, price.value, balance, None));
      } else if symbol in existing {
        qty := existing[symbol].quantity.Get(0.0);
      } else {
        return Errored(NoPositionToSell(symbol));
      }
      if price.None? || qty.None? {
        risk.ResetDailyStats(today);
        if balance < risk.limits.minBalance {
          return RiskRejected(BelowMinBalance(balance, risk.limits.minBalance), symbol, action);
        }
        return Threw(if price.None? then PriceUnavailable else QuantityUnavailable);
      }
      var decision := risk.CheckTradeAllowed(symbol, side, qty.value, price.value, balance, existing, today);
      if decision.Rejected? {
        return RiskRejected(decision.reason, symbol, action);
      }
      if mode == "live" {
        r := LiveTrade(client, reply, symbol, side, qty.value, price.value);
      } else {
        r := PaperTrade(symbol, side, qty.value, price.value, stamp);
      }
    }

    /**
     * Scans the positions: records each eligible entry's risk and emits at
     * most one SELL per entry, stop loss before take profit. An entry past
     * the guard with a None among its numbers raises, after the risk records
     * of the entries before it were written.
     */
    method CheckAndClosePositions(positions: seq<PositionEntry>) returns (result: ScanResult)
      modifies risk`openPositions
      ensures result == Scan(risk.limits, positions)
      ensures risk.openPositions == TrackRisks(risk.limits, old(risk.openPositions), positions[..Processed(positions)])
    {
      var actions := [];
      var i := 0;
      while i < |positions|
        invariant 0 <= i <= Processed(positions)
        invariant actions == CloseActions(risk.limits, positions[..i])
        invariant risk.openPositions == TrackRisks(risk.limits, old(risk.openPositions), positions[..i])
      {
        var pos := positions[i];
        assert positions[..i + 1][..i] == positions[..i];
        var symbol := pos.symbol;
        var entryPrice := pos.avgPrice.Get(0.0);
        var currentPrice := pos.currentPrice.Get(0.0);
        var quantity := pos.quantity.Get(0.0);
        if symbol.Some? && symbol.value != "" && entryPrice != Some(0.0) && currentPrice != Some(0.0) {
          if entryPrice.None? || currentPrice.None? || quantity.None? {
            assert Raises(pos);
            return ScanTypeError;
          }
          risk.UpdatePosition(symbol.value, currentPrice.value, quantity.value, entryPrice.value);
          var positionRisk := risk.openPositions[symbol.value];
          if CheckStopLoss(positionRisk) {
            actions := actions + [CloseAction(symbol.value, StopLossHit, quantity.value, currentPrice.value)];
          } else if CheckTakeProfit(positionRisk) {
            actions := actions + [CloseAction(symbol.value, TakeProfitHit, quantity.value, currentPrice.value)];
          }
        }
        i := i + 1;
      }
      assert positions[..i] == positions;
      return Closing(actions);
    }
  }
}

=== FILE: wrappers.dfy ===
/** Optional values: Python's `None` versus a present value. */
module Wrappers {

  datatype Option<+T> = None | Some(value: T) {

    /** The value if present, otherwise `default` (Python's `x if x is not None else default`). */
    function GetOr(default: T): T {
      match this
      case Some(v) => v
      case None => default
    }
  }

  /**
   * The value under a key of a Python dict: the key is missing, it holds
   * `None`, or it holds a value.
   */
  datatype Entry<+T> = Missing | Null | Present(value: T) {

    /** `d.get(key, default)`: the default for a missing key, `None` for a stored `None`. */
    function Get(default: T): (r: Option<T>)
      ensures this.Missing? ==> r == Some(default)
      ensures this.Null? ==> r == None
      ensures this.Present? ==> r == Some(this.value)
    {
      match this
      case Missing => Some(default)
      case Null => None
      case Present(v) => Some(v)
    }
  }
}
